=== FILE: README.md ===
# A model of the cg-vicvillion state-sync core

The repository is a real-time state-sync server. A server holds one
JSON-like state tree. Actions mutate a recording draft of the tree and
yield a batch of patches. Each patch is a path plus an optional value, and
an absent value means deletion. The server sends every connected peer the
patches its scopes see, appends the batch to a persistent log, and commits
it to the tree. At startup the log is replayed and then collapsed to a
single snapshot. Browser clients mirror the tree by applying the patches
they receive.

This project models that core in Dafny and proves properties of the model.
Each module follows one part of the program:

- `Values` and `Updates` hold the tree, paths, patches, and the path
  reading `slice?.[p]`. They also hold the persistent `setIn`/`deleteIn`
  that the immutable-collection revisions and the clients use to apply
  patches.
- `Text` covers decimal index keys, `join`/`split`, and the key order used
  when the keys of an object are visited.
- `ArrayOps` covers the eight array mutators the engine intercepts.
- `Flush` models `flush`, which applies patches to the tree in place. Three
  revisions are covered: the current one (server/src/state.ts), the legacy
  one (server/state.ts), and `CurrentFixed`, which exists only in the
  model: the current revision with its set trap returning true.
- `Engine` is the patch-recording engine (`withStream`, `snap`, `flush`,
  the proxy read and write traps, and the mutator capture).
- `Persist` is the patch log (server/src/persist.ts).
- `Registry` is the peer registry, the scope filter, the initial view and
  the per-peer routing that every server revision shares.
- `Config` is the `box(model)` split into initial state and actions.
- `Box` covers the four stream-per-`set` servers: server/src/box.ts,
  lib/src/server.ts, bento/box.ts and lib/src/server/websocket.ts. Only
  server/src/box.ts uses the engine and log of server/src/state.ts and
  server/src/persist.ts; the other three import revisions of `State` and
  `Persist` that are not part of this model (see `Box.StreamStep` under
  "Left out").
- `BunCG` is the server of server/buncg.ts, built on the legacy engine.
- `Diff` and `DiffServer` model lib/buncg.ts. That server computes its
  batch with the structural diff `#deltaPatches`.
- `WatchServer` and `ModelServer` are the watcher servers of src/buncg.ts
  and src/model.ts.
- `Client` models the browser clients of client/src/client.ts and
  consume/src/client.ts.

Several behaviours of the code look unintended. For each one, the model
keeps the code as written, usually selected by a `Mode` or `Revision`
parameter or a `Variant`, exhibits the discrepancy on a concrete input, and
proves the intended property of a corrected definition. See "## Findings".

Some behaviours of the code are easy to miss, and the model keeps them:

- Every registered peer is sent one message per batch, even when its
  filtered list is empty.
- The stream servers send, then log, then commit.
- A mutator copies the array it was called on. When the array has no
  patch at its own path yet, that is the committed array, and an element
  write made earlier in the same stream is overwritten. When it has one,
  the copy reads every element through the view, so element writes
  recorded since that patch are kept.
- A lookup in the sink compares paths joined with a backslash, not paths
  themselves.
- Outside a stream, the current engine's set trap returns the value it
  stored. A falsy value therefore makes the assignment throw after the
  value is stored, in `flush` as anywhere else.

## Model

| member | source | states |
|---|---|---|
| `ArrayOps.Run` | server/src/state.ts:64-72 | `push`/`unshift` return the new length; `reverse`/`sort`/`copyWithin` return the array itself; `pop`/`shift` return `undefined` exactly on an empty array; `sort` permutes the elements |
| `ArrayOps.SortBy` | server/src/state.ts:159-168 | the sorted copy holds exactly the input's elements (same multiset) |
| `ArrayOps.InsertSorted` | server/src/state.ts:159-168 | with a total comparator, inserting into an ordered list keeps it ordered |
| `ArrayOps.SortBySorted` | server/src/state.ts:159-168 | with a total comparator, no element of the sorted copy compares greater than the next |
| `ArrayOps.DefaultCompareTotal` | server/src/state.ts:159-168 | the default comparator (string order of the rendered values) is total |
| `ArrayOps.SortOrders` | server/src/state.ts:64-72 | `sort` with no comparator, or a total one, returns the array holding the same elements, each ordered before the next |
| `ArrayOps.Reversed` | server/src/state.ts:159-168 | element `i` of the reversed copy is element `len-1-i` of the input |
| `ArrayOps.SpliceBounds` | server/src/state.ts:159-168 | the start and delete count of a `splice` never reach past the array's end |
| `ArrayOps.PopUndoesPush` | server/src/state.ts:64-72 | `pop` after `push(v)` returns `v` and restores the array |
| `ArrayOps.ShiftUndoesUnshift` | server/src/state.ts:64-72 | `shift` after `unshift(v)` returns `v` and restores the array |
| `ArrayOps.ReverseInvolutive` | server/src/state.ts:64-72 | reversing twice restores the array |
| `ArrayOps.SpliceUndo` | server/src/state.ts:64-72 | a `splice` is undone by the inverse `splice` that re-inserts the removed elements |
| `ArrayOps.CopyWithinOntoItself` | server/src/state.ts:64-72 | `copyWithin` onto its own source position changes nothing |
| `Engine.Create` | server/src/state.ts:47-49 | a new engine holds the given tree, an empty sink, and no open stream |
| `Engine.LastIndex` | server/src/state.ts:113-115 | finds the last sink patch at the same joined location, with no match after it; absent exactly when no patch matches |
| `Engine.Step` | server/src/state.ts:122-139 | a view operation keeps the stream flag; in a stream it only appends to the sink; outside a stream it leaves the sink alone, and a falsy assignment in the current revision is an error; a throw is an error |
| `Engine.RunBody` | server/src/state.ts:4-11 | in a stream the body leaves the committed tree untouched and only extends the sink; outside a stream it never touches the sink |
| `Engine.WithStream` | server/src/state.ts:4-11 | the stream is closed afterwards, also after a throw; the tree is unchanged; the earlier sink is kept as a prefix |
| `Engine.Snap` | server/src/state.ts:13-16 | succeeds exactly when no stream is open, and then returns the committed tree |
| `Engine.FlushSink` | server/src/state.ts:18-40 | refused while streaming; otherwise the tree becomes the flush of the sink, which stops at the first failing patch or rejected falsy store, and the sink is emptied also then |
| `Engine.ReadYourWrites` | server/src/state.ts:122-132 | during a stream, an assignment is returned by the next read of the same path |
| `Engine.ReadYourDeletes` | server/src/state.ts:93-104 | during a stream, a deleted object property reads back as `undefined` |
| `Engine.StreamAssignRecords` | server/src/state.ts:130-139 | a stream assignment appends exactly the patch `{at ++ [key], value}` and changes nothing else |
| `Engine.ArrayDeleteNotRecorded` | server/src/state.ts:57-78 | `delete` on an array element in a stream records no patch (arrays have no delete trap) |
| `Engine.DirectAssignIsFlush` | server/src/state.ts:122-129 | outside a stream, an assignment on a container succeeds exactly when flushing its patch raises no error, and then leaves the flushed tree |
| `Engine.DirectFalsyAssignThrows` | server/src/state.ts:124-127 | outside a stream, assigning `0` is a TypeError in the current revision and succeeds with the fixed trap |
| `Engine.SameKeyIsEquality` | server/src/state.ts:113-115 | for paths without backslashes, the joined-path comparison is path equality |
| `Engine.JoinCollision` | server/src/state.ts:113-115 | a key containing a backslash makes a write at `["a\\b"]` visible at `["a","b"]` |
| `Engine.MutateRecordsArray` | server/src/state.ts:64-72 | in the current revision, with either trap, a mutator in a stream on an array with no patch at its own path records one patch there, holding the mutated copy of the array as read, and leaves the tree untouched |
| `Engine.SliceView` | server/src/state.ts:69 | `.slice()` through a proxy reads each element at its own path through the view, and fails exactly when one reads `undefined` |
| `Engine.MutatorBase` | server/src/state.ts:69 | without a patch at the array's path the mutator copies the array it was called on; that copy fails exactly on a non-array |
| `Engine.MutateFoldsElementWrites` | server/src/state.ts:69-71 | with a patch at the array's path, the mutator copies that patch's array with every element read at its own path, in both revisions |
| `Engine.ElementWriteFolded` | server/src/state.ts:69-75 | `{l: [1,2]}` with `push(3)`, `l[0] = 9`, `push(4)` records `[9,2,3,4]` last |
| `Engine.ReadCommitted` | server/src/state.ts:109-120 | with nothing pending, a successful read returns what the committed tree holds there |
| `Engine.AssignExisting` | server/src/state.ts:25-34 | replacing the value at a path that already holds one always succeeds |
| `Engine.MutateThenFlush` | server/src/state.ts:64-72 | in the current revision, with either trap, one mutator in a fresh stream, then a flush, leaves the mutated array at that path |
| `Engine.FixedPushRecordsCopy` | server/src/state.ts:64-72 | with the fixed trap, `push(8)` on `{list: [7]}` records `[7, 8]` and the flush holds it, as the current revision does |
| `Engine.LegacyPushRecordsLength` | server/state.ts:81-90 | the legacy revision records the mutator's return value: after `push` the array's path holds its new length |
| `Engine.PendingElementWriteLost` | server/src/state.ts:69-71 | with no patch at the array's path, an element write earlier in a stream is overwritten by a later mutator's whole-array patch |
| `Engine.DeeperPatchShadowsAncestor` | server/src/state.ts:109-120 | a patch below a path keeps answering reads after a later ancestor assignment, although flushing lets the ancestor win |
| `Flush.Stored` | server/state.ts:108-116 | the legacy revision stores only truthy values and deletes the key otherwise; the current one stores every defined value (its trap may still reject the store afterwards) |
| `Flush.FlushConcat` | server/src/state.ts:18-40 | flushing `a + b` is flushing `a` and then flushing `b` from the resulting tree |
| `Flush.FlushFromRoot` | server/src/state.ts:22-23 | a batch that starts by replacing the root flushes the same way from any tree |
| `Flush.AssignReadBack` | server/src/state.ts:25-34 | after a successful in-place write, the path holds the value written |
| `Flush.ApplyReadBack` | server/src/state.ts:21-36 | in a revision that stores every defined value, a successful patch reads back exactly its value (`undefined` for a deletion); this is the intended store of the legacy revision |
| `Flush.AssignElsewhere` | server/src/state.ts:25-34 | a write leaves every path disjoint from its own unchanged |
| `Flush.ApplyElsewhere` | server/src/state.ts:21-36 | a patch leaves every path disjoint from its own unchanged |
| `Flush.LaterPatchWins` | server/src/state.ts:21-36 | in a revision that stores every defined value, of two patches at the same path that flush without error, the later one decides what the path holds |
| `Flush.FalsyWriteThrows` | server/src/state.ts:125-126 | in the current revision, a patch setting `count` to `0` stores it and throws, so the next patch is not applied; with the fixed trap both apply |
| `Flush.FlushIsUpdateAll` | server/src/state.ts:18-40 | in a revision that stores every defined value, a flush without error leaves exactly the tree `setIn`/`deleteIn` builds from the batch |
| `Flush.FixedTrapAgrees` | server/src/state.ts:122-129 | the current revision and its fixed trap flush every batch without a falsy set alike |
| `Flush.LegacyFlushDeletesFalsy` | server/state.ts:108-113 | in the legacy revision, flushing a patch that sets a counter to 0 deletes the counter; with the fixed trap it holds 0 |
| `Flush.RevisionsAgree` | server/state.ts:108-116 | every revision stores like the legacy one a patch whose value is truthy or a deletion, and no trap rejects it |
| `Flush.AssignIsUpdate` | server/src/state.ts:25-34 | whenever the in-place walk succeeds, persistent `setIn`/`deleteIn` yields the same tree |
| `Persist.Open` | server/src/persist.ts:9-11 | a fresh store is well formed and has no numeric key |
| `Persist.Index` | server/src/persist.ts:33-39 | the greatest numeric key, which is stored; -1 exactly when there is no numeric key |
| `Persist.Append` | server/src/persist.ts:25-27 | the batch goes under `index()+1`; earlier keys and both metadata slots are unchanged |
| `Persist.Init` | server/src/persist.ts:13-15 | key 0 holds the root snapshot; the other keys are unchanged |
| `Persist.Clear` | server/src/persist.ts:17-23 | no numeric key is left; `structs` is carried over, or is `[]` when missing or falsy; the shared-structures record is dropped |
| `Persist.FirstAppendAtZero` | server/src/persist.ts:25-39 | the first append to an empty store lands at key 0 |
| `Persist.PatchesAppend` | server/src/persist.ts:25-31 | appending a batch appends its patches to `patches()` |
| `Persist.ClearThenInit` | server/src/persist.ts:13-23 | after `clear` and then `init(v)`, the only record is the root snapshot of `v` at key 0 |
| `Persist.ReplayAppend` | server/src/persist.ts:29-31 | replaying after an append is replaying, then flushing the appended batch |
| `Persist.ReplayCollapsed` | server/src/persist.ts:13-23 | a collapsed log replays to exactly the snapshot, from any initial tree |
| `Persist.CollapsedAfterInit` | server/src/persist.ts:13-15 | after `init`, the log opens with a root patch |
| `Persist.CollapsedAfterAppend` | server/src/persist.ts:25-27 | appending keeps the log opening with a root patch |
| `Persist.ReplayIndependent` | server/src/persist.ts:29-31 | a log that opens with a root patch replays the same from every initial tree |
| `Persist.FailedReplayPersists` | server/src/persist.ts:25-31 | once the log fails to replay, every later append still fails the same way |
| `Registry.DefaultScopes` | server/src/box.ts:88-91 | a missing scope list becomes `[[]]` (the whole tree); a given list is kept, even an empty one |
| `Registry.Register` | server/src/box.ts:88-89 | a known peer keeps its place with the new scopes; a new peer goes last; other peers are unchanged |
| `Registry.Unregister` | server/src/box.ts:80-83 | the peer is forgotten; the others keep their scopes and order |
| `Registry.SeesIffPrefix` | server/src/box.ts:118-126 | a scope sees a patch exactly when one path is a prefix of the other |
| `Registry.RootSeesAll` | server/src/box.ts:118-126 | the scope `[]` sees every patch |
| `Registry.Filter` | server/src/box.ts:117-127 | a patch is kept exactly when some scope sees it |
| `Registry.FilterAppend` | server/src/box.ts:117-127 | filtering distributes over concatenation, so the batch order is kept |
| `Registry.FilterSingle` | server/src/box.ts:117-127 | a patch is delivered at most once, however many scopes see it |
| `Registry.NoScopesNoPatches` | server/src/box.ts:117-127 | a peer that registered an empty scope list receives no patches |
| `Registry.DefaultScopesSeeAll` | server/src/box.ts:88-91 | a peer with the default scope list receives the whole batch |
| `Registry.InitialView` | server/src/box.ts:128-133 | one patch per scope, carrying the subtree found at that scope |
| `Registry.Route` | server/src/box.ts:101-103 | one message per registered peer, in registration order, holding that peer's filtered batch |
| `Registry.RouteAppend` | server/src/box.ts:101-103 | what a peer receives over two batches is what it would receive for their concatenation |
| `Registry.FilterExample` | server/src/box.ts:118-126 | the scope `["a"]` sees `["a","b"]` and `[]` but not `["c"]` |
| `Config.Split` | lib/src/box.ts:5-23 | every key lands in exactly one half: functions become actions, everything else becomes state, each with its own payload |
| `Config.Merge` | lib/src/box.ts:5-23 | merging the two halves gives a model whose keys are the union of theirs |
| `Config.MergeSplit` | lib/src/box.ts:13-20 | the split loses nothing: merging its halves rebuilds the model |
| `Config.SplitMerge` | lib/src/box.ts:13-20 | splitting a merged configuration returns that configuration |
| `Config.InitialState` | lib/src/box.ts:17-19 | the initial tree holds exactly the model's data members |
| `Box.StreamStep` | server/src/box.ts:98-110 | the log stays well formed; the sink is empty and the stream closed afterwards; either nothing is sent or each peer gets one message; at most one batch is logged |
| `Box.StreamCommits` | server/src/box.ts:98-110 | a completed body sends each peer its filtered share, logs the batch, and commits the flush of it |
| `Box.StreamDiscardsThrow` | server/src/box.ts:98-110 | a body that throws leaves the server unchanged and sends nothing |
| `Box.StreamConsistent` | server/src/box.ts:98-110 | a stream that raises no error keeps the log replaying to the committed tree |
| `Box.StreamFailurePoisonsLog` | server/src/box.ts:104-105 | a commit that fails part way leaves a log whose replay fails |
| `Box.FalsySetPoisonsLog` | server/src/box.ts:101-105 | a stream setting a key to `0` is sent and logged, stores the `0`, raises the trap's TypeError, and leaves a log whose replay fails |
| `Box.RunAction` | lib/src/server.ts:95-107 | the log stays well formed and the peers are unchanged across all of an action's `set` calls |
| `Box.RunActionConsistent` | lib/src/server.ts:95-107 | an action that raises no error keeps the server consistent |
| `Box.Dispatch` | server/src/box.ts:93-97 | an unknown action is ignored; in the unbound revisions no action changes the server or sends anything |
| `Box.DispatchBound` | lib/src/server.ts:90-94 | handling with the bound stream function is handling as lib/src/server.ts does |
| `Box.UnboundDispatchFails` | server/src/box.ts:93-97 | in the unbound revisions, an action that calls `set` raises a TypeError and has no effect |
| `Box.DispatchBoundConsistent` | lib/src/server.ts:90-107 | with the stream function bound, an action that raises no error keeps the server consistent |
| `Box.Act` | lib/src/server.ts:24-26 | the function `use` hands out works only where it is bound; elsewhere every call is a TypeError |
| `Box.Connect` | server/src/box.ts:88-91 | the peer is registered; the log and engine are unchanged; outside a stream the peer is sent the initial view of its scopes |
| `Box.Disconnect` | server/src/box.ts:80-83 | the peer is forgotten; the other peers, the engine and the log are unchanged |
| `Box.ConnectThenDisconnect` | server/src/box.ts:80-91 | a new peer that connects and disconnects leaves the registry as it found it |
| `Box.PeersSeeTheirShare` | server/src/box.ts:101-103 | across a stream, every peer receives exactly the patches of the batch that its scopes see |
| `Box.InitialTree` | lib/src/server/websocket.ts:24-37 | the model's data members, except in the websocket revision, which starts from `{}` |
| `Box.DefaultsBody` | lib/src/server.ts:55-60 | only lib/src/server.ts assigns every merged default at the root; the other revisions record nothing |
| `Box.StartupWith` | lib/src/server.ts:42-60 | a successful startup is consistent and has no peers |
| `Box.Startup` | bento/box.ts:54-76 | startups are consistent; bento/box.ts fails with a TypeError whenever its replay succeeds |
| `Box.StartupFixed` | bento/box.ts:54-76 | with the registry created before the defaults stream, a successful startup is consistent |
| `Box.StartupReplays` | server/src/box.ts:45-55 | server/src/box.ts starts exactly when its replay succeeds, and then holds the replayed tree |
| `Box.RestartRestores` | server/src/box.ts:45-55 | restarting over a consistent server's log rebuilds its tree, whatever the configured initial state |
| `Box.PoisonedLogBlocksStartup` | server/src/box.ts:51-52 | once the log fails to replay, no revision can start over it |
| `Box.EmptyDefaultsLogged` | lib/src/server/websocket.ts:50-53 | the empty defaults stream still appends an empty batch after the snapshot |
| `Box.EmptyDefaultsStartup` | lib/src/server/websocket.ts:50-53 | with an empty defaults stream, startup holds the replayed tree over the collapsed log followed by one empty batch |
| `BunCG.Startup` | server/buncg.ts:39-60 | the engine starts from the model's data members, with the log as found and no peers |
| `BunCG.CursorMatchesIsSees` | server/buncg.ts:127-133 | this revision's cursor test is the scope test of the others |
| `BunCG.Persisted` | server/buncg.ts:105-111 | an empty log first gets a snapshot at key 0; then the batch is appended to `patches()` |
| `BunCG.HandleMutate` | server/buncg.ts:100-116 | a throwing body leaves its patches in the sink; otherwise the batch is logged, routed and committed |
| `BunCG.Commit` | server/buncg.ts:105-115 | logs the sink, routes it to every peer, commits its legacy flush, and empties the sink |
| `BunCG.HandleMutateFixed` | server/buncg.ts:100-116 | with a throwing body's patches discarded, the sink is empty and the stream closed afterwards |
| `BunCG.StartupConsistent` | server/buncg.ts:39-60 | a server opened over an empty log is consistent |
| `BunCG.HandleMutateFixedConsistent` | server/buncg.ts:100-116 | with throwing bodies discarded, an action commits a batch that the log replays, or it changes nothing |
| `BunCG.ThrownPatchLeaks` | server/buncg.ts:100-116 | as written, a failed action's patch is committed and logged by the next action |
| `BunCG.Dispatch` | server/buncg.ts:89-98 | an unknown action is ignored; a name ending in `Async` is deferred exactly; other actions run now |
| `BunCG.Resolve` | server/buncg.ts:92-94 | a resolved deferred action keeps the peers |
| `BunCG.Act` | server/buncg.ts:35-37 | the server's own entry point keeps the peers |
| `BunCG.DeferredRunsLater` | server/buncg.ts:89-98 | deferring and then resolving an `Async` action is running the resolved function now |
| `Diff.Keys` | lib/buncg.ts:148-152 | every key of either map is visited exactly once |
| `Diff.Leaf` | lib/buncg.ts:169-175 | a primitive gets a set patch; as written, a collection or `null` gets none |
| `Diff.DiffValue` | lib/buncg.ts:137-177 | every patch describes the new tree; equal trees give no patch; two maps only yield patches below the path |
| `Diff.KeyPatches` | lib/buncg.ts:152-159 | a key removed from the map yields exactly its deletion |
| `Diff.DiffKeys` | lib/buncg.ts:148-159 | every patch for a map's keys describes the new map, strictly below its path |
| `Diff.Deletes` | lib/buncg.ts:160-168 | deletes the indices from `hi-1` down to `lo`, last index first |
| `Diff.DiffIndices` | lib/buncg.ts:160-168 | every patch for a list's indices describes the new list, strictly below its path |
| `Diff.DiffApplies` | lib/buncg.ts:137-177 | the fixed diff, replayed where the old tree sits, leaves exactly the new tree there |
| `Diff.DiffIdempotent` | lib/buncg.ts:137-177 | replaying the fixed diff onto the new tree itself changes nothing |
| `Diff.AsWrittenAgrees` | lib/buncg.ts:137-177 | the diff as written equals the fixed diff on every change without a shrinking list or a non-primitive new leaf |
| `Diff.NewCollectionLost` | lib/buncg.ts:171-172 | as written, adding a key whose value is a map yields no patch; fixed, it yields the set |
| `Diff.NullLost` | lib/buncg.ts:171-172 | as written, setting a value to `null` yields no patch; fixed, it yields the set |
| `Diff.ShrinkKeepsElement` | lib/buncg.ts:160-168 | as written, shrinking `[1,2,3]` to `[1]` replays to `[1,3]`; fixed, it replays to `[1]` |
| `DiffServer.ApplyLogged` | lib/buncg.ts:67-76 | a root patch holding a map replaces the map, one without a value leaves the empty map; any other patch is `setIn`/`deleteIn` |
| `DiffServer.ReplayBelowRoot` | lib/buncg.ts:66-79 | without root patches the replay is plain `setIn`/`deleteIn` |
| `DiffServer.ReplayIndependent` | lib/buncg.ts:66-79 | a log that opens with a snapshot replays the same over every initial map |
| `DiffServer.Collapse` | lib/buncg.ts:213-220 | the log holds one snapshot at key 0, and it replays to the map |
| `DiffServer.Startup` | lib/buncg.ts:55-85 | starts exactly when the replay yields a map; then it holds that map, a collapsed consistent log, and no peers |
| `DiffServer.RestartRestores` | lib/buncg.ts:55-85 | a consistent server restarted over its own log comes back with the same map |
| `DiffServer.Delta` | lib/buncg.ts:137-177 | no diff patch replaces the root, and equal maps give no patch |
| `DiffServer.HandleMutate` | lib/buncg.ts:125-135 | a throw changes nothing; otherwise the mutated map is installed, the diff is logged and routed |
| `DiffServer.HandleMutateConsistent` | lib/buncg.ts:125-135 | with the fixed diff, every handled action keeps the log replaying to the committed map |
| `DiffServer.SentDiffApplies` | lib/buncg.ts:179-202 | a peer applying the sent diff to the old map gets the new map |
| `DiffServer.ShrinkBreaksReplay` | lib/buncg.ts:160-168 | as written, shrinking a list logs a batch that replays to the wrong map, so the server is no longer consistent |
| `DiffServer.Connect` | lib/buncg.ts:109-112 | registers the cursors, every path when they are absent, and sends each cursor's value |
| `DiffServer.Disconnect` | lib/buncg.ts:102-105 | forgets the peer; the map, the log and the other peers are unchanged |
| `DiffServer.Dispatch` | lib/buncg.ts:114-123 | an unknown action is ignored; a name ending in `Async` is deferred exactly; other actions run now |
| `DiffServer.DispatchConsistent` | lib/buncg.ts:114-123 | with the fixed diff, every dispatched action keeps the server consistent |
| `WatchServer.Startup` | src/buncg.ts:47-50 | the model's state, with no watchers |
| `WatchServer.Events` | src/buncg.ts:93-100 | at most one event per watcher |
| `WatchServer.EventsExactly` | src/buncg.ts:93-100 | a watcher gets an event exactly when the value under its cursor changed, and the event carries the new value |
| `WatchServer.EventsAppend` | src/buncg.ts:93-100 | events come in watcher order: the events of a concatenation are those of each part |
| `WatchServer.HandleMutate` | src/buncg.ts:88-105 | a throw changes nothing; otherwise the new tree is installed and exactly the events against the old tree are sent |
| `WatchServer.UnchangedNotifiesNobody` | src/buncg.ts:93-100 | an action that leaves the tree as it was notifies nobody |
| `WatchServer.WatcherStaysCurrent` | src/buncg.ts:88-105 | a peer that held a watcher's value and reads the events for its id holds the new value under the cursor |
| `WatchServer.Watch` | src/buncg.ts:107-110 | appends the watcher and sends it the value under its cursor now |
| `WatchServer.Without` | src/buncg.ts:112-114 | keeps exactly the watchers not selected, in order |
| `WatchServer.WithoutAppend` | src/buncg.ts:112-114 | removal keeps the order: it distributes over concatenation |
| `WatchServer.Unwatch` | src/buncg.ts:112-114 | drops exactly the watchers with the id |
| `WatchServer.Close` | src/buncg.ts:68-73 | drops exactly the watchers of the peer |
| `WatchServer.WatchThenUnwatch` | src/buncg.ts:107-114 | watching under a fresh id and then unwatching it leaves the server as it was |
| `WatchServer.Dispatch` | src/buncg.ts:77-86 | an unknown action is ignored; a name ending in `Async` is deferred exactly; other actions run now |
| `ModelServer.Startup` | src/model.ts:44-53 | functions become actions and every other member becomes state, each under its own key |
| `ModelServer.Step` | src/model.ts:119-123 | `state[path]` throws exactly on `undefined` and `null`, and reads a container's child |
| `ModelServer.CursorStateRoot` | src/model.ts:119-123 | the empty cursor reads the whole state |
| `ModelServer.WalkAt` | src/model.ts:119-123 | on a path present in the tree, the cursor reads what `getIn` reads |
| `ModelServer.CursorSeesPathIsSees` | src/model.ts:125-132 | for a cursor of non-empty, dot-free segments, `cursorSeesPath` is the scope test |
| `ModelServer.Notify` | src/model.ts:93-97 | fails exactly when an interested watcher's cursor throws; otherwise every interested watcher gets its cursor state |
| `ModelServer.NoPatchesNoEvents` | src/model.ts:93-97 | an action that recorded no patch notifies nobody |
| `ModelServer.RootCursorInterested` | src/model.ts:125-132 | the root cursor is interested in every action that recorded a patch |
| `ModelServer.Apply` | src/model.ts:91-97 | a throwing recipe changes nothing; otherwise the finished state is installed and the watchers are notified |
| `ModelServer.NotifyFailedShort` | src/model.ts:93-97 | a loop ended by a throwing cursor read sent fewer events than there are watchers |
| `ModelServer.HandleAction` | src/model.ts:80-98 | an unknown action is rejected; a one-argument resolver is awaited; any other runs the recipe now |
| `ModelServer.Watch` | src/model.ts:100-103 | appends the watcher, then sends its cursor state, which throws exactly when the cursor read throws |
| `ModelServer.Unwatch` | src/model.ts:105-107 | drops exactly the watchers with the id |
| `ModelServer.Close` | src/model.ts:73-76 | drops exactly the watchers of the peer |
| `Client.Open` | client/src/client.ts:15-20 | a truthy initial state is kept, otherwise `{}`; the init message carries the scopes |
| `Client.ApplyOne` | client/src/client.ts:35-43 | a root patch replaces the state; a truthy value is set; as written a falsy one is unset |
| `Client.HandleEmit` | client/src/client.ts:31-47 | applies the patches, then calls the listener once with the result, only when no patch failed |
| `Client.FixedIsUpdateAll` | client/src/client.ts:35-43 | the fixed client applies a message exactly as `setIn`/`deleteIn` does |
| `Client.AsWrittenAgreesOnTruthy` | client/src/client.ts:35-43 | on messages without falsy values, the client as written is the fixed one |
| `Client.FalsyValueUnset` | client/src/client.ts:38-41 | as written, `{a:1}` receiving `a = 0` becomes `{}`; fixed, it becomes `{a:0}` |
| `Client.ConnectShowsTree` | client/src/client.ts:35-37 | the first message to a peer with the default scope replaces its state with the server's tree |
| `Client.MirrorsFlush` | client/src/client.ts:31-47 | a fixed client holding the server's tree and given a batch the current engine (or its fixed trap) flushed without error holds the flushed tree |
| `Client.MirrorsDiff` | consume/src/client.ts:38-54 | a fixed client holding the diff server's map and given an action's diff holds the new map |
| `Client.Watch` | consume/src/client.ts:15-16 | the listener is replaced and the state is kept |
| `Client.Unwatch` | consume/src/client.ts:17-19 | clears whichever listener is installed |
| `Client.LastWatchHears` | consume/src/client.ts:51-53 | only the last listener installed hears a message, once, after all its patches |
| `Values.Child` | server/src/box.ts:130-132 | only a container has children |
| `Values.UpdateReadBack` | lib/buncg.ts:74-75 | after a successful `setIn`, reading the same path gives the value written |
| `Updates.UpdateAllConcat` | lib/buncg.ts:67-78 | applying `a + b` is applying `a` and then `b` |
| `Updates.UpdateSame` | lib/buncg.ts:74-75 | writing back the value a path already holds changes nothing |
| `Updates.UpdateDeleteAbsent` | lib/buncg.ts:72-73 | deleting a path that is absent below an existing container changes nothing |
| `Updates.UpdateNested` | lib/buncg.ts:74-75 | an update below a path just written is a single write of the combined value |
| `Updates.UpdateTwice` | lib/buncg.ts:74-75 | of two writes at the same path, the second decides |
| `Updates.UpdateAllHarmless` | lib/buncg.ts:66-79 | a batch each of whose patches leaves the tree unchanged leaves the tree unchanged |
| `Text.ParseIndex` | lib/buncg.ts:160-168 | a key denotes an array index exactly when it is a canonical decimal rendering |
| `Text.ParseNatToString` | lib/buncg.ts:160-168 | `i.toString()` parsed back as an index gives `i` |
| `Text.NatToStringParse` | lib/buncg.ts:160-168 | rendering a parsed index key gives the key back |
| `Text.SplitJoin` | src/model.ts:119-132 | splitting a join of separator-free segments recovers the segments |
| `Text.JoinInjective` | server/src/state.ts:113-115 | non-empty lists of separator-free keys join to distinct strings |
| `Text.SortedKeys` | lib/buncg.ts:148-152 | visits each key of the set exactly once |

## Left out

- Floating-point numbers are not modelled. Numbers are integers, and
  `Num(0)` is the only falsy number. `NaN` and `-0` are absent.
- Array holes, sparse arrays, named properties on arrays and writes to
  `length` are not modelled. A write that would leave a hole is an error
  in `Flush`, and a write past the end appends in `Values.Update`.
- Proxy identity is not modelled, and neither is the re-proxifying write
  the get traps perform (`target[prop] = proxify(...)`). Reads return
  plain values.
- Immutable.js, immer, icepick, msgpackr and defu are foreign libraries.
  Immutable's `setIn`/`deleteIn` and icepick's `setIn`/`unsetIn` are
  modelled as one persistent update (`Values.Update`), which removes an
  array element by splicing it out. immer's recorded
  patch paths are an output of the recipe. defu's merge is a parameter.
- `#deltaPatches` throws on a plain (non-immutable) object. The model's
  trees are all immutable, so that branch is not modelled.
- I/O is not modelled: sockets, `Bun.serve`, vite, the packing of
  messages and the console logging. Messages become return values.
- Asynchrony is not modelled. An `Async` action is split into "deferred"
  and "resolved later". A rejected promise is not modelled.
- LMDB orders the `Symbol.for("structs")` key among the numeric keys in its
  own way, and the model does not follow it. The model keeps the metadata
  slots apart and `index()` looks at numeric keys only.
- The insertion order of object keys is not modelled. Key enumeration uses
  `Text.SortedKeys`. The order of the keys only decides the order of
  patches that touch disjoint paths.
- JavaScript's 2^32 - 1 bound on array indices is not modelled. Every
  canonical decimal key of an array is an index.
- An action body in the stream servers is modelled as the sequence of view
  operations it performs. Bodies that branch on what they read are
  represented by their run on the given state.
- Class-prototype tests in `#proxify` are not modelled. Every `Obj` is a
  plain object.
- Reference identity (`===` on immutable values, watcher `ws === ws`) is
  modelled as value equality. The watcher servers therefore notify on
  value changes, not on new references to equal values.
- ModelServer.CursorSeesPath: the empty segments of a cursor are not
  skipped by `cursorSeesPath`, although `cursorState` skips them. The model
  keeps both as written, and the equivalence with the scope test is stated
  for cursors without empty segments.
- Box.StreamStep: the state engine shown has no public `stream(setter)`
  or `flush(false)`. The model takes `stream` to be `withStream` and
  `flush(false)` to discard the sink. lib/src/server.ts, bento/box.ts and
  lib/src/server/websocket.ts import `./state` and `./persist` revisions
  that are not part of this model: they call `stream`, `flush(false)` and
  use `patches()` as an array, where server/src/box.ts needs `.asArray`.
  The model assumes those revisions trap, flush and log as
  server/src/state.ts and server/src/persist.ts do. With the shown engine
  alone, no stream server reaches a flush after a send, because
  server/src/box.ts passes its handler unbound. `Box.StreamFailurePoisonsLog`,
  `Box.FalsySetPoisonsLog` and the consequence for the stream servers in
  the Findings row for server/src/state.ts:125-126 rest on that
  assumption.
- Client.Unwatch: the function `watch` returns clears whichever listener is
  installed, not only its own. The model keeps that.
- Engine.Step: arrays have no delete trap, so in the program `delete` of an
  existing array element removes it from the array the proxy wraps (the
  committed array, or the value of a recorded patch), leaves a hole,
  records nothing, and the body goes on. The model has no holes and stops
  the body with `ElementDeleted` instead. Outside a stream, the error for a
  falsy assignment in the current revision does not carry the tree, which
  in the program already holds the value.
- Engine.RunBody: the committed tree is untouched during a stream only
  because the model refuses the array-element `delete` above; in the
  program that `delete` changes the committed array in place.
- Engine.WithStream: the same holds for the unchanged tree after a stream.
- Engine.ArrayDeleteNotRecorded: states only that nothing is recorded. In
  the program deleting an existing element also succeeds and leaves a
  hole; the model raises `ElementDeleted` there.
- Engine.SliceView: an element read as `undefined` (an element deleted by
  a patch) would make the copy hold `undefined`; the model's arrays cannot
  hold it, so the mutator fails with `UndefinedElement`.
- Client.MirrorsDiff: icepick's `unsetIn` on an array element is taken to
  splice the element out, as `Values.Update` does. If it instead deletes
  the element from a clone and leaves a hole, the diff's descending
  deletions do not shrink the client's list, and the client does not
  mirror the new map when a list shrinks.
- ArrayOps.DefaultCompare: the default `sort` order compares UTF-16 code
  units, and the model compares whole characters. The two orders differ
  between characters U+E000 to U+FFFF and characters above U+FFFF.
- Values.Child: `slice?.[p]` also reads the characters of a string and
  inherited properties such as `length` or `toString`. The model reads
  `undefined` there, so a scope through a string shows `undefined` in the
  initial view where the program shows a character.
- Flush.ApplyPatch: a root patch without a value makes the program's
  state `undefined`, and the next non-root patch then throws. The model has
  no undefined tree and stops the flush at the root patch with
  `RootUndefined`.
- DiffServer.ApplyLogged: a root patch holding a list or a primitive is
  merged into the cleared map by Immutable's `merge`; the model stops the
  replay there with `RootUndefined` instead. The log only ever holds map
  snapshots at the root, written by the collapse.
- Proxy aliasing is not modelled. A proxy records writes at the path it
  was first read through, so after `d.b = d.a` a write through `d.b.x`
  is recorded at `["a", "x"]`. A stale proxy is not modelled either: after
  `const a = d.a; d.a = 5; a.x = 1` in a stream the program records
  `["a", "x"]` and the later flush throws, where `Engine.Step` re-reads the
  path and stops at once with a TypeError. In the same way `delete` of a
  property of a primitive succeeds in the program and changes nothing,
  where the in-place walk of `Flush` reports `NotAContainer`; only a stale
  proxy reaches that case.
- ArrayOps.Run: `splice()` with no arguments removes nothing, but the
  model's `Splice` always has a start, so that call is not expressible;
  `Splice(0, Some(0), [])` behaves the same.
- Box.Dispatch: `#actions?.[action]` also finds inherited names such as
  `toString`, which the model treats as unknown actions. The same holds
  for the other `Dispatch` members, and for `ModelServer.HandleAction`,
  whose `this.actions[action]` the model rejects as unknown.

## Findings

| source | as written | input that shows it | evidently intended | confidence | as-written member | corrected member |
|---|---|---|---|---|---|---|
| server/state.ts:86-88 | a mutator in a stream records its return value at the array's path | `{list: [7]}` with `list.push(8)` in a stream, flushed, holds `{list: 2}` (the new length) instead of `{list: [7, 8]}` | record the mutated copy | high, not executed | `Engine.LegacyPushRecordsLength` | `Engine.MutateThenFlush` |
| server/state.ts:111 | outside a stream, only a truthy value is stored; any other value deletes the key | flushing `{path: ["count"], value: 0}` over `{count: 1}` gives `{}` | store every defined value | high, not executed | `Flush.LegacyFlushDeletesFalsy` | `Flush.ApplyReadBack` |
| server/src/box.ts:96 | the private `#handleActionStream` is passed unbound (also bento/box.ts:135 and lib/src/server/websocket.ts:90) | any action that calls `set` raises a TypeError (`this` is undefined) | pass `this.#handleActionStream.bind(this)`, as lib/src/server.ts:93 does | high, not executed | `Box.UnboundDispatchFails` | `Box.DispatchBoundConsistent` |
| bento/box.ts:68-76 | the defaults stream reads `#clients` before `#serve` assigns it | any start whose replay succeeds throws a TypeError in the defaults stream | create the registry before running the defaults stream | high, not executed | `Box.Startup` | `Box.StartupFixed` |
| server/buncg.ts:100-116 | a throwing action leaves its recorded patches in the sink | an action that sets `a = 1` and then throws, then an empty action: `a` is committed and logged | discard the sink when the body throws | high, not executed | `BunCG.ThrownPatchLeaks` | `BunCG.HandleMutateFixedConsistent` |
| lib/buncg.ts:160-168 | a shrinking list's extra indices are deleted in ascending order | `{l: [1,2,3]}` to `{l: [1]}` logs deletions of `l.1` and `l.2`, which replay to `{l: [1,3]}` | delete from the highest index down | high, not executed | `DiffServer.ShrinkBreaksReplay` | `DiffServer.HandleMutateConsistent` |
| lib/buncg.ts:171-172 | a new value that is a collection or `null`, where the old one is not the same kind of collection, yields no patch | `{}` to `{a: {}}`, and `{a: 1}` to `{a: null}`, yield no patch | emit a set patch with the new value | high, not executed | `Diff.NewCollectionLost` | `Diff.DiffApplies` |
| server/src/state.ts:125-126 | outside a stream the set trap returns the value it stored, so a falsy value makes the strict-mode assignment in `flush` (line 32) throw after storing it; the rest of the batch is skipped, and the stream servers (assuming their unshown engines trap and log as server/src/state.ts and server/src/persist.ts do) have already sent and logged it | `count = 0` then `seen = true` flushed over `{count: 1}` leaves `{count: 0}` and throws; a stream setting a key to `0` leaves a log that no startup can replay | return `true` after storing, as the stream branch does | high, not executed | `Flush.FalsyWriteThrows` | `Flush.FlushIsUpdateAll` |
| client/src/client.ts:38-41 | a patch with a falsy value unsets its path (also consume/src/client.ts:45-48) | `{a: 1}` receiving `a = 0` becomes `{}` | set every defined value | high, not executed | `Client.FalsyValueUnset` | `Client.FixedIsUpdateAll` |

=== FILE: arrays.dfy ===
/**
 * The array mutators the state engine intercepts: `push`, `shift`, `pop`,
 * `unshift`, `splice`, `reverse`, `sort` and `copyWithin`. Each runs on a
 * copy of the array and yields the mutated copy together with the value the
 * JavaScript method returns (`None` for `undefined`).
 */
module ArrayOps {
  import opened Wrappers
  import opened Values
  import opened Text

  datatype ArrayOp =
    | Push(pushed: seq<Value>)
    | Pop
    | Shift
    | Unshift(unshifted: seq<Value>)
    | Splice(start: int, deleteCount: Option<int>, inserted: seq<Value>)  // `splice()` with no arguments is `Splice(0, Some(0), [])`
    | Reverse
    | Sort(compare: Option<(Value, Value) -> int>)
    | CopyWithin(target: int, from: int, end: Option<int>)

  /** The array after the call, and the call's return value. */
  datatype Outcome = Outcome(elems: seq<Value>, result: Option<Value>)

  /** A relative position argument: negative counts from the end; clamped to `[0, len]`. */
  function Relative(k: int, len: nat): (r: nat)
    ensures r <= len
    ensures 0 <= k <= len ==> r == k
  {
    if k < 0 then (if len + k < 0 then 0 else len + k) else if k > len then len else k
  }

  function Clamp(k: int, lo: nat, hi: nat): (r: nat)
    requires lo <= hi
    ensures lo <= r <= hi
  {
    if k < lo then lo else if k > hi then hi else k
  }

  function Reversed(xs: seq<Value>): (r: seq<Value>)
    ensures |r| == |xs|
    ensures forall i :: 0 <= i < |xs| ==> r[i] == xs[|xs| - 1 - i]
  {
    if xs == [] then [] else Reversed(xs[1..]) + [xs[0]]
  }

  // ---------------------------------------------------------------------------
  // `sort`

  /** `String(v)`, the key the default comparator orders by. */
  function ToDisplayString(v: Value): string {
    match v
    case Null => "null"
    case Bool(b) => if b then "true" else "false"
    case Num(n) => if n < 0 then "-" + NatToString(-n) else NatToString(n)
    case Str(s) => s
    case Arr(xs) => JoinDisplay(xs)
    case Obj(_) => "[object Object]"
  }

  /** `xs.join(",")`, where a `null` element renders as the empty string. */
  function JoinDisplay(xs: seq<Value>): string
    decreases xs, 0
  {
    if xs == [] then ""
    else
      var head := if xs[0] == Null then "" else ToDisplayString(xs[0]);
      if |xs| == 1 then head else head + "," + JoinDisplay(xs[1..])
  }

  /** The default comparator: string order of the rendered values. */
  function DefaultCompare(a: Value, b: Value): int {
    var x := ToDisplayString(a);
    var y := ToDisplayString(b);
    if x == y then 0 else if StrLe(x, y) then -1 else 1
  }

  /** Inserts `x` after every element that does not compare greater than it. */
  function Insert(cmp: (Value, Value) -> int, x: Value, sorted: seq<Value>): (r: seq<Value>)
    ensures multiset(r) == multiset(sorted) + multiset{x}
  {
    if sorted == [] then [x]
    else if cmp(sorted[0], x) > 0 then [x] + sorted
    else
      assert sorted == [sorted[0]] + sorted[1..];
      [sorted[0]] + Insert(cmp, x, sorted[1..])
  }

  /** A stable insertion sort. */
  function SortBy(cmp: (Value, Value) -> int, xs: seq<Value>): (r: seq<Value>)
    ensures multiset(r) == multiset(xs)
  {
    if xs == [] then []
    else
      assert xs == xs[..|xs| - 1] + [xs[|xs| - 1]];
      Insert(cmp, xs[|xs| - 1], SortBy(cmp, xs[..|xs| - 1]))
  }

  /** Of any two values, at least one does not compare greater than the other. */
  ghost predicate Total(cmp: (Value, Value) -> int) {
    forall a, b :: cmp(a, b) <= 0 || cmp(b, a) <= 0
  }

  /** No element compares greater than the one after it. */
  predicate SortedBy(cmp: (Value, Value) -> int, xs: seq<Value>) {
    forall i :: 0 <= i < |xs| - 1 ==> cmp(xs[i], xs[i + 1]) <= 0
  }

  /** An ordered list stays ordered behind a first element that does not compare greater than its head. */
  lemma SortedCons(cmp: (Value, Value) -> int, x: Value, s: seq<Value>)
    requires SortedBy(cmp, s)
    requires s != [] ==> cmp(x, s[0]) <= 0
    ensures SortedBy(cmp, [x] + s)
  {
    var r := [x] + s;
    forall i | 0 <= i < |r| - 1 ensures cmp(r[i], r[i + 1]) <= 0 {
      if i > 0 {
        assert r[i] == s[i - 1] && r[i + 1] == s[i];
      }
    }
  }

  /** The tail of an ordered list is ordered. */
  lemma SortedTail(cmp: (Value, Value) -> int, s: seq<Value>)
    requires SortedBy(cmp, s) && s != []
    ensures SortedBy(cmp, s[1..])
  {
    var t := s[1..];
    forall i | 0 <= i < |t| - 1 ensures cmp(t[i], t[i + 1]) <= 0 {
      assert t[i] == s[i + 1] && t[i + 1] == s[i + 2];
    }
  }

  /** Inserting into a sorted list keeps it sorted, and puts `x` or the old head first. */
  lemma {:induction false} InsertSorted(cmp: (Value, Value) -> int, x: Value, sorted: seq<Value>)
    requires Total(cmp) && SortedBy(cmp, sorted)
    ensures SortedBy(cmp, Insert(cmp, x, sorted))
    ensures Insert(cmp, x, sorted)[0] == x || (sorted != [] && Insert(cmp, x, sorted)[0] == sorted[0])
    decreases |sorted|
  {
    if sorted == [] {
    } else if cmp(sorted[0], x) > 0 {
      assert cmp(x, sorted[0]) <= 0;
      assert Insert(cmp, x, sorted) == [x] + sorted;
      SortedCons(cmp, x, sorted);
    } else {
      var rest := sorted[1..];
      SortedTail(cmp, sorted);
      InsertSorted(cmp, x, rest);
      var tail := Insert(cmp, x, rest);
      assert Insert(cmp, x, sorted) == [sorted[0]] + tail;
      assert cmp(sorted[0], tail[0]) <= 0 by {
        if tail[0] != x {
          assert tail[0] == rest[0] == sorted[1];
        }
      }
      SortedCons(cmp, sorted[0], tail);
    }
  }

  /** With a total comparator, the insertion sort's output is ordered. */
  lemma {:induction false} SortBySorted(cmp: (Value, Value) -> int, xs: seq<Value>)
    requires Total(cmp)
    ensures SortedBy(cmp, SortBy(cmp, xs))
    decreases |xs|
  {
    if xs != [] {
      SortBySorted(cmp, xs[..|xs| - 1]);
      InsertSorted(cmp, xs[|xs| - 1], SortBy(cmp, xs[..|xs| - 1]));
    }
  }

  /** The default comparator is total: string order is. */
  lemma DefaultCompareTotal()
    ensures Total(DefaultCompare)
  {
    forall a, b ensures DefaultCompare(a, b) <= 0 || DefaultCompare(b, a) <= 0 {
      StrLeTotal(ToDisplayString(a), ToDisplayString(b));
    }
  }

  /**
   * `sort` reorders the array's elements and returns the array: with no
   * comparator, or with a total one, each element is ordered before the
   * next.
   */
  lemma SortOrders(xs: seq<Value>, compare: Option<(Value, Value) -> int>)
    requires compare.Some? ==> Total(compare.value)
    ensures multiset(Run(xs, Sort(compare)).elems) == multiset(xs)
    ensures SortedBy(compare.GetOr(DefaultCompare), Run(xs, Sort(compare)).elems)
    ensures Run(xs, Sort(compare)).result == Some(Arr(Run(xs, Sort(compare)).elems))
  {
    var cmp := compare.GetOr(DefaultCompare);
    assert Run(xs, Sort(compare)) == Outcome(SortBy(cmp, xs), Some(Arr(SortBy(cmp, xs))));
    assert SortedBy(cmp, SortBy(cmp, xs)) by {
      if compare.None? {
        DefaultCompareTotal();
      }
      SortBySorted(cmp, xs);
    }
  }

  // ---------------------------------------------------------------------------
  // `splice` and `copyWithin`

  /** Where a `splice` starts and how many elements it removes. */
  function SpliceBounds(start: int, deleteCount: Option<int>, len: nat): (r: (nat, nat))
    ensures r.0 + r.1 <= len
  {
    var s := Relative(start, len);
    var dc := if deleteCount.None? then len - s else Clamp(deleteCount.value, 0, len - s);
    (s, dc)
  }

  function CopyWithinArray(xs: seq<Value>, target: int, from: int, end: Option<int>): (r: seq<Value>)
    ensures |r| == |xs|
  {
    var len := |xs|;
    var to := Relative(target, len);
    var src := Relative(from, len);
    var fin := if end.None? then len else Relative(end.value, len);
    var count := if fin <= src then 0 else if fin - src < len - to then fin - src else len - to;
    seq(len, i requires 0 <= i < len =>
      if to <= i < to + count then xs[src + i - to] else xs[i])
  }

  /** Runs one mutator on a copy of `xs`. */
  function Run(xs: seq<Value>, op: ArrayOp): (r: Outcome)
    ensures op.Push? || op.Unshift? ==> r.result == Some(Num(|r.elems|))
    ensures op.Reverse? || op.Sort? || op.CopyWithin? ==> r.result == Some(Arr(r.elems))
    ensures op.Pop? || op.Shift? ==> (r.result.None? <==> xs == [])
    ensures op.Sort? ==> multiset(r.elems) == multiset(xs)
  {
    match op
    case Push(ys) => Outcome(xs + ys, Some(Num(|xs| + |ys|)))
    case Pop => if xs == [] then Outcome([], None) else Outcome(xs[..|xs| - 1], Some(xs[|xs| - 1]))
    case Shift => if xs == [] then Outcome([], None) else Outcome(xs[1..], Some(xs[0]))
    case Unshift(ys) => Outcome(ys + xs, Some(Num(|ys| + |xs|)))
    case Splice(start, deleteCount, ys) =>
      var (s, dc) := SpliceBounds(start, deleteCount, |xs|);
      Outcome(xs[..s] + ys + xs[s + dc..], Some(Arr(xs[s..s + dc])))
    case Reverse =>
      var ys := Reversed(xs);
      Outcome(ys, Some(Arr(ys)))
    case Sort(compare) =>
      var ys := SortBy(compare.GetOr(DefaultCompare), xs);
      Outcome(ys, Some(Arr(ys)))
    case CopyWithin(target, from, end) =>
      var ys := CopyWithinArray(xs, target, from, end);
      Outcome(ys, Some(Arr(ys)))
  }

  // ---------------------------------------------------------------------------
  // Inverse pairs

  /** `pop` undoes `push` of one element and returns it. */
  lemma PopUndoesPush(xs: seq<Value>, v: Value)
    ensures Run(Run(xs, Push([v])).elems, Pop) == Outcome(xs, Some(v))
  {
    assert (xs + [v])[..|xs|] == xs;
  }

  /** `shift` undoes `unshift` of one element and returns it. */
  lemma ShiftUndoesUnshift(xs: seq<Value>, v: Value)
    ensures Run(Run(xs, Unshift([v])).elems, Shift) == Outcome(xs, Some(v))
  {
    assert ([v] + xs)[1..] == xs;
  }

  /** Reversing twice restores the array. */
  lemma ReverseInvolutive(xs: seq<Value>)
    ensures Run(Run(xs, Reverse).elems, Reverse).elems == xs
  {
  }

  /**
   * A `splice` that removes `dc` elements at `s` and inserts `ys` is undone by
   * a `splice` at `s` that removes `|ys|` elements and re-inserts the removed ones.
   */
  lemma SpliceUndo(xs: seq<Value>, s: nat, dc: nat, ys: seq<Value>)
    requires s + dc <= |xs|
    ensures
      var o := Run(xs, Splice(s, Some(dc), ys));
      o.result == Some(Arr(xs[s..s + dc])) &&
      Run(o.elems, Splice(s, Some(|ys|), xs[s..s + dc])).elems == xs
  {
    var o := Run(xs, Splice(s, Some(dc), ys));
    assert o.elems == xs[..s] + ys + xs[s + dc..];
    var back := Run(o.elems, Splice(s, Some(|ys|), xs[s..s + dc]));
    assert o.elems[..s] == xs[..s];
    assert o.elems[s + |ys|..] == xs[s + dc..];
    assert back.elems == xs[..s] + xs[s..s + dc] + xs[s + dc..];
    assert xs == xs[..s] + xs[s..s + dc] + xs[s + dc..];
  }

  /** `copyWithin` onto the position it copies from changes nothing. */
  lemma CopyWithinOntoItself(xs: seq<Value>, k: int, end: Option<int>)
    ensures Run(xs, CopyWithin(k, k, end)).elems == xs
  {
  }
}

=== FILE: box.dfy ===
/**
 * The server pipeline of the four `BentoBox`-style revisions:
 * server/src/box.ts, lib/src/server.ts, bento/box.ts and
 * lib/src/server/websocket.ts. server/src/box.ts is built on the state
 * engine of server/src/state.ts (current revision) and the patch log of
 * server/src/persist.ts; the other three import `State` and `Persist`
 * revisions that are not part of this model, and are modelled as if those
 * trapped, flushed and logged as the shown ones do. All four share the peer
 * registry, and differ in how they start up and in whether actions receive
 * a bound stream function.
 *
 * Startup replays the log onto the initial state, collapses the log to a
 * snapshot of the result and (in three revisions) runs a defaults stream.
 * An action hands stream bodies to `set`; each body's batch is sent to every
 * peer through its scopes, appended to the log, then committed.
 */
module Box {
  import opened Wrappers
  import opened Text
  import opened Values
  import opened Flush
  import opened Engine
  import opened Persist
  import opened Registry
  import Config

  datatype Variant =
    | SrcBox      // server/src/box.ts
    | LibServer   // lib/src/server.ts
    | Bento       // bento/box.ts
    | WebSocket   // lib/src/server/websocket.ts

  /**
   * Only lib/src/server.ts binds `#handleActionStream` (and `#handleAction`
   * for `use`) before handing it out; the others pass the bare private method.
   */
  predicate PassesBoundStream(v: Variant) {
    v == LibServer
  }

  /**
   * An action: given the payload (`None` for `undefined`), the stream bodies
   * it hands to `set`, in the order it calls `set`.
   */
  type Action = Option<Value> -> seq<seq<DraftOp>>

  datatype Server = Server(engine: Engine, log: Store, peers: Peers)

  /** What handling one event did: the new server, the messages sent, and the error it raised. */
  datatype Reply = Reply(srv: Server, sent: seq<Emit>, error: Option<EngineError>)

  /**
   * The server between two events: nothing pending, no stream open, and a
   * collapsed log whose replay rebuilds exactly the committed tree.
   */
  predicate Consistent(srv: Server) {
    Valid(srv.log) && Collapsed(srv.log) &&
    srv.engine.sink == [] && !srv.engine.streaming &&
    Replay(Current, srv.engine.tree, srv.log) == Flushed(srv.engine.tree, None)
  }

  // ---------------------------------------------------------------------------
  // One stream

  /** The batch a body records when it runs on the engine. */
  function Recorded(srv: Server, body: seq<DraftOp>): Batch {
    WithStream(Current, srv.engine, body).0.sink
  }

  /**
   * `#handleActionStream(setter)`: runs the body in a stream; then sends the
   * batch to every peer, appends it to the log and commits it. A body that
   * throws has its patches discarded (`flush(false)`): nothing is sent or
   * logged. A commit that fails part way still sent and logged the batch.
   */
  function StreamStep(srv: Server, body: seq<DraftOp>): (r: Reply)
    requires Valid(srv.log)
    ensures Valid(r.srv.log) && r.srv.peers == srv.peers
    ensures r.srv.engine.sink == [] && !r.srv.engine.streaming
    ensures r.sent == [] || |r.sent| == |srv.peers|
    ensures r.srv.log == srv.log || Index(r.srv.log) == Index(srv.log) + 1
  {
    var (e, err) := WithStream(Current, srv.engine, body);
    if err.Some? then Reply(srv.(engine := e.(sink := [])), [], err)
    else
      var sent := Route(srv.peers, e.sink);
      var log := Append(srv.log, e.sink);
      var (e', ferr) := FlushSink(Current, e);
      Reply(Server(e', log, srv.peers), sent, ferr)
  }

  /**
   * A stream whose body completes sends each peer its filtered share of the
   * batch, logs the batch, and commits it onto the tree.
   */
  lemma StreamCommits(srv: Server, body: seq<DraftOp>)
    requires Consistent(srv)
    requires WithStream(Current, srv.engine, body).1.None?
    ensures var b := Recorded(srv, body); var r := StreamStep(srv, body);
      var f := FlushBatch(Current, srv.engine.tree, b);
      r.sent == Route(srv.peers, b) &&
      Patches(r.srv.log) == Patches(srv.log) + b &&
      r.srv.engine.tree == f.tree &&
      (r.error.None? <==> f.failure.None?)
  {
    PatchesAppend(srv.log, Recorded(srv, body));
  }

  /** A body that throws leaves the server as it was and sends nothing. */
  lemma StreamDiscardsThrow(srv: Server, body: seq<DraftOp>)
    requires Consistent(srv)
    requires WithStream(Current, srv.engine, body).1.Some?
    ensures StreamStep(srv, body) == Reply(srv, [], WithStream(Current, srv.engine, body).1)
  {
  }

  /** A stream that raises no error keeps the log's replay equal to the tree. */
  lemma StreamConsistent(srv: Server, body: seq<DraftOp>)
    requires Consistent(srv)
    ensures StreamStep(srv, body).error.None? ==> Consistent(StreamStep(srv, body).srv)
  {
    var r := StreamStep(srv, body);
    var (e, err) := WithStream(Current, srv.engine, body);
    if err.None? && r.error.None? {
      var b := e.sink;
      var t := srv.engine.tree;
      var t' := r.srv.engine.tree;
      CollapsedAfterAppend(srv.log, b);
      ReplayIndependent(Current, t', t, r.srv.log);
      ReplayAppend(Current, t, srv.log, b);
    }
  }

  /**
   * A commit that fails part way poisons the log: the logged batch fails
   * again on every replay, so every later startup fails.
   */
  lemma StreamFailurePoisonsLog(srv: Server, body: seq<DraftOp>)
    requires Consistent(srv)
    requires WithStream(Current, srv.engine, body).1.None?
    requires StreamStep(srv, body).error.Some?
    ensures Replay(Current, srv.engine.tree, StreamStep(srv, body).srv.log).failure.Some?
  {
    var b := Recorded(srv, body);
    ReplayAppend(Current, srv.engine.tree, srv.log, b);
  }

  /**
   * Setting a key to `0` in a stream is sent and logged, and then the commit
   * throws after storing the `0`: the error reaches the action, and the log
   * no longer replays, so the next startup fails.
   */
  lemma FalsySetPoisonsLog(srv: Server, k: string)
    requires Consistent(srv) && srv.engine.tree.Obj?
    ensures var r := StreamStep(srv, [Assign([], k, Some(Num(0)))]);
      r.error == Some(Invalid(TrapReturnedFalsy)) &&
      r.sent == Route(srv.peers, [Patch([k], Some(Num(0)))]) &&
      r.srv.engine.tree == Obj(srv.engine.tree.fields[k := Num(0)]) &&
      Replay(Current, srv.engine.tree, r.srv.log).failure.Some?
  {
    var body := [Assign([], k, Some(Num(0)))];
    var e := srv.engine.(streaming := true);
    var root: Path := [];
    assert root + [k] == [k];
    var q := Patch([k], Some(Num(0)));
    assert Step(Current, e, body[0]) == Ok(e.(sink := [q]));
    assert body[1..] == [];
    assert RunBody(Current, e.(sink := [q]), body[1..]) == (e.(sink := [q]), None);
    assert RunBody(Current, e, body) == (e.(sink := [q]), None);
    assert WithStream(Current, srv.engine, body) == (srv.engine.(sink := [q]), None);
    assert [q][1..] == [];
    assert FlushBatch(Current, srv.engine.tree, [q]) == Flushed(Obj(srv.engine.tree.fields[k := Num(0)]), Some(TrapReturnedFalsy));
    StreamFailurePoisonsLog(srv, body);
  }

  // ---------------------------------------------------------------------------
  // Actions

  /** An action's calls to `set`, one stream each; the first error ends the action. */
  function RunAction(srv: Server, bodies: seq<seq<DraftOp>>): (r: Reply)
    requires Valid(srv.log)
    ensures Valid(r.srv.log) && r.srv.peers == srv.peers
    decreases |bodies|
  {
    if bodies == [] then Reply(srv, [], None)
    else
      var first := StreamStep(srv, bodies[0]);
      if first.error.Some? then first
      else
        var rest := RunAction(first.srv, bodies[1..]);
        Reply(rest.srv, first.sent + rest.sent, rest.error)
  }

  /** An action that raises no error leaves the server consistent. */
  lemma {:induction false} RunActionConsistent(srv: Server, bodies: seq<seq<DraftOp>>)
    requires Consistent(srv)
    ensures RunAction(srv, bodies).error.None? ==> Consistent(RunAction(srv, bodies).srv)
    decreases |bodies|
  {
    if bodies != [] {
      StreamConsistent(srv, bodies[0]);
      var first := StreamStep(srv, bodies[0]);
      if first.error.None? {
        RunActionConsistent(first.srv, bodies[1..]);
      }
    }
  }

  /**
   * `#handleAction(name, payload)` from a socket message: an unknown name is
   * ignored. Otherwise the action runs; in the revisions that pass the bare
   * `#handleActionStream`, its first call to `set` raises a TypeError (no
   * `this`), so the action changes nothing.
   */
  function Dispatch(v: Variant, actions: map<string, Action>, srv: Server, name: string, payload: Option<Value>): (r: Reply)
    requires Valid(srv.log)
    ensures name !in actions ==> r == Reply(srv, [], None)
    ensures !PassesBoundStream(v) ==> r.srv == srv && r.sent == []
  {
    if name !in actions then Reply(srv, [], None)
    else
      var bodies := actions[name](payload);
      if !PassesBoundStream(v) then Reply(srv, [], if bodies == [] then None else Some(TypeError))
      else RunAction(srv, bodies)
  }

  /** `#handleAction` with the stream function bound, as lib/src/server.ts passes it. */
  function DispatchBound(actions: map<string, Action>, srv: Server, name: string, payload: Option<Value>): (r: Reply)
    requires Valid(srv.log)
    ensures r == Dispatch(LibServer, actions, srv, name, payload)
  {
    if name !in actions then Reply(srv, [], None) else RunAction(srv, actions[name](payload))
  }

  /** In the unbound revisions, any action that calls `set` fails without effect. */
  lemma UnboundDispatchFails(v: Variant, actions: map<string, Action>, srv: Server, name: string, payload: Option<Value>)
    requires Valid(srv.log) && !PassesBoundStream(v)
    requires name in actions && actions[name](payload) != []
    ensures Dispatch(v, actions, srv, name, payload) == Reply(srv, [], Some(TypeError))
  {
  }

  /** With the stream bound, an action that raises no error keeps the server consistent. */
  lemma DispatchBoundConsistent(actions: map<string, Action>, srv: Server, name: string, payload: Option<Value>)
    requires Consistent(srv)
    ensures DispatchBound(actions, srv, name, payload).error.None? ==> Consistent(DispatchBound(actions, srv, name, payload).srv)
  {
    if name in actions {
      RunActionConsistent(srv, actions[name](payload));
    }
  }

  /**
   * The function `use(connect)` hands out. Only lib/src/server.ts binds it;
   * elsewhere every call raises a TypeError, even for an unknown name.
   */
  function Act(v: Variant, actions: map<string, Action>, srv: Server, name: string, payload: Option<Value>): (r: Reply)
    requires Valid(srv.log)
    ensures !PassesBoundStream(v) ==> r == Reply(srv, [], Some(TypeError))
    ensures PassesBoundStream(v) ==> r == DispatchBound(actions, srv, name, payload)
  {
    if PassesBoundStream(v) then Dispatch(v, actions, srv, name, payload)
    else Reply(srv, [], Some(TypeError))
  }

  // ---------------------------------------------------------------------------
  // Peers

  /**
   * `#handleInit(scopes, ws)`: registers the peer, then sends it one patch
   * per scope carrying the committed subtree there.
   */
  function Connect(srv: Server, id: PeerId, scopes: Option<seq<Path>>): (r: Reply)
    ensures r.srv.engine == srv.engine && r.srv.log == srv.log
    ensures r.srv.peers == Register(srv.peers, id, scopes)
    ensures !srv.engine.streaming ==>
      r.error.None? && r.sent == [Emit(id, InitialView(DefaultScopes(scopes), srv.engine.tree))]
  {
    var peers := Register(srv.peers, id, scopes);
    var scopes' := DefaultScopes(scopes);
    if scopes' == [] then Reply(srv.(peers := peers), [Emit(id, [])], None)
    else match Snap(srv.engine)
      case Err(e) => Reply(srv.(peers := peers), [], Some(e))
      case Ok(t) => Reply(srv.(peers := peers), [Emit(id, InitialView(scopes', t))], None)
  }

  /** The socket's `close` handler: forgets the peer. */
  function Disconnect(srv: Server, id: PeerId): (r: Server)
    ensures r.engine == srv.engine && r.log == srv.log
    ensures ScopesOf(r.peers, id).None?
    ensures forall j :: j != id ==> ScopesOf(r.peers, j) == ScopesOf(srv.peers, j)
  {
    srv.(peers := Unregister(srv.peers, id))
  }

  /** A peer that connected and then disconnected leaves the registry as it found it, for a new peer. */
  lemma ConnectThenDisconnect(srv: Server, id: PeerId, scopes: Option<seq<Path>>)
    requires id !in Ids(srv.peers)
    ensures forall j :: ScopesOf(Disconnect(Connect(srv, id, scopes).srv, id).peers, j) == ScopesOf(srv.peers, j)
  {
    forall j ensures ScopesOf(Disconnect(Connect(srv, id, scopes).srv, id).peers, j) == ScopesOf(srv.peers, j) {
      if j == id {
        assert ScopesOf(srv.peers, id).None?;
      }
    }
  }

  /** Every peer receives, across a stream, exactly the batch's patches its scopes see. */
  lemma PeersSeeTheirShare(srv: Server, body: seq<DraftOp>, i: nat)
    requires Consistent(srv)
    requires WithStream(Current, srv.engine, body).1.None?
    requires i < |srv.peers|
    ensures var r := StreamStep(srv, body);
      r.sent[i].peer == srv.peers[i].peer &&
      forall p :: p in r.sent[i].patches <==> p in Recorded(srv, body) && Visible(srv.peers[i].scopes, p)
  {
    StreamCommits(srv, body);
  }

  // ---------------------------------------------------------------------------
  // Startup

  /**
   * The initial state: the model's non-function members, except in
   * lib/src/server/websocket.ts, which never fills its `input.state` and so
   * starts from `{}`.
   */
  function InitialTree(v: Variant, model: map<string, Config.Member<Action>>): (r: Value)
    ensures r.Obj?
    ensures v == WebSocket ==> r == Obj(map[])
    ensures v != WebSocket ==> r == Config.InitialState(model)
  {
    if v == WebSocket then Obj(map[]) else Config.InitialState(model)
  }

  /**
   * The defaults body of lib/src/server.ts: assigns every member of
   * `defu(draft, state)` at the root. The merge is a parameter. The other
   * two revisions with a defaults step discard defu's result, so their body
   * records nothing.
   */
  function DefaultsBody(v: Variant, merged: map<string, Value>): (r: seq<DraftOp>)
    ensures v != LibServer ==> r == []
    ensures v == LibServer ==> |r| == |merged|
    ensures v == LibServer ==> forall i :: 0 <= i < |r| ==>
      r[i].Assign? && r[i].at == [] && r[i].key in merged && r[i].value == Some(merged[r[i].key])
  {
    if v != LibServer then []
    else
      var keys := SortedKeys(merged.Keys);
      seq(|keys|, i requires 0 <= i < |keys| => Assign([], keys[i], Some(merged[keys[i]])))
  }

  /** Whether the registry exists when the defaults stream runs: bento/box.ts creates it later, in `#serve`. */
  predicate RegistryBeforeDefaults(v: Variant) {
    v != Bento
  }

  /**
   * Construction (or `run`) of a server over an existing log. The replay's
   * failure is the startup's failure. `registryReady` says whether the peer
   * map exists when the defaults stream sends its batch.
   */
  function StartupWith(v: Variant, registryReady: bool, model: map<string, Config.Member<Action>>,
                       defu: (Value, Value) -> map<string, Value>, log: Store): (r: Result<Server, EngineError>)
    ensures r.Ok? ==> Consistent(r.value) && r.value.peers == []
  {
    var (e, err) := FlushSink(Current, Create(InitialTree(v, model)).(sink := Patches(log)));
    if err.Some? then Err(err.value)
    else
      var collapsed := Init(Clear(log), e.tree);
      var srv := Server(e, collapsed, []);
      assert Consistent(srv) by {
        ReplayCollapsed(Current, e.tree, log, e.tree);
        CollapsedAfterInit(Clear(log), e.tree);
      }
      if v == SrcBox then Ok(srv)
      else if !registryReady then Err(TypeError)
      else
        var r := StreamStep(srv, DefaultsBody(v, defu(e.tree, InitialTree(v, model))));
        StreamConsistent(srv, DefaultsBody(v, defu(e.tree, InitialTree(v, model))));
        if r.error.Some? then Err(r.error.value) else Ok(r.srv)
  }

  /** Startup as each revision is written. */
  function Startup(v: Variant, model: map<string, Config.Member<Action>>,
                   defu: (Value, Value) -> map<string, Value>, log: Store): (r: Result<Server, EngineError>)
    ensures r.Ok? ==> Consistent(r.value) && r.value.peers == []
    ensures v == Bento && Replay(Current, InitialTree(v, model), log).failure.None? ==> r == Err(TypeError)
  {
    StartupWith(v, RegistryBeforeDefaults(v), model, defu, log)
  }

  /** Startup with the registry created before the defaults stream runs. */
  function StartupFixed(v: Variant, model: map<string, Config.Member<Action>>,
                        defu: (Value, Value) -> map<string, Value>, log: Store): (r: Result<Server, EngineError>)
    ensures r.Ok? ==> Consistent(r.value) && r.value.peers == []
  {
    StartupWith(v, true, model, defu, log)
  }

  /** Startup fails exactly when replaying the log fails, in the revision without a defaults step. */
  lemma StartupReplays(model: map<string, Config.Member<Action>>, defu: (Value, Value) -> map<string, Value>, log: Store)
    ensures var f := Replay(Current, InitialTree(SrcBox, model), log);
      Startup(SrcBox, model, defu, log) ==
        if f.failure.Some? then Err(Invalid(f.failure.value))
        else Ok(Server(Engine(f.tree, [], false), Init(Clear(log), f.tree), []))
  {
  }

  /**
   * The state survives a restart: starting server/src/box.ts over the log of
   * a consistent server, whatever its configured initial state, rebuilds the
   * committed tree.
   */
  lemma RestartRestores(srv: Server, model: map<string, Config.Member<Action>>, defu: (Value, Value) -> map<string, Value>)
    requires Consistent(srv)
    ensures Startup(SrcBox, model, defu, srv.log).Ok?
    ensures Startup(SrcBox, model, defu, srv.log).value.engine == Engine(srv.engine.tree, [], false)
  {
    ReplayIndependent(Current, InitialTree(SrcBox, model), srv.engine.tree, srv.log);
    StartupReplays(model, defu, srv.log);
  }

  /** Once the log is poisoned, no revision can start over it. */
  lemma PoisonedLogBlocksStartup(v: Variant, model: map<string, Config.Member<Action>>,
                                 defu: (Value, Value) -> map<string, Value>, log: Store)
    requires Replay(Current, InitialTree(v, model), log).failure.Some?
    ensures Startup(v, model, defu, log).Err? && StartupFixed(v, model, defu, log).Err?
  {
  }

  /**
   * The empty defaults stream of lib/src/server/websocket.ts (and of
   * bento/box.ts once the registry exists) still appends an empty batch
   * after the snapshot.
   */
  lemma EmptyDefaultsLogged(v: Variant, model: map<string, Config.Member<Action>>,
                            defu: (Value, Value) -> map<string, Value>, log: Store)
    requires v == WebSocket || v == Bento
    requires Replay(Current, InitialTree(v, model), log).failure.None?
    ensures var f := Replay(Current, InitialTree(v, model), log);
      StartupFixed(v, model, defu, log).Ok? &&
      StartupFixed(v, model, defu, log).value.engine == Engine(f.tree, [], false) &&
      Records(StartupFixed(v, model, defu, log).value.log) == [Snapshot(f.tree), []]
  {
    var f := Replay(Current, InitialTree(v, model), log);
    var collapsed := Init(Clear(log), f.tree);
    EmptyDefaultsStartup(v, model, defu, log);
    ClearThenInit(log, f.tree);
    assert Append(collapsed, []).slots == [Some(Snapshot(f.tree)), Some([])];
  }

  /** The server an empty defaults stream leaves: the replayed tree over the collapsed log plus an empty batch. */
  lemma EmptyDefaultsStartup(v: Variant, model: map<string, Config.Member<Action>>,
                             defu: (Value, Value) -> map<string, Value>, log: Store)
    requires v == WebSocket || v == Bento
    requires Replay(Current, InitialTree(v, model), log).failure.None?
    ensures var f := Replay(Current, InitialTree(v, model), log);
      StartupFixed(v, model, defu, log) ==
        Ok(Server(Engine(f.tree, [], false), Append(Init(Clear(log), f.tree), []), []))
  {
    var f := Replay(Current, InitialTree(v, model), log);
    var collapsed := Init(Clear(log), f.tree);
    ClearThenInit(log, f.tree);
    var srv := Server(Engine(f.tree, [], false), collapsed, []);
    StartupRunsDefaults(v, model, defu, log);
    assert DefaultsBody(v, defu(f.tree, InitialTree(v, model))) == [];
    EmptyStreamLogged(srv);
  }

  /** With the registry ready, a startup whose replay succeeds is the defaults stream's outcome over the collapsed log. */
  lemma StartupRunsDefaults(v: Variant, model: map<string, Config.Member<Action>>,
                            defu: (Value, Value) -> map<string, Value>, log: Store)
    requires v != SrcBox
    requires Replay(Current, InitialTree(v, model), log).failure.None?
    ensures var f := Replay(Current, InitialTree(v, model), log);
      var srv := Server(Engine(f.tree, [], false), Init(Clear(log), f.tree), []);
      var r := StreamStep(srv, DefaultsBody(v, defu(f.tree, InitialTree(v, model))));
      StartupWith(v, true, model, defu, log) == if r.error.Some? then Err(r.error.value) else Ok(r.srv)
  {
  }

  /** A stream with an empty body on an idle engine logs an empty batch and changes nothing else. */
  lemma EmptyStreamLogged(srv: Server)
    requires Valid(srv.log) && srv.engine.sink == [] && !srv.engine.streaming
    ensures StreamStep(srv, []).error.None?
    ensures StreamStep(srv, []).srv == srv.(log := Append(srv.log, []))
  {
    var e := WithStream(Current, srv.engine, []).0;
    assert e == srv.engine;
  }
}

=== FILE: buncg.dfy ===
/**
 * The `BunCG` server of server/buncg.ts, built on the legacy state engine
 * (server/state.ts). It does not replay its log at startup. An action is a
 * function of the draft and the payload, run in one stream; the batch is
 * logged (after a snapshot of the tree when the log is empty), sent to every
 * peer through its cursors, then committed. An action whose name ends in
 * `Async` resolves later to a draft function, which runs then.
 */
module BunCG {
  import opened Wrappers
  import opened Text
  import opened Values
  import opened Flush
  import opened Engine
  import opened Persist
  import opened Registry
  import opened Box
  import Config

  /** An action: given the payload, the draft operations it performs. */
  type BunAction = Option<Value> -> seq<DraftOp>

  /** The server of server/buncg.ts starts from the model's data members over whatever log it opens. */
  function Startup(model: map<string, Config.Member<BunAction>>, log: Store): (srv: Server)
    ensures srv.engine == Create(Config.InitialState(model))
    ensures srv.log == log && srv.peers == []
  {
    Server(Create(Config.InitialState(model)), log, [])
  }

  /**
   * `[c, undefined].includes(path[i])` for every cursor position: the key at
   * that position is missing or equal to the cursor's.
   */
  predicate CursorMatches(cursor: Path, path: Path) {
    forall i :: 0 <= i < |cursor| ==>
      (if i < |path| then Some(path[i]) else None) in {Some(cursor[i]), None}
  }

  /** The cursor test of this revision is the scope test of the others. */
  lemma CursorMatchesIsSees(cursor: Path, path: Path)
    ensures CursorMatches(cursor, path) <==> Sees(cursor, path)
  {
    if CursorMatches(cursor, path) {
      forall i | 0 <= i < |cursor| ensures i >= |path| || cursor[i] == path[i] {
        if i < |path| {
          assert (if i < |path| then Some(path[i]) else None) == Some(path[i]);
        }
      }
    }
  }

  /**
   * The log written by `#handleActionMutate`: an empty log first receives a
   * snapshot of the pre-commit tree under key 0; the batch goes under the
   * next key.
   */
  function Persisted(log: Store, tree: Value, batch: Batch): (r: Store)
    requires Valid(log)
    ensures Valid(r) && Index(r) == if Index(log) == -1 then 1 else Index(log) + 1
    ensures Index(log) == -1 ==> Collapsed(r)
    ensures Index(log) == -1 ==> Records(r) == [Snapshot(tree), batch]
    ensures Index(log) >= 0 ==> Patches(r) == Patches(log) + batch
  {
    if Index(log) == -1 then
      var r := Append(Init(log, tree), batch);
      assert r.slots == [Some(Snapshot(tree)), Some(batch)];
      r
    else
      PatchesAppend(log, batch);
      Append(log, batch)
  }

  /**
   * `#handleActionMutate(mutate, payload)` as written. A throwing body ends
   * the handler with its patches still in the sink, where the next action's
   * stream finds them.
   */
  function HandleMutate(srv: Server, body: seq<DraftOp>): (r: Reply)
    requires Valid(srv.log)
    ensures Valid(r.srv.log) && r.srv.peers == srv.peers && !r.srv.engine.streaming
    ensures var (e, err) := WithStream(Legacy, srv.engine, body);
      err.Some? ==> r == Reply(srv.(engine := e), [], err) && |e.sink| >= |srv.engine.sink|
  {
    var (e, err) := WithStream(Legacy, srv.engine, body);
    if err.Some? then Reply(srv.(engine := e), [], err)
    else Commit(srv, e)
  }

  /** Logs, sends and commits the sink of an engine whose stream completed. */
  function Commit(srv: Server, e: Engine): (r: Reply)
    requires Valid(srv.log) && !e.streaming
    ensures Valid(r.srv.log) && r.srv.peers == srv.peers
    ensures r.srv.engine.sink == [] && !r.srv.engine.streaming
    ensures r.sent == Route(srv.peers, e.sink) && |r.sent| == |srv.peers|
    ensures r.srv.log == Persisted(srv.log, e.tree, e.sink)
    ensures r.srv.engine.tree == FlushBatch(Legacy, e.tree, e.sink).tree
  {
    var log := Persisted(srv.log, e.tree, e.sink);
    var sent := Route(srv.peers, e.sink);
    var (e', ferr) := FlushSink(Legacy, e);
    Reply(Server(e', log, srv.peers), sent, ferr)
  }

  /** `#handleActionMutate` with a throwing body's patches discarded. */
  function HandleMutateFixed(srv: Server, body: seq<DraftOp>): (r: Reply)
    requires Valid(srv.log)
    ensures Valid(r.srv.log) && r.srv.peers == srv.peers
    ensures r.srv.engine.sink == [] && !r.srv.engine.streaming
  {
    var (e, err) := WithStream(Legacy, srv.engine, body);
    if err.Some? then Reply(srv.(engine := e.(sink := [])), [], err)
    else Commit(srv, e)
  }

  /**
   * Between two events the server of this revision has nothing pending and
   * its log, when it has one, replays to the committed tree.
   */
  predicate Consistent(srv: Server) {
    Valid(srv.log) && srv.engine.sink == [] && !srv.engine.streaming &&
    (Index(srv.log) == -1 ||
     (Collapsed(srv.log) && Replay(Legacy, srv.engine.tree, srv.log) == Flushed(srv.engine.tree, None)))
  }

  /** A server opened over an empty log is consistent. */
  lemma StartupConsistent(model: map<string, Config.Member<BunAction>>, log: Store)
    requires Valid(log) && Index(log) == -1
    ensures Consistent(Startup(model, log))
  {
  }

  /**
   * With throwing bodies discarded, a handled action either commits a batch
   * that the log replays, or changes nothing.
   */
  lemma {:induction false} HandleMutateFixedConsistent(srv: Server, body: seq<DraftOp>)
    requires Consistent(srv)
    ensures var r := HandleMutateFixed(srv, body);
      r.error.None? ==> Consistent(r.srv)
    ensures var r := HandleMutateFixed(srv, body);
      WithStream(Legacy, srv.engine, body).1.Some? ==> r.srv == srv && r.sent == []
  {
    var (e, err) := WithStream(Legacy, srv.engine, body);
    var r := HandleMutateFixed(srv, body);
    if err.None? && r.error.None? {
      assert r == Commit(srv, e);
      CommitConsistent(srv, e);
    }
  }

  /** Committing a completed stream that flushes without error keeps the server consistent. */
  lemma CommitConsistent(srv: Server, e: Engine)
    requires Consistent(srv) && !e.streaming && e.tree == srv.engine.tree
    requires Commit(srv, e).error.None?
    ensures Consistent(Commit(srv, e).srv)
  {
    var r := Commit(srv, e);
    var t := srv.engine.tree;
    var t' := r.srv.engine.tree;
    var b := e.sink;
    assert FlushBatch(Legacy, t, b).failure.None?;
    if Index(srv.log) == -1 {
      FirstCommitReplays(srv.log, t, b);
    } else {
      CollapsedAfterAppend(srv.log, b);
      ReplayIndependent(Legacy, t', t, r.srv.log);
      ReplayAppend(Legacy, t, srv.log, b);
    }
  }

  /** The first commit logs a snapshot and the batch, which replay to the flushed tree from any start. */
  lemma FirstCommitReplays(log: Store, t: Value, b: Batch)
    requires Valid(log) && Index(log) == -1
    requires FlushBatch(Legacy, t, b).failure.None?
    ensures var t' := FlushBatch(Legacy, t, b).tree;
      Collapsed(Persisted(log, t, b)) && Replay(Legacy, t', Persisted(log, t, b)) == Flushed(t', None)
  {
    var log' := Persisted(log, t, b);
    var t' := FlushBatch(Legacy, t, b).tree;
    assert log'.slots == [Some(Snapshot(t)), Some(b)];
    assert Patches(log') == Snapshot(t) + b by {
      assert log'.slots[..1] == [Some(Snapshot(t))];
      assert log'.slots[..1][..0] == [];
      assert Concat(log'.slots[..1]) == Concat([]) + Snapshot(t);
      assert Concat(log'.slots) == Concat(log'.slots[..1]) + b;
    }
    FlushConcat(Legacy, t', Snapshot(t), b);
    assert Snapshot(t)[1..] == [];
    assert FlushBatch(Legacy, t', Snapshot(t)) == FlushBatch(Legacy, t, []);
  }

  /**
   * As written, a body that throws after recording a patch leaks it into the
   * next action: `{}` with a failed action that sets `a` to 1, then an action
   * that does nothing, ends with `a` set and logged.
   */
  lemma ThrownPatchLeaks()
    ensures
      var srv := Startup(map[], Open());
      var failed := HandleMutate(srv, [Assign([], "a", Some(Num(1))), Throw]);
      var next := HandleMutate(failed.srv, []);
      failed.error == Some(Thrown) && failed.sent == [] &&
      next.error.None? && next.srv.engine.tree == Obj(map["a" := Num(1)]) &&
      Records(next.srv.log) == [Snapshot(Obj(map[])), [Patch(["a"], Some(Num(1)))]]
  {
    var srv := Startup(map[], Open());
    var none: map<string, Config.Member<BunAction>> := map[];
    assert Config.InitialState(none) == Obj(map[]) by {
      assert Config.Split(none).state == map[];
    }
    var p := Patch(["a"], Some(Num(1)));
    var body := [Assign([], "a", Some(Num(1))), Throw];
    FailedBodyLeaves(srv.engine, body, p);
    var failed := HandleMutate(srv, body);
    var e := failed.srv.engine;
    assert WithStream(Legacy, e, []) == (e, None);
    LeakedFlush(e, p);
  }

  lemma FailedBodyLeaves(e: Engine, body: seq<DraftOp>, p: Patch)
    requires e == Engine(Obj(map[]), [], false)
    requires body == [Assign([], "a", Some(Num(1))), Throw] && p == Patch(["a"], Some(Num(1)))
    ensures WithStream(Legacy, e, body) == (Engine(Obj(map[]), [p], false), Some(Thrown))
  {
    var root: Path := [];
    assert root + ["a"] == ["a"];
    var on := e.(streaming := true);
    assert Read(on, []) == Ok(Some(Obj(map[])));
    assert Step(Legacy, on, body[0]) == Ok(on.(sink := [p]));
    assert body[1..] == [Throw] && [Throw][1..] == [];
    assert RunBody(Legacy, on.(sink := [p]), [Throw]) == (on.(sink := [p]), Some(Thrown));
  }

  lemma LeakedFlush(e: Engine, p: Patch)
    requires e == Engine(Obj(map[]), [p], false)
    requires p == Patch(["a"], Some(Num(1)))
    ensures FlushBatch(Legacy, e.tree, e.sink) == Flushed(Obj(map["a" := Num(1)]), None)
  {
    assert [p][1..] == [];
    assert map[]["a" := Num(1)] == map["a" := Num(1)];
  }

  /** What one socket message asking for an action leads to. */
  datatype Handled =
    | Ran(reply: Reply)                // the action ran now
    | Deferred(body: seq<DraftOp>)     // an `Async` action; its draft function runs when the promise resolves

  /**
   * `#handleAction({action, payload})`: an unknown name is ignored; a name
   * ending in `Async` defers the draft function its promise resolves to;
   * any other action runs now.
   */
  function Dispatch(actions: map<string, BunAction>, srv: Server, name: string, payload: Option<Value>): (h: Handled)
    requires Valid(srv.log)
    ensures name !in actions ==> h == Ran(Reply(srv, [], None))
    ensures name in actions ==> (h.Deferred? <==> EndsWith(name, "Async"))
    ensures h.Deferred? ==> h.body == actions[name](payload)
  {
    if name !in actions then Ran(Reply(srv, [], None))
    else if EndsWith(name, "Async") then Deferred(actions[name](payload))
    else Ran(HandleMutate(srv, actions[name](payload)))
  }

  /** The promise of a deferred action resolved: its draft function runs without a payload. */
  function Resolve(srv: Server, deferred: Handled): (r: Reply)
    requires Valid(srv.log) && deferred.Deferred?
    ensures r.srv.peers == srv.peers
  {
    HandleMutate(srv, deferred.body)
  }

  /** `act(serverAction)`: the server's own entry point runs a draft function now. */
  function Act(srv: Server, body: seq<DraftOp>): (r: Reply)
    requires Valid(srv.log)
    ensures r.srv.peers == srv.peers
  {
    HandleMutate(srv, body)
  }

  /** Deferring and resolving an `Async` action is running the resolved function now. */
  lemma DeferredRunsLater(actions: map<string, BunAction>, srv: Server, name: string, payload: Option<Value>)
    requires Valid(srv.log)
    requires name in actions && EndsWith(name, "Async")
    ensures Dispatch(actions, srv, name, payload).Deferred?
    ensures Resolve(srv, Dispatch(actions, srv, name, payload)) == Act(srv, actions[name](payload))
  {
  }
}

=== FILE: client.dfy ===
/**
 * The browser clients of client/src/client.ts and consume/src/client.ts.
 * A client keeps a frozen copy of the part of the state it watches, applies
 * each `emit` message's patches to it in order with `setIn`/`unsetIn`, and
 * then hands the result to its listener (`dispatch` in one revision, the
 * callback installed by `watch` in the other).
 *
 * As written, a patch whose value is falsy (`0`, `""`, `false`, `null`)
 * unsets its path instead of setting it; `Fixed` sets every defined value.
 */
module Client {
  import opened Wrappers
  import opened Values
  import opened Updates
  import opened Flush
  import opened Registry
  import Diff

  /** A listener, named by an identifier: functions are not compared. */
  type CallbackId = nat

  datatype Client = Client(state: Option<Value>, listener: Option<CallbackId>)

  /** The listener's call with the state after a whole message. */
  datatype Notification = Notification(callback: CallbackId, state: Option<Value>)

  /** The init message a client sends: its scopes (`cursors` in consume/src/client.ts), or none. */
  datatype Init = Init(scopes: Option<seq<Path>>)

  datatype Mode = AsWritten | Fixed

  /** The constructor: the initial state when truthy, otherwise `{}`; and the init message. */
  function Open(scopes: Option<seq<Path>>, initial: Option<Value>): (r: (Client, Init))
    ensures r.0.listener.None? && r.1 == Init(scopes)
    ensures Truthy(initial) ==> r.0.state == initial
    ensures !Truthy(initial) ==> r.0.state == Some(Obj(map[]))
  {
    (Client(if Truthy(initial) then initial else Some(Obj(map[])), None), Init(scopes))
  }

  /** One patch: the empty path replaces the state; otherwise a set or an unset at the path. */
  function ApplyOne(mode: Mode, s: Option<Value>, q: Patch): (r: Result<Option<Value>, PathError>)
    ensures q.path == [] ==> r == Ok(q.value)
    ensures q.path != [] && (mode == Fixed || Truthy(q.value) || q.value.None?) ==> r == Update(s, q.path, q.value)
    ensures q.path != [] && mode == AsWritten && !Truthy(q.value) ==> r == Update(s, q.path, None)
  {
    if q.path == [] then Ok(q.value)
    else if mode == Fixed || Truthy(q.value) then Update(s, q.path, q.value)
    else Update(s, q.path, None)
  }

  /** The state after a message, and the error that stopped it part way, if any. */
  datatype Received = Received(state: Option<Value>, failure: Option<PathError>)

  /** The patches of one message, in order; a throwing patch leaves the earlier ones applied. */
  function Receive(mode: Mode, s: Option<Value>, batch: Batch): Received
    decreases |batch|
  {
    if batch == [] then Received(s, None)
    else match ApplyOne(mode, s, batch[0])
      case Err(e) => Received(s, Some(e))
      case Ok(s') => Receive(mode, s', batch[1..])
  }

  /** `#handleEmit`: applies the patches, then calls the listener once with the result. */
  function HandleEmit(mode: Mode, c: Client, batch: Batch): (r: (Client, seq<Notification>))
    ensures r.0.listener == c.listener
    ensures r.0.state == Receive(mode, c.state, batch).state
    ensures Receive(mode, c.state, batch).failure.None? && c.listener.Some? ==>
      r.1 == [Notification(c.listener.value, r.0.state)]
    ensures Receive(mode, c.state, batch).failure.Some? || c.listener.None? ==> r.1 == []
  {
    var rcv := Receive(mode, c.state, batch);
    var c' := c.(state := rcv.state);
    if rcv.failure.None? && c.listener.Some? then (c', [Notification(c.listener.value, rcv.state)])
    else (c', [])
  }

  /** The fixed client applies a message exactly as persistent `setIn`/`deleteIn` does. */
  lemma {:induction false} FixedIsUpdateAll(s: Option<Value>, batch: Batch)
    ensures var r := Receive(Fixed, s, batch);
      r.failure.None? <==> UpdateAll(s, batch).Ok?
    ensures var r := Receive(Fixed, s, batch);
      r.failure.None? ==> UpdateAll(s, batch) == Ok(r.state)
    decreases |batch|
  {
    if batch != [] {
      match Update(s, batch[0].path, batch[0].value)
      case Err(_) =>
      case Ok(s') => FixedIsUpdateAll(s', batch[1..]);
    }
  }

  /** On messages without falsy values the client as written is the fixed one. */
  lemma {:induction false} AsWrittenAgreesOnTruthy(s: Option<Value>, batch: Batch)
    requires forall q :: q in batch ==> q.path == [] || Truthy(q.value) || q.value.None?
    ensures Receive(AsWritten, s, batch) == Receive(Fixed, s, batch)
    decreases |batch|
  {
    if batch != [] {
      assert batch[0] in batch;
      forall q | q in batch[1..] ensures q.path == [] || Truthy(q.value) || q.value.None? {
        assert q in batch;
      }
      match ApplyOne(Fixed, s, batch[0])
      case Err(_) =>
      case Ok(s') => AsWrittenAgreesOnTruthy(s', batch[1..]);
    }
  }

  /**
   * As written, setting a counter to 0 deletes it on the client: `{a: 1}`
   * receiving `a = 0` becomes `{}`, where the server holds `{a: 0}`.
   */
  lemma FalsyValueUnset()
    ensures
      var q := Patch(["a"], Some(Num(0)));
      Receive(AsWritten, Some(Obj(map["a" := Num(1)])), [q]) == Received(Some(Obj(map[])), None) &&
      Receive(Fixed, Some(Obj(map["a" := Num(1)])), [q]) == Received(Some(Obj(map["a" := Num(0)])), None)
  {
    var q := Patch(["a"], Some(Num(0)));
    assert [q][1..] == [];
    assert ["a"][1..] == [];
    assert map["a" := Num(1)] - {"a"} == map[];
    assert map["a" := Num(1)]["a" := Num(0)] == map["a" := Num(0)];
  }

  /** The first message of a peer with the default scope replaces its state with the server's tree. */
  lemma ConnectShowsTree(mode: Mode, s: Option<Value>, t: Value)
    ensures Receive(mode, s, InitialView(DefaultScopes(None), t)) == Received(Some(t), None)
  {
    var v := InitialView(DefaultScopes(None), t);
    assert v == [Patch([], Some(t))];
    assert v[1..] == [];
  }

  /**
   * A fixed client that holds a server's tree and receives, unfiltered, a
   * batch the server's engine flushed without error holds the flushed tree.
   * This holds for both engines that store every defined value.
   */
  lemma {:induction false} MirrorsFlush(rev: Revision, t: Value, batch: Batch)
    requires rev != Legacy
    requires FlushBatch(rev, t, batch).failure.None?
    ensures Receive(Fixed, Some(t), Filter(DefaultScopes(None), batch)) ==
      Received(Some(FlushBatch(rev, t, batch).tree), None)
    decreases |batch|
  {
    DefaultScopesSeeAll(batch);
    if batch != [] {
      var q := batch[0];
      var t' := ApplyPatch(rev, t, q).value;
      if q.path != [] {
        AssignIsUpdate(t, q.path, q.value);
      }
      DefaultScopesSeeAll(batch[1..]);
      MirrorsFlush(rev, t', batch[1..]);
    }
  }

  /**
   * A fixed client that holds the map of the diff-based server and receives,
   * unfiltered, the batch of a handled action holds the new map.
   */
  lemma MirrorsDiff(before: map<string, Value>, after: map<string, Value>)
    ensures Receive(Fixed, Some(Obj(before)), Filter(DefaultScopes(None), Diff.DiffValue(Diff.Fixed, Some(Obj(before)), Obj(after), []))) ==
      Received(Some(Obj(after)), None)
  {
    var d := Diff.DiffValue(Diff.Fixed, Some(Obj(before)), Obj(after), []);
    var root: Path := [];
    DefaultScopesSeeAll(d);
    Diff.DiffApplies(Some(Obj(before)), Obj(before), Obj(after), root);
    FixedIsUpdateAll(Some(Obj(before)), d);
  }

  /** Setting `dispatch` (client/src/client.ts) or calling `watch` (consume/src/client.ts): the listener is replaced. */
  function Watch(c: Client, cb: CallbackId): (r: Client)
    ensures r.state == c.state && r.listener == Some(cb)
  {
    c.(listener := Some(cb))
  }

  /** The function `watch` returns: it clears whichever listener is installed. */
  function Unwatch(c: Client): (r: Client)
    ensures r.state == c.state && r.listener.None?
  {
    c.(listener := None)
  }

  /** Only the last listener installed hears a message, once, after all its patches. */
  lemma LastWatchHears(mode: Mode, c: Client, a: CallbackId, b: CallbackId, batch: Batch)
    requires Receive(mode, c.state, batch).failure.None?
    ensures HandleEmit(mode, Watch(Watch(c, a), b), batch).1 == [Notification(b, Receive(mode, c.state, batch).state)]
  {
  }
}

=== FILE: config.dfy ===
/**
 * `box(model)` (lib/src/box.ts): splits a model object into its initial
 * state and its actions. A member whose value is a function is an action;
 * every other member is part of the state.
 */
module Config {
  import opened Values

  /** One member of the model: plain data, or an action of type `A`. */
  datatype Member<A> = Data(value: Value) | Action(action: A)

  datatype ServerConfig<A> = ServerConfig(state: map<string, Value>, actions: map<string, A>)

  /** Splits the model; each key lands in exactly one half, with its own payload. */
  function Split<A>(model: map<string, Member<A>>): (r: ServerConfig<A>)
    ensures r.state.Keys !! r.actions.Keys
    ensures r.state.Keys + r.actions.Keys == model.Keys
    ensures forall k :: k in r.state ==> model[k] == Data(r.state[k])
    ensures forall k :: k in r.actions ==> model[k] == Action(r.actions[k])
  {
    ServerConfig(
      map k | k in model && model[k].Data? :: model[k].value,
      map k | k in model && model[k].Action? :: model[k].action)
  }

  /** Puts the two halves back into one model. */
  function Merge<A>(c: ServerConfig<A>): (r: map<string, Member<A>>)
    requires c.state.Keys !! c.actions.Keys
    ensures r.Keys == c.state.Keys + c.actions.Keys
  {
    map k | k in c.state.Keys + c.actions.Keys ::
      if k in c.state then Data(c.state[k]) else Action(c.actions[k])
  }

  /** The split loses nothing: merging its halves rebuilds the model. */
  lemma MergeSplit<A>(model: map<string, Member<A>>)
    ensures Merge(Split(model)) == model
  {
    var c := Split(model);
    forall k | k in model ensures Merge(c)[k] == model[k] {
      if model[k].Data? {
        assert k in c.state;
      } else {
        assert k in c.actions;
      }
    }
  }

  /** Splitting a merged configuration returns it. */
  lemma SplitMerge<A>(c: ServerConfig<A>)
    requires c.state.Keys !! c.actions.Keys
    ensures Split(Merge(c)) == c
  {
    var r := Split(Merge(c));
    assert r.state == c.state;
    assert r.actions == c.actions;
  }

  /** The initial state `config.state`, as a tree. */
  function InitialState<A>(model: map<string, Member<A>>): (r: Value)
    ensures r.Obj? && r.fields.Keys <= model.Keys
    ensures forall k :: k in model && model[k].Data? ==> k in r.fields && r.fields[k] == model[k].value
  {
    Obj(Split(model).state)
  }
}

=== FILE: diff.dfy ===
/**
 * `#deltaPatches(state, mutated)` of lib/buncg.ts: the structural diff that
 * turns an old and a new state tree into a batch of patches, which the
 * server logs and sends, and which peers replay with `setIn`/`deleteIn`.
 *
 * `Fixed` is the diff with the replay property proved below; `AsWritten`
 * keeps the two behaviours of the source that break it: a new value that is
 * a collection or `null` where the old one was not of the same kind yields
 * no patch, and a shrinking list is deleted in ascending index order.
 */
module Diff {
  import opened Wrappers
  import opened Text
  import opened Values
  import opened Updates

  datatype Mode = AsWritten | Fixed

  /** `typeof v !== "object"` for a defined value: `null` and collections are objects. */
  predicate IsPrimitive(v: Value) {
    v.Bool? || v.Num? || v.Str?
  }

  /** The key of list index `i` in a patch path, `i.toString()`. */
  function IndexKey(i: nat): string {
    NatToString(i)
  }

  /** The keys the diff visits: the old map's, then the new map's that the old one lacks. */
  function Keys(om: map<string, Value>, nm: map<string, Value>): (r: seq<string>)
    ensures forall k :: k in r <==> k in om || k in nm
    ensures forall i, j :: 0 <= i < j < |r| ==> r[i] != r[j]
  {
    var a := SortedKeys(om.Keys);
    var b := SortedKeys(nm.Keys - om.Keys);
    DistinctConcat(a, b);
    a + b
  }

  /** Two duplicate-free sequences with no element in common concatenate to a duplicate-free one. */
  lemma DistinctConcat(a: seq<string>, b: seq<string>)
    requires forall i, j :: 0 <= i < j < |a| ==> a[i] != a[j]
    requires forall i, j :: 0 <= i < j < |b| ==> b[i] != b[j]
    requires forall x :: x in a ==> x !in b
    ensures forall i, j :: 0 <= i < j < |a + b| ==> (a + b)[i] != (a + b)[j]
  {
    var ab := a + b;
    forall i, j | 0 <= i < j < |ab| ensures ab[i] != ab[j] {
      if j < |a| {
        assert ab[i] == a[i] && ab[j] == a[j];
      } else if i >= |a| {
        assert ab[i] == b[i - |a|] && ab[j] == b[j - |a|];
      } else {
        assert ab[i] == a[i] && ab[j] == b[j - |a|];
        assert a[i] in a;
      }
    }
  }

  /** `list.get(i)`: the element, or `undefined` past the end. */
  function Get(xs: seq<Value>, i: nat): (r: Option<Value>)
    ensures r.Some? <==> i < |xs|
    ensures r.Some? ==> r.value == xs[i]
  {
    if i < |xs| then Some(xs[i]) else None
  }

  /**
   * A patch describes the new tree `n` (located at `p`): it sits below `p`;
   * a set carries the value `n` holds at its path; a deletion names a path
   * that `n` lacks, directly below a container `n` has.
   */
  predicate Describes(n: Value, p: Path, q: Patch) {
    p <= q.path &&
    (q.value.Some? ==> At(Some(n), q.path[|p|..]) == q.value) &&
    (q.value.None? ==>
      |q.path| > |p| && At(Some(n), q.path[|p|..]) == None &&
      At(Some(n), q.path[|p|..|q.path| - 1]).Some? && At(Some(n), q.path[|p|..|q.path| - 1]).value.IsContainer())
  }

  /** A patch describing a child describes its parent too. */
  lemma DescribesLift(n: Value, k: string, child: Value, p: Path, q: Patch)
    requires Child(n, k) == Some(child)
    requires Describes(child, p + [k], q)
    ensures Describes(n, p, q) && |q.path| > |p|
  {
    var pk := p + [k];
    assert pk[|p|] == k;
    assert q.path[|p|] == k;
    var s := q.path[|p|..];
    assert s[0] == k && s[1..] == q.path[|pk|..];
    if q.value.None? {
      var u := q.path[|p|..|q.path| - 1];
      assert u[0] == k && u[1..] == q.path[|pk|..|q.path| - 1];
    }
  }

  lemma DescribesLiftAll(n: Value, k: string, child: Value, p: Path, batch: Batch)
    requires Child(n, k) == Some(child)
    requires forall q :: q in batch ==> Describes(child, p + [k], q)
    ensures forall q :: q in batch ==> Describes(n, p, q) && |q.path| > |p|
  {
    forall q | q in batch ensures Describes(n, p, q) && |q.path| > |p| {
      DescribesLift(n, k, child, p, q);
    }
  }

  /** A patch for a primitive, or for whatever the new value is in the fixed diff. */
  function Leaf(mode: Mode, n: Value, p: Path): (r: Batch)
    ensures mode == Fixed || IsPrimitive(n) ==> r == [Patch(p, Some(n))]
    ensures mode == AsWritten && !IsPrimitive(n) ==> r == []
  {
    if mode == AsWritten && !IsPrimitive(n) then [] else [Patch(p, Some(n))]
  }

  /**
   * The patches that turn `o` (undefined when `None`) into `n`, at `p`.
   * Equal trees yield nothing; two maps or two lists are compared member by
   * member; anything else is a leaf.
   */
  function DiffValue(mode: Mode, o: Option<Value>, n: Value, p: Path): (r: Batch)
    ensures forall q :: q in r ==> Describes(n, p, q)
    ensures o == Some(n) ==> r == []
    ensures o.Some? && o.value.Obj? && n.Obj? ==> forall q :: q in r ==> |q.path| > |p|
    decreases n, 2
  {
    if o == Some(n) then []
    else if o.Some? && o.value.Obj? && n.Obj? then
      DiffKeys(mode, o.value.fields, n.fields, Keys(o.value.fields, n.fields), p)
    else if o.Some? && o.value.Arr? && n.Arr? then
      DiffIndices(mode, o.value.items, n.items, 0, p)
    else
      var r := Leaf(mode, n, p);
      assert forall q :: q in r ==> q.path[|p|..] == [];
      r
  }

  /** The patches for one key of two maps: the child's diff, or a deletion. */
  function KeyPatches(mode: Mode, om: map<string, Value>, nm: map<string, Value>, k: string, p: Path): (r: Batch)
    ensures forall q :: q in r ==> Describes(Obj(nm), p, q) && |q.path| > |p|
    ensures k !in nm && k in om ==> r == [Patch(p + [k], None)]
    decreases Obj(nm), 0
  {
    if k in nm then
      var r := DiffValue(mode, Lookup(om, k), nm[k], p + [k]);
      DescribesLiftAll(Obj(nm), k, nm[k], p, r);
      r
    else if k in om then
      var r := [Patch(p + [k], None)];
      assert (p + [k])[|p|..] == [k] && (p + [k])[|p|..|p|] == [];
      assert At(Some(Obj(nm)), [k]) == None by {
        assert [k][1..] == [];
        AtNone([]);
      }
      r
    else []
  }

  function DiffKeys(mode: Mode, om: map<string, Value>, nm: map<string, Value>, keys: seq<string>, p: Path): (r: Batch)
    ensures forall q :: q in r ==> Describes(Obj(nm), p, q) && |q.path| > |p|
    decreases Obj(nm), 1, |keys|
  {
    if keys == [] then []
    else KeyPatches(mode, om, nm, keys[0], p) + DiffKeys(mode, om, nm, keys[1..], p)
  }

  /** The deletion of list index `j` below `p`, for a list of fewer than `j + 1` elements. */
  lemma DeletionDescribes(nxs: seq<Value>, p: Path, j: nat)
    requires j >= |nxs|
    ensures Describes(Arr(nxs), p, Patch(p + [IndexKey(j)], None))
  {
    ParseNatToString(j);
    var path := p + [IndexKey(j)];
    assert path[|p|..] == [IndexKey(j)] && path[|p|..|path| - 1] == [];
  }

  /** Deletions of the indices `hi - 1` down to `lo`, last first. */
  function Deletes(hi: nat, lo: nat, p: Path): (r: Batch)
    ensures |r| == if hi <= lo then 0 else hi - lo
    ensures forall j :: 0 <= j < |r| ==> r[j] == Patch(p + [IndexKey(hi - 1 - j)], None)
    decreases hi
  {
    if hi <= lo then [] else [Patch(p + [IndexKey(hi - 1)], None)] + Deletes(hi - 1, lo, p)
  }

  /** Every deletion past the end of the new list describes it. */
  lemma DeletesDescribe(hi: nat, nxs: seq<Value>, p: Path)
    ensures forall q :: q in Deletes(hi, |nxs|, p) ==> Describes(Arr(nxs), p, q) && |q.path| > |p|
  {
    var r := Deletes(hi, |nxs|, p);
    forall q | q in r ensures Describes(Arr(nxs), p, q) && |q.path| > |p| {
      var j :| 0 <= j < |r| && r[j] == q;
      DeletionDescribes(nxs, p, hi - 1 - j);
    }
  }

  /**
   * The patches for positions `i..` of two lists: each index of the new list
   * is diffed against the old element there; the indices the new list lacks
   * are deleted, in ascending order as written and descending when fixed.
   */
  function DiffIndices(mode: Mode, oxs: seq<Value>, nxs: seq<Value>, i: nat, p: Path): (r: Batch)
    requires i <= |oxs| + |nxs|
    ensures forall q :: q in r ==> Describes(Arr(nxs), p, q) && |q.path| > |p|
    decreases Arr(nxs), 1, |oxs| + |nxs| - i
  {
    if i < |nxs| then
      var here := DiffValue(mode, Get(oxs, i), nxs[i], p + [IndexKey(i)]);
      ParseNatToString(i);
      DescribesLiftAll(Arr(nxs), IndexKey(i), nxs[i], p, here);
      here + DiffIndices(mode, oxs, nxs, i + 1, p)
    else if mode == Fixed then
      DeletesDescribe(|oxs|, nxs, p);
      Deletes(|oxs|, |nxs|, p)
    else if i < |oxs| then
      DeletionDescribes(nxs, p, i);
      [Patch(p + [IndexKey(i)], None)] + DiffIndices(mode, oxs, nxs, i + 1, p)
    else []
  }

  // ---------------------------------------------------------------------------
  // Replaying the fixed diff

  /** The map after each key of `keys` takes the new map's entry (or its absence). */
  function Final(m: map<string, Value>, nm: map<string, Value>, keys: seq<string>): map<string, Value>
    decreases |keys|
  {
    if keys == [] then m else Final(Put(m, keys[0], Lookup(nm, keys[0])), nm, keys[1..])
  }

  lemma {:induction false} FinalLookup(m: map<string, Value>, nm: map<string, Value>, keys: seq<string>, j: string)
    ensures Lookup(Final(m, nm, keys), j) == if j in keys then Lookup(nm, j) else Lookup(m, j)
    decreases |keys|
  {
    if keys != [] {
      var m1 := Put(m, keys[0], Lookup(nm, keys[0]));
      FinalLookup(m1, nm, keys[1..], j);
      assert Final(m, nm, keys) == Final(m1, nm, keys[1..]);
      assert keys == [keys[0]] + keys[1..];
      assert j in keys <==> j == keys[0] || j in keys[1..];
      if j != keys[0] {
        assert Lookup(m1, j) == Lookup(m, j);
      }
    }
  }

  lemma MapsByLookup(a: map<string, Value>, b: map<string, Value>)
    requires forall j :: Lookup(a, j) == Lookup(b, j)
    ensures a == b
  {
    assert forall j :: j in a <==> j in b by {
      forall j ensures j in a <==> j in b {
        assert Lookup(a, j) == Lookup(b, j);
      }
    }
    assert a.Keys == b.Keys;
    forall j | j in a ensures a[j] == b[j] {
      assert Lookup(a, j) == Lookup(b, j);
    }
  }

  /** Visiting every key of both maps turns the old map into the new one. */
  lemma FinalIsNew(om: map<string, Value>, nm: map<string, Value>)
    ensures Final(om, nm, Keys(om, nm)) == nm
  {
    forall j ensures Lookup(Final(om, nm, Keys(om, nm)), j) == Lookup(nm, j) {
      FinalLookup(om, nm, Keys(om, nm), j);
    }
    MapsByLookup(Final(om, nm, Keys(om, nm)), nm);
  }

  /** An update of one child of the container at `p` is an update of the container. */
  lemma ChildStep(s: Option<Value>, p: Path, c: Value, k: string, val: Option<Value>, c2: Value)
    requires At(s, p) == Some(c)
    requires Update(Some(c), [k], val) == Ok(Some(c2))
    ensures Update(s, p + [k], val) == Update(s, p, Some(c2))
    ensures Update(s, p, Some(c2)).Ok? && At(Update(s, p, Some(c2)).value, p) == Some(c2)
  {
    UpdateSame(s, p, c);
    UpdateNested(s, p, c, [k], val, c2);
    UpdateExisting(s, p, Some(c2));
    UpdateReadBack(s, p, Some(c2));
  }

  /** Two batches that each rewrite the container at `p` compose into one rewrite. */
  lemma ThenAt(s: Option<Value>, p: Path, first: Batch, rest: Batch, c1: Value, z: Value)
    requires Update(s, p, Some(c1)).Ok?
    requires UpdateAll(s, first) == Update(s, p, Some(c1))
    requires UpdateAll(Update(s, p, Some(c1)).value, rest) == Update(Update(s, p, Some(c1)).value, p, Some(z))
    ensures UpdateAll(s, first + rest) == Update(s, p, Some(z))
  {
    UpdateAllConcat(s, first, rest);
    UpdateTwice(s, p, c1, z);
  }

  /**
   * The fixed diff replays: applied where the old tree sits, its patches
   * leave exactly the new tree there.
   */
  lemma {:induction false} DiffApplies(s: Option<Value>, o: Value, n: Value, p: Path)
    requires At(s, p) == Some(o)
    ensures UpdateAll(s, DiffValue(Fixed, Some(o), n, p)) == Update(s, p, Some(n))
    decreases n, 2
  {
    if o == n {
      UpdateSame(s, p, n);
    } else if o.Obj? && n.Obj? {
      DiffKeysApplies(s, o.fields, n.fields, Keys(o.fields, n.fields), p, o.fields);
      FinalIsNew(o.fields, n.fields);
    } else if o.Arr? && n.Arr? {
      assert n.items[..0] + o.items[0..] == o.items;
      DiffIndicesApplies(s, o.items, n.items, 0, p);
    } else {
      UpdateAllSingle(s, Patch(p, Some(n)));
    }
  }

  lemma {:induction false} KeyApplies(s: Option<Value>, om: map<string, Value>, nm: map<string, Value>, k: string, p: Path, m: map<string, Value>)
    requires At(s, p) == Some(Obj(m))
    requires Lookup(m, k) == Lookup(om, k)
    ensures UpdateAll(s, KeyPatches(Fixed, om, nm, k, p)) == Update(s, p + [k], Lookup(nm, k))
    decreases Obj(nm), 0
  {
    var pk := p + [k];
    assert At(s, pk) == Lookup(om, k) by {
      AtAppend(s, p, [k]);
      assert [k][1..] == [];
      assert At(Some(Obj(m)), [k]) == Lookup(m, k);
    }
    if k in nm {
      assert KeyPatches(Fixed, om, nm, k, p) == DiffValue(Fixed, Lookup(om, k), nm[k], pk);
      if k in om {
        DiffApplies(s, om[k], nm[k], pk);
      } else {
        assert DiffValue(Fixed, None, nm[k], pk) == [Patch(pk, Some(nm[k]))];
        UpdateAllSingle(s, Patch(pk, Some(nm[k])));
      }
    } else if k in om {
      assert KeyPatches(Fixed, om, nm, k, p) == [Patch(pk, None)];
      UpdateAllSingle(s, Patch(pk, None));
    } else {
      assert KeyPatches(Fixed, om, nm, k, p) == [];
      assert pk[..|pk| - 1] == p;
      UpdateDeleteAbsent(s, pk);
    }
  }

  lemma {:induction false} DiffKeysApplies(s: Option<Value>, om: map<string, Value>, nm: map<string, Value>,
                                           keys: seq<string>, p: Path, m: map<string, Value>)
    requires At(s, p) == Some(Obj(m))
    requires forall k :: k in keys ==> Lookup(m, k) == Lookup(om, k)
    requires forall i, j :: 0 <= i < j < |keys| ==> keys[i] != keys[j]
    ensures UpdateAll(s, DiffKeys(Fixed, om, nm, keys, p)) == Update(s, p, Some(Obj(Final(m, nm, keys))))
    decreases Obj(nm), 1, |keys|
  {
    if keys == [] {
      UpdateSame(s, p, Obj(m));
    } else {
      var k := keys[0];
      var c := Lookup(nm, k);
      var m1 := Put(m, k, c);
      KeyApplies(s, om, nm, k, p, m);
      assert Update(Some(Obj(m)), [k], c) == Ok(Some(Obj(m1))) by { assert [k][1..] == []; }
      ChildStep(s, p, Obj(m), k, c, Obj(m1));
      var s1 := Update(s, p, Some(Obj(m1))).value;
      forall j | j in keys[1..] ensures Lookup(m1, j) == Lookup(om, j) {
        assert j != k by {
          var t :| 0 <= t < |keys[1..]| && keys[1..][t] == j;
          assert keys[t + 1] == j;
        }
      }
      DiffKeysApplies(s1, om, nm, keys[1..], p, m1);
      ThenAt(s, p, KeyPatches(Fixed, om, nm, k, p), DiffKeys(Fixed, om, nm, keys[1..], p), Obj(m1), Obj(Final(m1, nm, keys[1..])));
    }
  }

  /** What the list at `p` holds after the first `i` indices were replayed. */
  function Partial(oxs: seq<Value>, nxs: seq<Value>, i: nat): seq<Value>
    requires i <= |nxs|
  {
    nxs[..i] + (if i <= |oxs| then oxs[i..] else [])
  }

  lemma {:induction false} IndexApplies(s: Option<Value>, oxs: seq<Value>, nxs: seq<Value>, i: nat, p: Path)
    requires i < |nxs|
    requires At(s, p) == Some(Arr(Partial(oxs, nxs, i)))
    ensures Update(Some(Arr(Partial(oxs, nxs, i))), [IndexKey(i)], Some(nxs[i])) == Ok(Some(Arr(Partial(oxs, nxs, i + 1))))
    ensures UpdateAll(s, DiffValue(Fixed, Get(oxs, i), nxs[i], p + [IndexKey(i)])) == Update(s, p + [IndexKey(i)], Some(nxs[i]))
    decreases Arr(nxs), 0
  {
    var cur := Partial(oxs, nxs, i);
    ParseNatToString(i);
    assert [IndexKey(i)][1..] == [];
    if i < |oxs| {
      assert cur[i] == oxs[i];
      assert cur[i := nxs[i]] == Partial(oxs, nxs, i + 1);
      AtAppend(s, p, [IndexKey(i)]);
      DiffApplies(s, oxs[i], nxs[i], p + [IndexKey(i)]);
    } else {
      assert cur == nxs[..i];
      assert cur + [nxs[i]] == Partial(oxs, nxs, i + 1);
      UpdateAllSingle(s, Patch(p + [IndexKey(i)], Some(nxs[i])));
    }
  }

  lemma {:induction false} DiffIndicesApplies(s: Option<Value>, oxs: seq<Value>, nxs: seq<Value>, i: nat, p: Path)
    requires i <= |nxs|
    requires At(s, p) == Some(Arr(Partial(oxs, nxs, i)))
    ensures UpdateAll(s, DiffIndices(Fixed, oxs, nxs, i, p)) == Update(s, p, Some(Arr(nxs)))
    decreases Arr(nxs), 1, |oxs| + |nxs| - i
  {
    var cur := Partial(oxs, nxs, i);
    if i < |nxs| {
      IndexApplies(s, oxs, nxs, i, p);
      var next := Partial(oxs, nxs, i + 1);
      ChildStep(s, p, Arr(cur), IndexKey(i), Some(nxs[i]), Arr(next));
      var s1 := Update(s, p, Some(Arr(next))).value;
      DiffIndicesApplies(s1, oxs, nxs, i + 1, p);
      assert DiffIndices(Fixed, oxs, nxs, i, p) ==
        DiffValue(Fixed, Get(oxs, i), nxs[i], p + [IndexKey(i)]) + DiffIndices(Fixed, oxs, nxs, i + 1, p);
      ThenAt(s, p, DiffValue(Fixed, Get(oxs, i), nxs[i], p + [IndexKey(i)]), DiffIndices(Fixed, oxs, nxs, i + 1, p), Arr(next), Arr(nxs));
    } else if |oxs| <= |nxs| {
      assert cur == nxs;
      UpdateSame(s, p, Arr(nxs));
    } else {
      assert cur == nxs + oxs[|nxs|..];
      DeletesApply(s, p, cur, |nxs|);
      assert cur[..|nxs|] == nxs;
    }
  }

  /** Deleting the indices past `lo`, last first, truncates the list. */
  lemma {:induction false} DeletesApply(s: Option<Value>, p: Path, xs: seq<Value>, lo: nat)
    requires lo <= |xs|
    requires At(s, p) == Some(Arr(xs))
    ensures UpdateAll(s, Deletes(|xs|, lo, p)) == Update(s, p, Some(Arr(xs[..lo])))
    decreases |xs|
  {
    if |xs| == lo {
      assert xs[..lo] == xs;
      UpdateSame(s, p, Arr(xs));
    } else {
      var j := |xs| - 1;
      ParseNatToString(j);
      var first := [Patch(p + [IndexKey(j)], None)];
      assert Update(Some(Arr(xs)), [IndexKey(j)], None) == Ok(Some(Arr(xs[..j]))) by {
        assert [IndexKey(j)][1..] == [];
        assert xs[..j] + xs[j + 1..] == xs[..j];
      }
      ChildStep(s, p, Arr(xs), IndexKey(j), None, Arr(xs[..j]));
      UpdateAllSingle(s, first[0]);
      var s1 := Update(s, p, Some(Arr(xs[..j]))).value;
      DeletesApply(s1, p, xs[..j], lo);
      assert xs[..j][..lo] == xs[..lo];
      assert Deletes(|xs|, lo, p) == first + Deletes(j, lo, p);
      ThenAt(s, p, first, Deletes(j, lo, p), Arr(xs[..j]), Arr(xs[..lo]));
    }
  }

  /** Applying the fixed diff to the new tree itself changes nothing. */
  lemma DiffIdempotent(s: Option<Value>, o: Option<Value>, n: Value, p: Path)
    requires At(s, p) == Some(n)
    ensures UpdateAll(s, DiffValue(Fixed, o, n, p)) == Ok(s)
  {
    var r := DiffValue(Fixed, o, n, p);
    forall q | q in r ensures Harmless(s, q) {
      assert Describes(n, p, q);
      var sub := q.path[|p|..];
      assert q.path == p + sub;
      AtAppend(s, p, sub);
      if q.value.None? {
        var up := q.path[|p|..|q.path| - 1];
        assert q.path[..|q.path| - 1] == p + up;
        AtAppend(s, p, up);
      }
    }
    UpdateAllHarmless(s, r);
  }

  // ---------------------------------------------------------------------------
  // Where the diff as written agrees, and where it does not

  /**
   * The changes the diff as written handles: no list shrinks, and every
   * leaf it reaches in the new tree is a primitive other than `null`.
   */
  predicate Compatible(o: Option<Value>, n: Value)
    decreases n
  {
    if o == Some(n) then true
    else if o.Some? && o.value.Obj? && n.Obj? then
      forall k :: k in n.fields ==> Compatible(Lookup(o.value.fields, k), n.fields[k])
    else if o.Some? && o.value.Arr? && n.Arr? then
      |o.value.items| <= |n.items| &&
      forall i :: 0 <= i < |n.items| ==> Compatible(Get(o.value.items, i), n.items[i])
    else IsPrimitive(n)
  }

  /** On the changes it handles, the diff as written is the fixed diff. */
  lemma {:induction false} AsWrittenAgrees(o: Option<Value>, n: Value, p: Path)
    requires Compatible(o, n)
    ensures DiffValue(AsWritten, o, n, p) == DiffValue(Fixed, o, n, p)
    decreases n, 2
  {
    if o != Some(n) {
      if o.Some? && o.value.Obj? && n.Obj? {
        KeysAgree(o.value.fields, n.fields, Keys(o.value.fields, n.fields), p);
      } else if o.Some? && o.value.Arr? && n.Arr? {
        IndicesAgree(o.value.items, n.items, 0, p);
      }
    }
  }

  lemma {:induction false} KeysAgree(om: map<string, Value>, nm: map<string, Value>, keys: seq<string>, p: Path)
    requires forall k :: k in nm ==> Compatible(Lookup(om, k), nm[k])
    ensures DiffKeys(AsWritten, om, nm, keys, p) == DiffKeys(Fixed, om, nm, keys, p)
    decreases Obj(nm), 1, |keys|
  {
    if keys != [] {
      var k := keys[0];
      if k in nm {
        AsWrittenAgrees(Lookup(om, k), nm[k], p + [k]);
      }
      KeysAgree(om, nm, keys[1..], p);
    }
  }

  lemma {:induction false} IndicesAgree(oxs: seq<Value>, nxs: seq<Value>, i: nat, p: Path)
    requires |oxs| <= |nxs| && i <= |nxs|
    requires forall j :: 0 <= j < |nxs| ==> Compatible(Get(oxs, j), nxs[j])
    ensures DiffIndices(AsWritten, oxs, nxs, i, p) == DiffIndices(Fixed, oxs, nxs, i, p)
    decreases Arr(nxs), 1, |nxs| - i
  {
    if i < |nxs| {
      AsWrittenAgrees(Get(oxs, i), nxs[i], p + [IndexKey(i)]);
      IndicesAgree(oxs, nxs, i + 1, p);
    }
  }

  /** The diff of two distinct maps whose keys are exactly `k` is the diff of that key's values. */
  lemma OneKeyDiff(mode: Mode, om: map<string, Value>, nm: map<string, Value>, k: string)
    requires Keys(om, nm) == [k] && om != nm && k in nm
    ensures DiffValue(mode, Some(Obj(om)), Obj(nm), []) == DiffValue(mode, Lookup(om, k), nm[k], [k])
  {
    var root: Path := [];
    DiffObj(mode, om, nm, root);
    DiffKeysOne(mode, om, nm, k, root);
    assert root + [k] == [k];
  }

  /** Two distinct maps differ key by key. */
  lemma DiffObj(mode: Mode, om: map<string, Value>, nm: map<string, Value>, p: Path)
    requires om != nm
    ensures DiffValue(mode, Some(Obj(om)), Obj(nm), p) == DiffKeys(mode, om, nm, Keys(om, nm), p)
  {
    assert Obj(om) != Obj(nm);
  }

  /** Maps whose only key is `k`, the old one possibly empty, are diffed at `k` alone. */
  lemma KeysOfOne(om: map<string, Value>, nm: map<string, Value>, k: string)
    requires om.Keys <= {k} && nm.Keys == {k}
    ensures Keys(om, nm) == [k]
  {
    var a := SortedKeys(om.Keys);
    var b := SortedKeys(nm.Keys - om.Keys);
    if k in om {
      assert om.Keys == {k} && nm.Keys - om.Keys == {};
      assert |a| == 1 && a[0] in om.Keys;
    } else {
      assert om.Keys == {} && nm.Keys - om.Keys == {k};
      assert |b| == 1 && b[0] in nm.Keys - om.Keys;
    }
  }

  /** A single key present in the new map contributes its value's diff. */
  lemma DiffKeysOne(mode: Mode, om: map<string, Value>, nm: map<string, Value>, k: string, p: Path)
    requires k in nm
    ensures DiffKeys(mode, om, nm, [k], p) == DiffValue(mode, Lookup(om, k), nm[k], p + [k])
  {
    assert [k][1..] == [];
    assert DiffKeys(mode, om, nm, [], p) == [];
    assert DiffKeys(mode, om, nm, [k], p) == KeyPatches(mode, om, nm, k, p) + DiffKeys(mode, om, nm, [], p);
  }

  /** Adding a key whose value is a map produces no patch as written. */
  lemma NewCollectionLost()
    ensures
      var o := Obj(map[]);
      var n := Obj(map["a" := Obj(map[])]);
      o != n &&
      DiffValue(AsWritten, Some(o), n, []) == [] &&
      DiffValue(Fixed, Some(o), n, []) == [Patch(["a"], Some(Obj(map[])))]
  {
    var om: map<string, Value> := map[];
    var nm := map["a" := Obj(map[])];
    KeysOfOne(om, nm, "a");
    assert om != nm by { assert "a" in nm; }
    OneKeyDiff(AsWritten, om, nm, "a");
    OneKeyDiff(Fixed, om, nm, "a");
  }

  /** Setting a value to `null` produces no patch as written. */
  lemma NullLost()
    ensures
      var o := Obj(map["a" := Num(1)]);
      var n := Obj(map["a" := Null]);
      DiffValue(AsWritten, Some(o), n, []) == [] &&
      DiffValue(Fixed, Some(o), n, []) == [Patch(["a"], Some(Null))]
  {
    var om := map["a" := Num(1)];
    var nm := map["a" := Null];
    KeysOfOne(om, nm, "a");
    assert om != nm by { assert om["a"] != nm["a"]; }
    OneKeyDiff(AsWritten, om, nm, "a");
    OneKeyDiff(Fixed, om, nm, "a");
  }

  /**
   * Shrinking `[1, 2, 3]` to `[1]` deletes index 1 then index 2 as written;
   * replayed, the first deletion shifts 3 down and the second finds nothing,
   * leaving `[1, 3]`. The fixed diff deletes index 2 first and leaves `[1]`.
   */
  lemma ShrinkKeepsElement()
    ensures
      var o := Arr([Num(1), Num(2), Num(3)]);
      var n := Arr([Num(1)]);
      UpdateAll(Some(o), DiffValue(AsWritten, Some(o), n, [])) == Ok(Some(Arr([Num(1), Num(3)]))) &&
      UpdateAll(Some(o), DiffValue(Fixed, Some(o), n, [])) == Ok(Some(n))
  {
    var oxs := [Num(1), Num(2), Num(3)];
    var nxs := [Num(1)];
    var root: Path := [];
    DiffApplies(Some(Arr(oxs)), Arr(oxs), Arr(nxs), root);
    ShrinkReplay(Some(Arr(oxs)), root, oxs, nxs);
  }

  /** The diff as written of the shrink `[1, 2, 3]` to `[1]` at `p`: index 1 deleted, then index 2. */
  lemma ShrinkPatches(oxs: seq<Value>, nxs: seq<Value>, p: Path)
    requires oxs == [Num(1), Num(2), Num(3)] && nxs == [Num(1)]
    ensures DiffValue(AsWritten, Some(Arr(oxs)), Arr(nxs), p) == [Patch(p + [IndexKey(1)], None), Patch(p + [IndexKey(2)], None)]
  {
    var d1 := Patch(p + [IndexKey(1)], None);
    var d2 := Patch(p + [IndexKey(2)], None);
    assert DiffIndices(AsWritten, oxs, nxs, 3, p) == [];
    assert DiffIndices(AsWritten, oxs, nxs, 2, p) == [d2];
    assert DiffIndices(AsWritten, oxs, nxs, 1, p) == [d1, d2];
    assert DiffValue(AsWritten, Some(oxs[0]), nxs[0], p + [IndexKey(0)]) == [];
    assert DiffIndices(AsWritten, oxs, nxs, 0, p) == [d1, d2];
    assert Arr(oxs) != Arr(nxs) by { assert |oxs| != |nxs|; }
  }

  /** Replayed where `[1, 2, 3]` sits, the shrink as written leaves `[1, 3]` there. */
  lemma ShrinkReplay(s: Option<Value>, p: Path, oxs: seq<Value>, nxs: seq<Value>)
    requires oxs == [Num(1), Num(2), Num(3)] && nxs == [Num(1)]
    requires At(s, p) == Some(Arr(oxs))
    ensures UpdateAll(s, DiffValue(AsWritten, Some(Arr(oxs)), Arr(nxs), p)) == Update(s, p, Some(Arr([Num(1), Num(3)])))
  {
    var mid := [Num(1), Num(3)];
    var d1 := Patch(p + [IndexKey(1)], None);
    var d2 := Patch(p + [IndexKey(2)], None);
    ShrinkPatches(oxs, nxs, p);
    ParseNatToString(1);
    ParseNatToString(2);
    assert [IndexKey(1)][1..] == [] && [IndexKey(2)][1..] == [];
    assert oxs[..1] + oxs[2..] == mid;
    assert Update(Some(Arr(oxs)), [IndexKey(1)], None) == Ok(Some(Arr(mid)));
    assert Update(Some(Arr(mid)), [IndexKey(2)], None) == Ok(Some(Arr(mid)));
    ChildStep(s, p, Arr(oxs), IndexKey(1), None, Arr(mid));
    var s1 := Update(s, p, Some(Arr(mid))).value;
    ChildStep(s1, p, Arr(mid), IndexKey(2), None, Arr(mid));
    UpdateSame(s1, p, Arr(mid));
    assert [d1, d2][1..] == [d2] && [d2][1..] == [];
    assert UpdateAll(s1, [d2]) == Ok(s1);
    assert UpdateAll(s, [d1, d2]) == UpdateAll(s1, [d2]);
  }
}

=== FILE: diffserver.dfy ===
/**
 * The `BunCG` server of lib/buncg.ts, built on immutable collections and a
 * structural diff instead of a recording draft. At startup it replays its
 * log into the model's data members and collapses the log to one snapshot.
 * An action maps the committed map to a mutated one; the server diffs the
 * two, installs the mutated map, logs the diff and sends it through each
 * peer's cursors.
 */
module DiffServer {
  import opened Wrappers
  import opened Text
  import opened Values
  import opened Persist
  import opened Registry
  import opened Updates
  import opened Diff
  import BunCG
  import Config

  type State = map<string, Value>

  /** A draft function as `withMutations` runs it: the mutated map, or `None` when it throws. */
  type Mutation = State -> Option<State>

  /** An action: given the payload, the draft function it runs (at once, or when its promise resolves). */
  type Action = Option<Value> -> Mutation

  datatype Server = Server(state: State, log: Store, peers: Peers)

  datatype Reply = Reply(srv: Server, sent: seq<Emit>, thrown: bool)

  /**
   * One logged patch as the constructor replays it: a root patch clears the
   * map and merges the patch's map into it, so a root patch without a value
   * leaves the empty map; any other patch is `setIn` or `deleteIn`.
   */
  function ApplyLogged(s: Option<Value>, q: Patch): (r: Result<Option<Value>, PathError>)
    ensures q.path == [] && q.value.Some? && q.value.value.Obj? ==> r == Ok(q.value)
    ensures q.path == [] && q.value.None? ==> r == Ok(Some(Obj(map[])))
    ensures q.path != [] ==> r == Update(s, q.path, q.value)
  {
    if q.path == [] then
      if q.value.None? then Ok(Some(Obj(map[])))
      else if q.value.value.Obj? then Ok(q.value) else Err(RootUndefined)
    else Update(s, q.path, q.value)
  }

  function ReplayAll(s: Option<Value>, batch: Batch): Result<Option<Value>, PathError>
    decreases |batch|
  {
    if batch == [] then Ok(s)
    else
      var s' :- ApplyLogged(s, batch[0]);
      ReplayAll(s', batch[1..])
  }

  /** Below the root the constructor's replay is plain `setIn`/`deleteIn`. */
  lemma {:induction false} ReplayBelowRoot(s: Option<Value>, batch: Batch)
    requires forall q :: q in batch ==> q.path != []
    ensures ReplayAll(s, batch) == UpdateAll(s, batch)
    decreases |batch|
  {
    if batch != [] {
      assert batch[0] in batch;
      match Update(s, batch[0].path, batch[0].value)
      case Err(_) =>
      case Ok(s') =>
        forall q | q in batch[1..] ensures q.path != [] {
          assert q in batch;
        }
        ReplayBelowRoot(s', batch[1..]);
    }
  }

  lemma {:induction false} ReplayAllConcat(s: Option<Value>, a: Batch, b: Batch)
    ensures ReplayAll(s, a + b) == (var s' :- ReplayAll(s, a); ReplayAll(s', b))
    decreases |a|
  {
    if a == [] {
      assert a + b == b;
    } else {
      assert (a + b)[0] == a[0] && (a + b)[1..] == a[1..] + b;
      match ApplyLogged(s, a[0])
      case Err(_) =>
      case Ok(s') => ReplayAllConcat(s', a[1..], b);
    }
  }

  /** The log replayed over the tree built from the model. */
  function Replay(initial: State, log: Store): Result<Option<Value>, PathError> {
    ReplayAll(Some(Obj(initial)), Patches(log))
  }

  /** A log that opens with a root patch replays the same from any initial tree. */
  lemma ReplayIndependent(i1: State, i2: State, log: Store)
    requires Collapsed(log)
    ensures Replay(i1, log) == Replay(i2, log)
  {
    PatchesFromFront(log.slots);
    var first := log.slots[0].value;
    var rest := first[1..] + Concat(log.slots[1..]);
    assert Patches(log) == [first[0]] + rest by {
      assert first == [first[0]] + first[1..];
    }
    ReplayAllConcat(Some(Obj(i1)), [first[0]], rest);
    ReplayAllConcat(Some(Obj(i2)), [first[0]], rest);
    assert [first[0]][1..] == [];
  }

  /**
   * Between two events the log holds a snapshot followed by batches, and
   * replaying it yields the committed map.
   */
  predicate Consistent(srv: Server) {
    Valid(srv.log) && Collapsed(srv.log) && Replay(srv.state, srv.log) == Ok(Some(Obj(srv.state)))
  }

  /** The log `#persistCollapse` leaves: one snapshot of the map under key 0. */
  function Collapse(log: Store, state: State): (r: Store)
    ensures Valid(r) && Index(r) == 0 && Records(r) == [Snapshot(Obj(state))]
    ensures Collapsed(r) && Replay(state, r) == Ok(Some(Obj(state)))
  {
    ClearThenInit(log, Obj(state));
    var r := Init(Clear(log), Obj(state));
    assert Snapshot(Obj(state))[1..] == [];
    assert ReplayAll(Some(Obj(state)), Snapshot(Obj(state))) == ReplayAll(Some(Obj(state)), []);
    r
  }

  /**
   * The constructor: the model's data members, the log replayed over them
   * (a failing patch throws), the log collapsed to the result. No peer is
   * connected yet.
   */
  function Startup(model: map<string, Config.Member<Action>>, log: Store): (r: Result<Server, PathError>)
    ensures var init := Config.InitialState(model).fields;
      r.Ok? <==> Replay(init, log).Ok? && Replay(init, log).value.Some? && Replay(init, log).value.value.Obj?
    ensures r.Ok? ==> Consistent(r.value) && r.value.peers == []
    ensures r.Ok? ==> Some(Obj(r.value.state)) == Replay(Config.InitialState(model).fields, log).value
  {
    var init := Config.InitialState(model).fields;
    match Replay(init, log)
    case Err(e) => Err(e)
    case Ok(Some(Obj(m))) => Ok(Server(m, Collapse(log, m), []))
    case Ok(_) => Err(RootUndefined)
  }

  /** A consistent server restarted over its own log comes back with the same map. */
  lemma RestartRestores(model: map<string, Config.Member<Action>>, srv: Server)
    requires Consistent(srv)
    ensures Startup(model, srv.log) == Ok(Server(srv.state, Collapse(srv.log, srv.state), []))
  {
    ReplayIndependent(Config.InitialState(model).fields, srv.state, srv.log);
  }

  /** The batch `#deltaPatches` computes from the committed map to the mutated one. */
  function Delta(mode: Mode, before: State, after: State): (r: Batch)
    ensures forall q :: q in r ==> q.path != []
    ensures before == after ==> r == []
  {
    DiffValue(mode, Some(Obj(before)), Obj(after), [])
  }

  /**
   * `#handleActionMutate(mutate, payload)`: a throwing draft function
   * changes nothing; otherwise the diff is taken, the mutated map
   * installed, the diff logged (after a snapshot of the mutated map when the
   * log has no record) and sent.
   */
  function HandleMutate(mode: Mode, srv: Server, m: Mutation): (r: Reply)
    requires Valid(srv.log)
    ensures Valid(r.srv.log) && r.srv.peers == srv.peers
    ensures r.thrown <==> m(srv.state).None?
    ensures r.thrown ==> r.srv == srv && r.sent == []
    ensures !r.thrown ==> r.srv.state == m(srv.state).value
    ensures !r.thrown ==> r.sent == Route(srv.peers, Delta(mode, srv.state, r.srv.state))
    ensures !r.thrown ==> r.srv.log == BunCG.Persisted(srv.log, Obj(r.srv.state), Delta(mode, srv.state, r.srv.state))
  {
    match m(srv.state)
    case None => Reply(srv, [], true)
    case Some(mutated) =>
      var patches := Delta(mode, srv.state, mutated);
      Reply(Server(mutated, BunCG.Persisted(srv.log, Obj(mutated), patches), srv.peers), Route(srv.peers, patches), false)
  }

  /** With the fixed diff every handled action keeps the log replaying to the committed map. */
  lemma {:induction false} HandleMutateConsistent(srv: Server, m: Mutation)
    requires Consistent(srv)
    ensures Consistent(HandleMutate(Fixed, srv, m).srv)
  {
    var r := HandleMutate(Fixed, srv, m);
    if !r.thrown {
      var before, after := srv.state, r.srv.state;
      var d := Delta(Fixed, before, after);
      var root: Path := [];
      CollapsedAfterAppend(srv.log, d);
      PatchesAppend(srv.log, d);
      ReplayAllConcat(Some(Obj(before)), Patches(srv.log), d);
      ReplayBelowRoot(Some(Obj(before)), d);
      DiffApplies(Some(Obj(before)), Obj(before), Obj(after), root);
      ReplayIndependent(after, before, r.srv.log);
    }
  }

  /**
   * A peer that applied every batch it was sent to the map it was last
   * shown holds the committed map: the diff sent for an action takes the
   * old map to the new one.
   */
  lemma SentDiffApplies(srv: Server, m: Mutation)
    requires Valid(srv.log) && m(srv.state).Some?
    ensures UpdateAll(Some(Obj(srv.state)), Delta(Fixed, srv.state, m(srv.state).value)) == Ok(Some(Obj(m(srv.state).value)))
  {
    var root: Path := [];
    DiffApplies(Some(Obj(srv.state)), Obj(srv.state), Obj(m(srv.state).value), root);
  }

  /**
   * As written, the diff of a shrinking list loses the log's consistency:
   * a server holding `{l: [1, 2, 3]}` whose action sets `l` to `[1]` logs a
   * batch that replays to `{l: [1, 3]}`.
   */
  lemma ShrinkBreaksReplay()
    ensures
      var before := map["l" := Arr([Num(1), Num(2), Num(3)])];
      var srv := Server(before, Collapse(Open(), before), []);
      var r := HandleMutate(AsWritten, srv, (s: State) => Some(map["l" := Arr([Num(1)])]));
      Consistent(srv) && !r.thrown &&
      Replay(r.srv.state, r.srv.log) == Ok(Some(Obj(map["l" := Arr([Num(1), Num(3)])]))) &&
      !Consistent(r.srv)
  {
    var oxs := [Num(1), Num(2), Num(3)];
    var nxs := [Num(1)];
    var before := map["l" := Arr(oxs)];
    var after := map["l" := Arr(nxs)];
    var srv := Server(before, Collapse(Open(), before), []);
    var m := (s: State) => Some(after);
    var r := HandleMutate(AsWritten, srv, m);
    var d := Delta(AsWritten, before, after);
    ShrinkDelta(oxs, nxs, before, after);
    assert d == DiffValue(AsWritten, Some(Arr(oxs)), Arr(nxs), ["l"]);
    ShrinkAt(oxs, nxs);
    assert Obj(map["l" := Arr([Num(1), Num(3)])]) != Obj(after) by {
      assert map["l" := Arr([Num(1), Num(3)])]["l"] != after["l"];
    }
    PatchesAppend(srv.log, d);
    ReplayAllConcat(Some(Obj(after)), Patches(srv.log), d);
    ReplayBelowRoot(Some(Obj(before)), d);
    ReplayIndependent(after, before, srv.log);
  }

  lemma ShrinkDelta(oxs: seq<Value>, nxs: seq<Value>, before: State, after: State)
    requires oxs == [Num(1), Num(2), Num(3)] && nxs == [Num(1)]
    requires before == map["l" := Arr(oxs)] && after == map["l" := Arr(nxs)]
    ensures Delta(AsWritten, before, after) == DiffValue(AsWritten, Some(Arr(oxs)), Arr(nxs), ["l"])
  {
    assert before != after by { assert before["l"] != after["l"]; }
    assert before.Keys == {"l"} && after.Keys - before.Keys == {};
    assert SortedKeys({"l"}) == ["l"];
    assert Keys(before, after) == ["l"];
    assert ["l"][1..] == [];
    var root: Path := [];
    assert root + ["l"] == ["l"];
    var keys := ["l"];
    var inner := DiffValue(AsWritten, Some(Arr(oxs)), Arr(nxs), ["l"]);
    assert KeyPatches(AsWritten, before, after, "l", root) == inner;
    assert DiffKeys(AsWritten, before, after, keys[1..], root) == [];
    assert DiffKeys(AsWritten, before, after, keys, root) == inner + [];
    assert inner + [] == inner;
  }

  /** The as-written shrink of `l`, replayed inside the map that holds it. */
  lemma ShrinkAt(oxs: seq<Value>, nxs: seq<Value>)
    requires oxs == [Num(1), Num(2), Num(3)] && nxs == [Num(1)]
    ensures UpdateAll(Some(Obj(map["l" := Arr(oxs)])), DiffValue(AsWritten, Some(Arr(oxs)), Arr(nxs), ["l"]))
      == Ok(Some(Obj(map["l" := Arr([Num(1), Num(3)])])))
  {
    var m0 := map["l" := Arr(oxs)];
    var m1 := map["l" := Arr([Num(1), Num(3)])];
    var p: Path := ["l"];
    assert p[1..] == [];
    assert Lookup(m0, "l") == Some(Arr(oxs));
    assert At(Some(Obj(m0)), p) == Some(Arr(oxs));
    ShrinkReplay(Some(Obj(m0)), p, oxs, nxs);
    assert Put(m0, "l", Some(Arr([Num(1), Num(3)]))) == m1;
  }

  // ---------------------------------------------------------------------------
  // Messages

  /** `#handleInit`: registers the cursors (every path when absent) and sends each cursor's value. */
  function Connect(srv: Server, id: PeerId, cursors: Option<seq<Path>>): (r: Reply)
    ensures r.srv.state == srv.state && r.srv.log == srv.log && !r.thrown
    ensures r.srv.peers == Register(srv.peers, id, cursors)
    ensures r.sent == [Emit(id, InitialView(DefaultScopes(cursors), Obj(srv.state)))]
  {
    Reply(srv.(peers := Register(srv.peers, id, cursors)), [Emit(id, InitialView(DefaultScopes(cursors), Obj(srv.state)))], false)
  }

  /** The socket's `close` handler. */
  function Disconnect(srv: Server, id: PeerId): (r: Server)
    ensures r.state == srv.state && r.log == srv.log
    ensures ScopesOf(r.peers, id).None?
    ensures forall j :: j != id ==> ScopesOf(r.peers, j) == ScopesOf(srv.peers, j)
  {
    srv.(peers := Unregister(srv.peers, id))
  }

  /** What one socket message asking for an action leads to. */
  datatype Handled =
    | Ran(reply: Reply)           // the action ran now
    | Deferred(mutation: Mutation) // an `Async` action; its draft function runs when the promise resolves

  /**
   * `#handleAction({action, payload})`: an unknown name is ignored; a name
   * ending in `Async` defers the draft function its promise resolves to;
   * any other action runs now.
   */
  function Dispatch(mode: Mode, actions: map<string, Action>, srv: Server, name: string, payload: Option<Value>): (h: Handled)
    requires Valid(srv.log)
    ensures name !in actions ==> h == Ran(Reply(srv, [], false))
    ensures name in actions ==> (h.Deferred? <==> EndsWith(name, "Async"))
    ensures name in actions && !EndsWith(name, "Async") ==> h == Ran(HandleMutate(mode, srv, actions[name](payload)))
  {
    if name !in actions then Ran(Reply(srv, [], false))
    else if EndsWith(name, "Async") then Deferred(actions[name](payload))
    else Ran(HandleMutate(mode, srv, actions[name](payload)))
  }

  /** With the fixed diff every dispatched action keeps the server consistent. */
  lemma DispatchConsistent(actions: map<string, Action>, srv: Server, name: string, payload: Option<Value>)
    requires Consistent(srv)
    ensures var h := Dispatch(Fixed, actions, srv, name, payload);
      h.Ran? ==> Consistent(h.reply.srv)
    ensures var h := Dispatch(Fixed, actions, srv, name, payload);
      h.Deferred? ==> Consistent(HandleMutate(Fixed, srv, h.mutation).srv)
  {
    if name in actions {
      HandleMutateConsistent(srv, actions[name](payload));
    }
  }
}

=== FILE: engine.dfy ===
/**
 * The patch-recording state engine (`State` in server/src/state.ts, and its
 * older revision in server/state.ts), modelled as committed tree + sink.
 *
 * Inside `withStream` the action body sees a view of the tree: every write
 * through the view appends a patch to the sink instead of touching the tree,
 * and every read first looks for the last sink patch recorded at the same
 * path. Outside a stream the same view writes the tree directly. The body is
 * modelled as the sequence of view operations it performs.
 */
module Engine {
  import opened Wrappers
  import opened Text
  import opened Values
  import opened ArrayOps
  import opened Flush

  datatype EngineError =
    | TypeError             // a property of `undefined`/`null`, a property set on a primitive, a mutator on a non-array
    | Thrown                // the action body threw
    | StreamOpen            // `snap` or `flush` called while a stream is open
    | ElementDeleted        // `delete` of an array element: it leaves a hole, which the model refuses
    | UndefinedElement      // a mutator's copy would hold an element read as `undefined`
    | Invalid(e: PathError) // a direct write the tree cannot hold

  /** The engine's private state: the committed tree, the pending patches, the stream flag. */
  datatype Engine = Engine(tree: Value, sink: Batch, streaming: bool)

  /** `new State(state)`. */
  function Create(v: Value): (e: Engine)
    ensures e.tree == v && e.sink == [] && !e.streaming
  {
    Engine(v, [], false)
  }

  /** The separator the engine joins paths with before comparing them. */
  const Sep: char := '\\'

  /** Two paths the engine treats as the same location: their joined forms are equal. */
  predicate SameKey(p: Path, q: Path) {
    Join(p, Sep) == Join(q, Sep)
  }

  /** `sink.findLast(...)`: the position of the last patch recorded at the same location. */
  function LastIndex(sink: Batch, p: Path): (r: Option<nat>)
    ensures r.Some? ==> r.value < |sink| && SameKey(sink[r.value].path, p)
    ensures r.Some? ==> forall j :: r.value < j < |sink| ==> !SameKey(sink[j].path, p)
    ensures r.None? ==> forall j :: 0 <= j < |sink| ==> !SameKey(sink[j].path, p)
    decreases |sink|
  {
    if sink == [] then None
    else if SameKey(sink[|sink| - 1].path, p) then Some(|sink| - 1)
    else LastIndex(sink[..|sink| - 1], p)
  }

  /**
   * Reading `p` through the view. The root is the committed tree. Below it,
   * a property of `undefined` or `null` is a TypeError and a property of any
   * other primitive is `undefined`; a property of a container is, during a
   * stream, the value of the last patch recorded at that location and
   * otherwise the container's own child.
   */
  function Read(e: Engine, p: Path): Result<Option<Value>, EngineError>
    decreases |p|
  {
    if p == [] then Ok(Some(e.tree))
    else
      var parent :- Read(e, p[..|p| - 1]);
      if parent.None? || parent == Some(Null) then Err(TypeError)
      else if !parent.value.IsContainer() then Ok(None)
      else if e.streaming then
        match LastIndex(e.sink, p)
        case Some(i) => Ok(e.sink[i].value)
        case None => Ok(Child(parent.value, p[|p| - 1]))
      else Ok(Child(parent.value, p[|p| - 1]))
  }

  /** One operation of an action body on the view. */
  datatype DraftOp =
    | Assign(at: Path, key: string, value: Option<Value>)   // `view[key] = value` on the container at `at`
    | Remove(at: Path, key: string)                         // `delete view[key]` on the container at `at`
    | Mutate(at: Path, op: ArrayOp)                         // an array mutator called on the array at `at`
    | Throw                                                 // the body throws

  /**
   * Element `j` of an array at `at`, read through the view: the last patch
   * recorded at the element's own path if there is one, else the element.
   */
  function ElementView(sink: Batch, at: Path, xs: seq<Value>, j: nat): Option<Value>
    requires j < |xs|
  {
    match LastIndex(sink, at + [NatToString(j)])
    case Some(i) => sink[i].value
    case None => Some(xs[j])
  }

  /**
   * `.slice()` called through a proxy of the array at `at`: every element is
   * read through the view. An element read as `undefined` would make the
   * copy hold `undefined`, which the model's arrays cannot.
   */
  function SliceView(sink: Batch, at: Path, xs: seq<Value>): (r: Result<seq<Value>, EngineError>)
    ensures r.Ok? <==> forall j :: 0 <= j < |xs| ==> ElementView(sink, at, xs, j).Some?
    ensures r.Ok? ==> |r.value| == |xs|
    ensures r.Ok? ==> forall j :: 0 <= j < |xs| ==> Some(r.value[j]) == ElementView(sink, at, xs, j)
    ensures r.Err? ==> r.error == UndefinedElement
  {
    if forall j :: 0 <= j < |xs| ==> ElementView(sink, at, xs, j).Some? then
      Ok(seq(|xs|, j requires 0 <= j < |xs| => ElementView(sink, at, xs, j).value))
    else Err(UndefinedElement)
  }

  /**
   * The copy a mutator works on during a stream. Without a patch at the
   * array's own path the mutator slices the array it was called on, as it
   * is. With one, it slices a fresh proxy of that patch's value, so every
   * element is read through the view and picks up the element writes
   * recorded since. A patch holding anything but an array has no `slice`.
   */
  function MutatorBase(e: Engine, at: Path, current: Value): (r: Result<seq<Value>, EngineError>)
    ensures LastIndex(e.sink, at).None? ==> (r.Ok? <==> current.Arr?)
    ensures LastIndex(e.sink, at).None? && current.Arr? ==> r == Ok(current.items)
  {
    match LastIndex(e.sink, at)
    case None => if current.Arr? then Ok(current.items) else Err(TypeError)
    case Some(i) =>
      var v := e.sink[i].value;
      if v.None? || !v.value.Arr? then Err(TypeError)
      else SliceView(e.sink, at, v.value.items)
  }

  /**
   * What a mutator records at the array's path: the mutated copy in the
   * current revision (with either trap), the mutator's return value in the
   * legacy one.
   */
  function Recorded(rev: Revision, out: Outcome): Option<Value>
  {
    if rev != Legacy then Some(Arr(out.elems)) else out.result
  }

  /** Maps a failed direct write to the engine's error. */
  function Direct(r: Result<Value, PathError>): (s: Result<Value, EngineError>)
    ensures s.Ok? <==> r.Ok?
    ensures s.Ok? ==> s.value == r.value
  {
    match r
    case Ok(v) => Ok(v)
    case Err(e) => Err(Invalid(e))
  }

  /**
   * One body operation. During a stream a write appends one patch to the
   * sink; outside a stream it writes the tree, through the revision's store
   * rule for plain assignments.
   */
  function Step(rev: Revision, e: Engine, op: DraftOp): (r: Result<Engine, EngineError>)
    ensures r.Ok? ==> r.value.streaming == e.streaming
    ensures r.Ok? && e.streaming ==>
      r.value.tree == e.tree && |e.sink| <= |r.value.sink| <= |e.sink| + 1 && r.value.sink[..|e.sink|] == e.sink
    ensures r.Ok? && !e.streaming ==> r.value.sink == e.sink
    ensures op.Throw? ==> r == Err(Thrown)
    ensures !e.streaming && op.Assign? && TrapRejects(rev, Patch(op.at + [op.key], op.value)) ==> r.Err?
  {
    match op
    case Throw => Err(Thrown)
    case Assign(at, k, v) =>
      var parent :- Read(e, at);
      if parent.None? || !parent.value.IsContainer() then Err(TypeError)
      else if e.streaming then Ok(e.(sink := e.sink + [Patch(at + [k], v)]))
      else
        var t :- Direct(ApplyPatch(rev, e.tree, Patch(at + [k], v)));
        if TrapRejects(rev, Patch(at + [k], v)) then Err(Invalid(TrapReturnedFalsy))
        else Ok(e.(tree := t))
    case Remove(at, k) =>
      var parent :- Read(e, at);
      if parent.None? || parent == Some(Null) then Err(TypeError)
      else if parent.value.Obj? then
        if e.streaming then Ok(e.(sink := e.sink + [Patch(at + [k], None)]))
        else
          var t :- Direct(ApplyPatch(rev, e.tree, Patch(at + [k], None)));
          Ok(e.(tree := t))
      else if Child(parent.value, k).Some? then Err(ElementDeleted)
      else Ok(e)
    case Mutate(at, aop) =>
      var current :- Read(e, at);
      if current.None? || !current.value.Arr? then Err(TypeError)
      else if e.streaming then
        var base :- MutatorBase(e, at, current.value);
        Ok(e.(sink := e.sink + [Patch(at, Recorded(rev, Run(base, aop)))]))
      else
        var out := Run(current.value.items, aop);
        if at == [] then Ok(e.(tree := Arr(out.elems)))
        else
          var t :- Direct(AssignAt(e.tree, at, Some(Arr(out.elems))));
          Ok(e.(tree := t))
  }

  /** Runs the body's operations in order, stopping at the first error. */
  function RunBody(rev: Revision, e: Engine, ops: seq<DraftOp>): (r: (Engine, Option<EngineError>))
    ensures r.0.streaming == e.streaming
    ensures e.streaming ==> r.0.tree == e.tree && |e.sink| <= |r.0.sink| && r.0.sink[..|e.sink|] == e.sink
    ensures !e.streaming ==> r.0.sink == e.sink
    decreases |ops|
  {
    if ops == [] then (e, None)
    else match Step(rev, e, ops[0])
      case Err(err) => (e, Some(err))
      case Ok(e') =>
        var r := RunBody(rev, e', ops[1..]);
        assert e.streaming ==> r.0.sink[..|e.sink|] == e'.sink[..|e'.sink|][..|e.sink|];
        r
  }

  /**
   * `withStream(body)`: runs the body with the stream open and closes it
   * afterwards, whether or not the body threw. The committed tree is
   * unchanged; the sink keeps every patch recorded before a throw.
   */
  function WithStream(rev: Revision, e: Engine, ops: seq<DraftOp>): (r: (Engine, Option<EngineError>))
    ensures !r.0.streaming
    ensures r.0.tree == e.tree
    ensures |e.sink| <= |r.0.sink| && r.0.sink[..|e.sink|] == e.sink
  {
    var (e', err) := RunBody(rev, e.(streaming := true), ops);
    (e'.(streaming := false), err)
  }

  /** `snap()`: the committed tree, refused while a stream is open. */
  function Snap(e: Engine): (r: Result<Value, EngineError>)
    ensures r.Ok? <==> !e.streaming
    ensures r.Err? ==> r.error == StreamOpen
    ensures r.Ok? ==> r.value == e.tree
  {
    if e.streaming then Err(StreamOpen) else Ok(e.tree)
  }

  /**
   * `flush()`: refused while a stream is open; otherwise applies the sink to
   * the tree and empties the sink, also when a patch fails part way.
   */
  function FlushSink(rev: Revision, e: Engine): (r: (Engine, Option<EngineError>))
    ensures e.streaming ==> r == (e, Some(StreamOpen))
    ensures !e.streaming ==> r.0.sink == [] && !r.0.streaming
    ensures !e.streaming ==> r.0.tree == FlushBatch(rev, e.tree, e.sink).tree
    ensures !e.streaming ==> (r.1.None? <==> FlushBatch(rev, e.tree, e.sink).failure.None?)
  {
    if e.streaming then (e, Some(StreamOpen))
    else
      var f := FlushBatch(rev, e.tree, e.sink);
      (Engine(f.tree, [], false), if f.failure.Some? then Some(Invalid(f.failure.value)) else None)
  }

  // ---------------------------------------------------------------------------
  // Read-your-writes

  lemma {:induction false} JoinSnoc(p: Path, k: string)
    requires |p| >= 1
    ensures Join(p + [k], Sep) == Join(p, Sep) + [Sep] + k
  {
    if |p| == 1 {
      assert (p + [k])[1..] == [k];
    } else {
      assert (p + [k])[1..] == p[1..] + [k];
      JoinSnoc(p[1..], k);
    }
  }

  /** Appending a patch whose joined path is longer than `p`'s does not change the read at `p`. */
  lemma {:induction false} ReadAppendLonger(e: Engine, q: Patch, p: Path)
    requires |Join(p, Sep)| < |Join(q.path, Sep)|
    ensures Read(e.(sink := e.sink + [q]), p) == Read(e, p)
    decreases |p|
  {
    if p != [] {
      var parent := p[..|p| - 1];
      if parent != [] {
        JoinSnoc(parent, p[|p| - 1]);
        assert parent + [p[|p| - 1]] == p;
      }
      ReadAppendLonger(e, q, parent);
      var s := e.sink + [q];
      assert s[..|s| - 1] == e.sink;
    }
  }

  /**
   * During a stream, an assignment through the view is read back at the
   * written path by the very next read.
   */
  lemma ReadYourWrites(rev: Revision, e: Engine, at: Path, k: string, v: Option<Value>)
    requires e.streaming
    requires Step(rev, e, Assign(at, k, v)).Ok?
    ensures Read(Step(rev, e, Assign(at, k, v)).value, at + [k]) == Ok(v)
  {
    AssignNeedsContainer(rev, e, at, k, v);
    StreamAssignRecords(rev, e, at, k, v);
    assert (at + [k])[..|at|] == at;
    ReadAppended(e, at, Patch(at + [k], v));
  }

  /** An assignment succeeds only on a container the view reads. */
  lemma AssignNeedsContainer(rev: Revision, e: Engine, at: Path, k: string, v: Option<Value>)
    requires Step(rev, e, Assign(at, k, v)).Ok?
    ensures Read(e, at).Ok? && Read(e, at).value.Some? && Read(e, at).value.value.IsContainer()
  {
  }

  /** A patch appended below a container the view reads is what the next read at its path returns. */
  lemma ReadAppended(e: Engine, at: Path, q: Patch)
    requires e.streaming && |q.path| >= 1 && q.path[..|q.path| - 1] == at
    requires Read(e, at).Ok? && Read(e, at).value.Some? && Read(e, at).value.value.IsContainer()
    ensures Read(e.(sink := e.sink + [q]), q.path) == Ok(q.value)
  {
    var e' := e.(sink := e.sink + [q]);
    if at != [] {
      assert at + [q.path[|q.path| - 1]] == q.path;
      JoinSnoc(at, q.path[|q.path| - 1]);
      ReadAppendLonger(e, q, at);
    }
    assert Read(e', at) == Read(e, at);
    assert SameKey(e'.sink[|e.sink|].path, q.path);
    assert LastIndex(e'.sink, q.path) == Some(|e.sink|);
  }

  /** During a stream, deleting an object's property reads back as `undefined`. */
  lemma ReadYourDeletes(rev: Revision, e: Engine, at: Path, k: string)
    requires e.streaming
    requires Read(e, at).Ok? && Read(e, at).value.Some? && Read(e, at).value.value.Obj?
    ensures Step(rev, e, Remove(at, k)).Ok?
    ensures Read(Step(rev, e, Remove(at, k)).value, at + [k]) == Ok(None)
  {
    assert Step(rev, e, Remove(at, k)) == Ok(e.(sink := e.sink + [Patch(at + [k], None)]));
    assert (at + [k])[..|at|] == at;
    ReadAppended(e, at, Patch(at + [k], None));
  }

  /** A stream assignment appends exactly the patch `{at ++ [key], value}`. */
  lemma StreamAssignRecords(rev: Revision, e: Engine, at: Path, k: string, v: Option<Value>)
    requires e.streaming
    requires Read(e, at).Ok? && Read(e, at).value.Some? && Read(e, at).value.value.IsContainer()
    ensures Step(rev, e, Assign(at, k, v)) == Ok(Engine(e.tree, e.sink + [Patch(at + [k], v)], true))
  {
  }

  /**
   * Deleting inside an array during a stream records nothing: it either
   * fails (an existing element) or changes nothing at all.
   */
  lemma ArrayDeleteNotRecorded(rev: Revision, e: Engine, at: Path, k: string)
    requires e.streaming
    requires Read(e, at).Ok? && Read(e, at).value.Some? && Read(e, at).value.value.Arr?
    ensures Step(rev, e, Remove(at, k)).Ok? ==> Step(rev, e, Remove(at, k)).value == e
  {
  }

  /**
   * Outside a stream, an assignment has the effect flushing its patch would
   * have: it succeeds exactly when that flush raises no error, and then
   * leaves the flushed tree.
   */
  lemma DirectAssignIsFlush(rev: Revision, e: Engine, at: Path, k: string, v: Option<Value>)
    requires !e.streaming
    requires Read(e, at).Ok? && Read(e, at).value.Some? && Read(e, at).value.value.IsContainer()
    ensures Step(rev, e, Assign(at, k, v)).Ok? <==> FlushBatch(rev, e.tree, [Patch(at + [k], v)]).failure.None?
    ensures Step(rev, e, Assign(at, k, v)).Ok? ==>
      FlushBatch(rev, e.tree, [Patch(at + [k], v)]) == Flushed(Step(rev, e, Assign(at, k, v)).value.tree, None)
  {
    assert [Patch(at + [k], v)][1..] == [];
  }

  /**
   * In the current revision, assigning `0` outside a stream stores the `0`
   * and then throws a TypeError, because the set trap returns the value.
   */
  lemma DirectFalsyAssignThrows(e: Engine, at: Path, k: string)
    requires !e.streaming
    requires Read(e, at).Ok? && Read(e, at).value.Some? && Read(e, at).value.value.IsContainer()
    requires ApplyPatch(Current, e.tree, Patch(at + [k], Some(Num(0)))).Ok?
    ensures Step(Current, e, Assign(at, k, Some(Num(0)))) == Err(Invalid(TrapReturnedFalsy))
    ensures Step(CurrentFixed, e, Assign(at, k, Some(Num(0)))).Ok?
  {
  }

  // ---------------------------------------------------------------------------
  // Where the joined-path lookup differs from path equality

  predicate Plain(p: Path) {
    |p| >= 1 && forall i :: 0 <= i < |p| ==> Free(p[i], Sep)
  }

  /**
   * For non-empty paths whose keys contain no backslash, the joined-path
   * comparison is path equality, so the lookup finds the last patch at
   * exactly `p`.
   */
  lemma SameKeyIsEquality(p: Path, q: Path)
    requires Plain(p) && Plain(q)
    ensures SameKey(p, q) <==> p == q
  {
    JoinInjective(p, q, Sep);
  }

  /** A key containing a backslash makes a write at `["a\\b"]` visible at `["a", "b"]`. */
  lemma JoinCollision()
    ensures
      var e := Engine(Obj(map["a" := Obj(map["b" := Num(1)])]), [], true);
      var e' := Step(Current, e, Assign([], "a\\b", Some(Num(5))));
      e'.Ok? && Read(e'.value, ["a", "b"]) == Ok(Some(Num(5)))
  {
    var e := Engine(Obj(map["a" := Obj(map["b" := Num(1)])]), [], true);
    var e1 := e.(sink := [Patch(["a\\b"], Some(Num(5)))]);
    var root: Path := [];
    assert root + ["a\\b"] == ["a\\b"];
    assert Step(Current, e, Assign([], "a\\b", Some(Num(5)))) == Ok(e1);
    assert ["a", "b"][..1] == ["a"];
    assert Read(e1, ["a"]) == Ok(Some(Obj(map["b" := Num(1)])));
    assert Join(["a", "b"], Sep) == "a" + [Sep] + "b";
    assert SameKey(["a\\b"], ["a", "b"]);
  }

  // ---------------------------------------------------------------------------
  // Array mutators

  /**
   * During a stream, a mutator on an array with no patch at its own path
   * records one patch at that path; in the current revision, with either
   * trap, its value is the mutated copy of the array as read there, and the
   * tree is untouched.
   */
  lemma MutateRecordsArray(rev: Revision, e: Engine, at: Path, xs: seq<Value>, aop: ArrayOp)
    requires rev != Legacy
    requires e.streaming
    requires LastIndex(e.sink, at).None?
    requires Read(e, at) == Ok(Some(Arr(xs)))
    ensures Step(rev, e, Mutate(at, aop)) == Ok(e.(sink := e.sink + [Patch(at, Some(Arr(Run(xs, aop).elems)))]))
  {
  }

  /**
   * During a stream, a mutator on an array that already has a patch at its
   * own path copies that patch's array with every element read through the
   * view, so the element writes recorded since the patch are kept; an element
   * read as `undefined` is refused. Both revisions start from that copy.
   */
  lemma MutateFoldsElementWrites(rev: Revision, e: Engine, at: Path, xs: seq<Value>, aop: ArrayOp)
    requires e.streaming
    requires LastIndex(e.sink, at).Some? && e.sink[LastIndex(e.sink, at).value].value == Some(Arr(xs))
    requires Read(e, at).Ok? && Read(e, at).value.Some? && Read(e, at).value.value.Arr?
    ensures Step(rev, e, Mutate(at, aop)).Ok? <==> forall j :: 0 <= j < |xs| ==> ElementView(e.sink, at, xs, j).Some?
    ensures Step(rev, e, Mutate(at, aop)).Ok? ==>
      exists ys: seq<Value> ::
        |ys| == |xs| && (forall j :: 0 <= j < |xs| ==> Some(ys[j]) == ElementView(e.sink, at, xs, j)) &&
        Step(rev, e, Mutate(at, aop)) == Ok(e.(sink := e.sink + [Patch(at, Recorded(rev, Run(ys, aop)))]))
  {
    var r := SliceView(e.sink, at, xs);
    assert MutatorBase(e, at, Read(e, at).value.value) == r;
    if r.Ok? {
      var ys := r.value;
      assert Step(rev, e, Mutate(at, aop)) == Ok(e.(sink := e.sink + [Patch(at, Recorded(rev, Run(ys, aop)))]));
    } else {
      assert Step(rev, e, Mutate(at, aop)) == Err(UndefinedElement);
    }
  }

  /**
   * With an empty sink, a read that succeeds returns what the committed tree
   * holds at that path.
   */
  lemma {:induction false} ReadCommitted(e: Engine, p: Path)
    requires e.sink == [] || !e.streaming
    requires Read(e, p).Ok?
    ensures Read(e, p).value == At(Some(e.tree), p)
    decreases |p|
  {
    if p != [] {
      var parent := p[..|p| - 1];
      var k := p[|p| - 1];
      assert Read(e, parent).Ok?;
      ReadCommitted(e, parent);
      var pv := Read(e, parent).value;
      assert pv.Some? && pv != Some(Null);
      AtAppend(Some(e.tree), parent, [k]);
      assert parent + [k] == p;
      assert At(pv, [k]) == Child(pv.value, k) by {
        assert [k][1..] == [];
      }
      if e.streaming {
        assert LastIndex(e.sink, p).None?;
      }
      assert Read(e, p).value == Child(pv.value, k);
    }
  }

  /** Replacing the value at a path that already holds one always succeeds. */
  lemma {:induction false} AssignExisting(t: Value, p: Path, v: Value)
    requires |p| >= 1
    requires At(Some(t), p).Some?
    ensures AssignAt(t, p, Some(v)).Ok?
    decreases |p|
  {
    if |p| > 1 {
      AssignExisting(Child(t, p[0]).value, p[1..], v);
    } else {
      assert p[1..] == [];
    }
  }

  /**
   * The current revision's mutator capture, with either trap: a fresh stream that calls one
   * mutator on an array, flushed, leaves the mutated array at that path.
   */
  lemma MutateThenFlush(rev: Revision, e: Engine, at: Path, xs: seq<Value>, aop: ArrayOp)
    requires rev != Legacy
    requires e.streaming && e.sink == [] && at != []
    requires Read(e, at) == Ok(Some(Arr(xs)))
    ensures
      var e1 := Step(rev, e, Mutate(at, aop)).value.(streaming := false);
      var f := FlushSink(rev, e1);
      f.1.None? && At(Some(f.0.tree), at) == Some(Arr(Run(xs, aop).elems))
  {
    var ys := Arr(Run(xs, aop).elems);
    var patch := Patch(at, Some(ys));
    MutateRecordsArray(rev, e, at, xs, aop);
    var e1 := Step(rev, e, Mutate(at, aop)).value.(streaming := false);
    assert e1 == Engine(e.tree, [patch], false);
    ReadCommitted(e, at);
    AssignExisting(e.tree, at, ys);
    assert ApplyPatch(rev, e.tree, patch).Ok?;
    var t := ApplyPatch(rev, e.tree, patch).value;
    ApplyReadBack(rev, e.tree, patch);
    assert [patch][1..] == [];
    assert FlushBatch(rev, e.tree, [patch]) == FlushBatch(rev, t, []);
  }

  /**
   * The legacy revision records the mutator's return value instead of the
   * array: after `push`, the array's path holds the new length.
   */
  lemma LegacyPushRecordsLength()
    ensures
      var e := Engine(Obj(map["list" := Arr([Num(7)])]), [], true);
      var e1 := Step(Legacy, e, Mutate(["list"], Push([Num(8)])));
      e1.Ok? &&
      FlushSink(Legacy, e1.value.(streaming := false)).0.tree == Obj(map["list" := Num(2)])
  {
    var e := Engine(Obj(map["list" := Arr([Num(7)])]), [], true);
    assert ["list"][..0] == [];
    assert Read(e, ["list"]) == Ok(Some(Arr([Num(7)])));
    var e1 := e.(sink := [Patch(["list"], Some(Num(2)))]);
    assert Step(Legacy, e, Mutate(["list"], Push([Num(8)]))) == Ok(e1);
    assert e1.sink[1..] == [];
    assert map["list" := Arr([Num(7)])]["list" := Num(2)] == map["list" := Num(2)];
  }

  /**
   * The fixed trap changes only what the set trap returns, not what a mutator
   * records: the same `push` records the mutated copy and flushes it.
   */
  lemma FixedPushRecordsCopy()
    ensures
      var e := Engine(Obj(map["list" := Arr([Num(7)])]), [], true);
      var e1 := Step(CurrentFixed, e, Mutate(["list"], Push([Num(8)])));
      e1.Ok? && e1.value.sink == [Patch(["list"], Some(Arr([Num(7), Num(8)])))] &&
      FlushSink(CurrentFixed, e1.value.(streaming := false)).0.tree == Obj(map["list" := Arr([Num(7), Num(8)])])
  {
    var e := Engine(Obj(map["list" := Arr([Num(7)])]), [], true);
    assert ["list"][..0] == [];
    assert Read(e, ["list"]) == Ok(Some(Arr([Num(7)])));
    assert [Num(7)] + [Num(8)] == [Num(7), Num(8)];
    MutateThenFlush(CurrentFixed, e, ["list"], [Num(7)], Push([Num(8)]));
    var e1 := e.(sink := [Patch(["list"], Some(Arr([Num(7), Num(8)])))]);
    assert Step(CurrentFixed, e, Mutate(["list"], Push([Num(8)]))) == Ok(e1);
    var t := FlushSink(CurrentFixed, e1.(streaming := false)).0.tree;
    assert At(Some(t), ["list"]) == Some(Arr([Num(7), Num(8)]));
    assert e1.sink[1..] == [];
    assert map["list" := Arr([Num(7)])]["list" := Arr([Num(7), Num(8)])] == map["list" := Arr([Num(7), Num(8)])];
  }

  /**
   * A mutator on an array with no patch at its own path copies the array as
   * committed: an element assignment made earlier in the same stream is
   * overwritten when the whole-array patch is flushed after it.
   */
  lemma PendingElementWriteLost()
    ensures
      var e := Engine(Obj(map["list" := Arr([Num(1)])]), [], true);
      var r := RunBody(Current, e, [Assign(["list"], "0", Some(Num(9))), Mutate(["list"], Push([Num(2)]))]);
      r.1.None? &&
      FlushSink(Current, r.0.(streaming := false)).0.tree == Obj(map["list" := Arr([Num(1), Num(2)])])
  {
    var m := map["list" := Arr([Num(1)])];
    var e := Engine(Obj(m), [], true);
    var ops := [Assign(["list"], "0", Some(Num(9))), Mutate(["list"], Push([Num(2)]))];
    assert ["list"][..0] == [];
    assert Read(e, ["list"]) == Ok(Some(Arr([Num(1)])));
    var p1 := Patch(["list", "0"], Some(Num(9)));
    var e1 := e.(sink := [p1]);
    assert ["list"] + ["0"] == ["list", "0"];
    StreamAssignRecords(Current, e, ["list"], "0", Some(Num(9)));
    assert Step(Current, e, ops[0]) == Ok(e1);
    assert Join(["list", "0"], Sep) == "list" + [Sep] + "0";
    assert !SameKey(["list", "0"], ["list"]);
    assert LastIndex(e1.sink, ["list"]) == None;
    assert Read(e1, ["list"]) == Ok(Some(Arr([Num(1)])));
    var p2 := Patch(["list"], Some(Arr([Num(1), Num(2)])));
    var e2 := e1.(sink := [p1, p2]);
    MutateRecordsArray(Current, e1, ["list"], [Num(1)], Push([Num(2)]));
    assert [Num(1)] + [Num(2)] == [Num(1), Num(2)];
    assert Run([Num(1)], Push([Num(2)])).elems == [Num(1), Num(2)];
    assert [p1] + [p2] == [p1, p2];
    assert ops[1] == Mutate(["list"], Push([Num(2)]));
    assert Step(Current, e1, ops[1]) == Ok(e2);
    assert ops[1..][1..] == [];
    assert RunBody(Current, e1, ops[1..]) == (e2, None);
    FlushTwo(m, p1, p2);
  }

  /**
   * An element write made after a mutator, in the same stream, is folded
   * into the next mutator's copy: `{l: [1, 2]}` with `push(3)`, `l[0] = 9`,
   * `push(4)` records `[9, 2, 3, 4]` last.
   */
  lemma ElementWriteFolded()
    ensures
      var e := Engine(Obj(map["l" := Arr([Num(1), Num(2)])]), [], true);
      var r := RunBody(Current, e, [Mutate(["l"], Push([Num(3)])), Assign(["l"], "0", Some(Num(9))), Mutate(["l"], Push([Num(4)]))]);
      r.1.None? && r.0.sink[|r.0.sink| - 1] == Patch(["l"], Some(Arr([Num(9), Num(2), Num(3), Num(4)])))
  {
    var e := Engine(Obj(map["l" := Arr([Num(1), Num(2)])]), [], true);
    var ops := [Mutate(["l"], Push([Num(3)])), Assign(["l"], "0", Some(Num(9))), Mutate(["l"], Push([Num(4)]))];
    var p1 := Patch(["l"], Some(Arr([Num(1), Num(2), Num(3)])));
    var p2 := Patch(["l", "0"], Some(Num(9)));
    var p3 := Patch(["l"], Some(Arr([Num(9), Num(2), Num(3), Num(4)])));
    assert ["l"][..0] == [];
    assert Read(e, ["l"]) == Ok(Some(Arr([Num(1), Num(2)])));
    MutateRecordsArray(Current, e, ["l"], [Num(1), Num(2)], Push([Num(3)]));
    assert [Num(1), Num(2)] + [Num(3)] == [Num(1), Num(2), Num(3)];
    var e1 := e.(sink := [p1]);
    assert Step(Current, e, ops[0]) == Ok(e1);
    assert SameKey(p1.path, ["l"]);
    assert LastIndex(e1.sink, ["l"]) == Some(0);
    assert Read(e1, ["l"]) == Ok(Some(Arr([Num(1), Num(2), Num(3)])));
    assert ["l"] + ["0"] == ["l", "0"];
    StreamAssignRecords(Current, e1, ["l"], "0", Some(Num(9)));
    var e2 := e1.(sink := [p1, p2]);
    assert [p1] + [p2] == [p1, p2];
    assert Step(Current, e1, ops[1]) == Ok(e2);
    SliceFolds(e2.sink, p1, p2);
    assert Join(["l", "0"], Sep) == "l" + [Sep] + "0";
    assert !SameKey(p2.path, ["l"]);
    assert LastIndex(e2.sink, ["l"]) == Some(0);
    assert Read(e2, ["l"]) == Ok(Some(Arr([Num(1), Num(2), Num(3)])));
    assert [Num(9), Num(2), Num(3)] + [Num(4)] == [Num(9), Num(2), Num(3), Num(4)];
    var e3 := e2.(sink := [p1, p2, p3]);
    assert [p1, p2] + [p3] == [p1, p2, p3];
    assert Step(Current, e2, ops[2]) == Ok(e3);
    assert ops[1..][1..] == ops[2..] && ops[2..][1..] == [];
    assert RunBody(Current, e2, ops[2..]) == (e3, None);
    assert RunBody(Current, e1, ops[1..]) == (e3, None);
  }

  /** The copy half of `ElementWriteFolded`: `[1, 2, 3]` sliced through the view reads `[9, 2, 3]`. */
  lemma SliceFolds(sink: Batch, p1: Patch, p2: Patch)
    requires p1 == Patch(["l"], Some(Arr([Num(1), Num(2), Num(3)])))
    requires p2 == Patch(["l", "0"], Some(Num(9)))
    requires sink == [p1, p2]
    ensures SliceView(sink, ["l"], [Num(1), Num(2), Num(3)]) == Ok([Num(9), Num(2), Num(3)])
  {
    var xs := [Num(1), Num(2), Num(3)];
    assert NatToString(0) == "0" && NatToString(1) == "1" && NatToString(2) == "2";
    assert ["l"] + ["0"] == ["l", "0"];
    assert ["l"] + ["1"] == ["l", "1"];
    assert ["l"] + ["2"] == ["l", "2"];
    assert Join(["l", "0"], Sep) == "l" + [Sep] + "0";
    assert Join(["l", "1"], Sep) == "l" + [Sep] + "1";
    assert Join(["l", "2"], Sep) == "l" + [Sep] + "2";
    assert sink[..1] == [p1] && [p1][..0] == [];
    assert ElementView(sink, ["l"], xs, 0) == Some(Num(9));
    assert Join(["l", "1"], Sep)[2] == '1' && |Join(["l", "1"], Sep)| == 3;
    assert Join(p2.path, Sep)[2] == '0' && Join(p1.path, Sep) == "l";
    assert !SameKey(p2.path, ["l", "1"]) && !SameKey(p1.path, ["l", "1"]);
    assert LastIndex(sink, ["l", "1"]) == None;
    assert ElementView(sink, ["l"], xs, 1) == Some(Num(2));
    assert Join(["l", "2"], Sep)[2] == '2' && |Join(["l", "2"], Sep)| == 3;
    assert Join(p2.path, Sep)[2] == '0' && Join(p1.path, Sep) == "l";
    assert !SameKey(p2.path, ["l", "2"]) && !SameKey(p1.path, ["l", "2"]);
    assert LastIndex(sink, ["l", "2"]) == None;
    assert ElementView(sink, ["l"], xs, 2) == Some(Num(3));
    var r := SliceView(sink, ["l"], xs);
    assert r.Ok?;
    assert r.value == [Num(9), Num(2), Num(3)];
  }

  /** The flush half of `PendingElementWriteLost`. */
  lemma FlushTwo(m: map<string, Value>, p1: Patch, p2: Patch)
    requires m == map["list" := Arr([Num(1)])]
    requires p1 == Patch(["list", "0"], Some(Num(9)))
    requires p2 == Patch(["list"], Some(Arr([Num(1), Num(2)])))
    ensures FlushBatch(Current, Obj(m), [p1, p2]) == Flushed(Obj(map["list" := Arr([Num(1), Num(2)])]), None)
  {
    ParseNatToString(0);
    assert NatToString(0) == "0";
    assert ParseIndex("0") == Some(0);
    assert ["list", "0"][1..] == ["0"];
    assert Child(Obj(m), "list") == Some(Arr([Num(1)]));
    assert [Num(1)][0 := Num(9)] == [Num(9)];
    assert SetProp(Arr([Num(1)]), "0", Some(Num(9))) == Ok(Arr([Num(9)]));
    var t1 := Obj(m["list" := Arr([Num(9)])]);
    assert AssignAt(Obj(m), ["list", "0"], Some(Num(9))) == Ok(t1);
    assert ApplyPatch(Current, Obj(m), p1) == Ok(t1);
    var t2 := Obj(m["list" := Arr([Num(1), Num(2)])]);
    assert m["list" := Arr([Num(9)])]["list" := Arr([Num(1), Num(2)])] == m["list" := Arr([Num(1), Num(2)])];
    assert AssignAt(t1, ["list"], Some(Arr([Num(1), Num(2)]))) == SetProp(t1, "list", Some(Arr([Num(1), Num(2)])));
    assert ApplyPatch(Current, t1, p2) == Ok(t2);
    assert [p1, p2][1..] == [p2];
    assert [p2][1..] == [];
    assert !TrapRejects(Current, p1) && !TrapRejects(Current, p2);
    assert FlushBatch(Current, t2, []) == Flushed(t2, None);
    assert FlushBatch(Current, t1, [p2]) == Flushed(t2, None);
    assert FlushBatch(Current, Obj(m), [p1, p2]) == FlushBatch(Current, t1, [p2]);
    assert m["list" := Arr([Num(1), Num(2)])] == map["list" := Arr([Num(1), Num(2)])];
  }

  /**
   * A patch recorded below a path keeps answering reads there after a later
   * assignment replaces an ancestor, although flushing lets the ancestor win.
   */
  lemma DeeperPatchShadowsAncestor()
    ensures
      var e := Engine(Obj(map["a" := Obj(map["b" := Num(0)])]), [], true);
      var r := RunBody(Current, e, [Assign(["a"], "b", Some(Num(1))), Assign([], "a", Some(Obj(map["b" := Num(2)])))]);
      r.1.None? &&
      Read(r.0, ["a", "b"]) == Ok(Some(Num(1))) &&
      FlushSink(Current, r.0.(streaming := false)).0.tree == Obj(map["a" := Obj(map["b" := Num(2)])])
  {
    var inner := Obj(map["b" := Num(0)]);
    var e := Engine(Obj(map["a" := inner]), [], true);
    var ops := [Assign(["a"], "b", Some(Num(1))), Assign([], "a", Some(Obj(map["b" := Num(2)])))];
    assert ["a"][..0] == [];
    assert ["a", "b"][..1] == ["a"];
    assert Read(e, ["a"]) == Ok(Some(inner));
    var p1 := Patch(["a", "b"], Some(Num(1)));
    var e1 := e.(sink := [p1]);
    assert ["a"] + ["b"] == ["a", "b"];
    StreamAssignRecords(Current, e, ["a"], "b", Some(Num(1)));
    assert Step(Current, e, ops[0]) == Ok(e1);
    var root: Path := [];
    assert root + ["a"] == ["a"];
    var p2 := Patch(["a"], Some(Obj(map["b" := Num(2)])));
    var e2 := e1.(sink := [p1, p2]);
    StreamAssignRecords(Current, e1, root, "a", Some(Obj(map["b" := Num(2)])));
    assert [p1] + [p2] == [p1, p2];
    assert Step(Current, e1, ops[1]) == Ok(e2);
    assert ops[1..][1..] == [];
    assert RunBody(Current, e1, ops[1..]) == (e2, None);
    assert Join(["a", "b"], Sep) == "a" + [Sep] + "b";
    assert !SameKey(["a"], ["a", "b"]);
    assert !SameKey(["a", "b"], ["a"]);
    assert LastIndex(e2.sink, ["a"]) == Some(1);
    assert Read(e2, ["a"]) == Ok(Some(Obj(map["b" := Num(2)])));
    assert LastIndex(e2.sink, ["a", "b"]) == Some(0);
    FlushAncestor(inner, p1, p2);
  }

  /** The flush half of `DeeperPatchShadowsAncestor`. */
  lemma FlushAncestor(inner: Value, p1: Patch, p2: Patch)
    requires inner == Obj(map["b" := Num(0)])
    requires p1 == Patch(["a", "b"], Some(Num(1)))
    requires p2 == Patch(["a"], Some(Obj(map["b" := Num(2)])))
    ensures FlushBatch(Current, Obj(map["a" := inner]), [p1, p2]) == Flushed(Obj(map["a" := Obj(map["b" := Num(2)])]), None)
  {
    var t0 := Obj(map["a" := inner]);
    assert ["a", "b"][1..] == ["b"];
    var t1 := Obj(map["a" := Obj(map["b" := Num(1)])]);
    assert map["b" := Num(0)]["b" := Num(1)] == map["b" := Num(1)];
    assert AssignAt(inner, ["b"], Some(Num(1))) == Ok(Obj(map["b" := Num(1)]));
    assert map["a" := inner]["a" := Obj(map["b" := Num(1)])] == map["a" := Obj(map["b" := Num(1)])];
    assert AssignAt(t0, ["a", "b"], Some(Num(1))) == Ok(t1);
    assert ApplyPatch(Current, t0, p1) == Ok(t1);
    var t2 := Obj(map["a" := Obj(map["b" := Num(2)])]);
    assert map["a" := Obj(map["b" := Num(1)])]["a" := Obj(map["b" := Num(2)])] == map["a" := Obj(map["b" := Num(2)])];
    assert ApplyPatch(Current, t1, p2) == Ok(t2);
    assert [p1, p2][1..] == [p2];
    assert [p2][1..] == [];
    assert FlushBatch(Current, t1, [p2]) == Flushed(t2, None);
  }
}

=== FILE: flush.dfy ===
/**
 * `flush`: applying a batch of patches, in order, to the committed tree in
 * place (server/src/state.ts and its older revision server/state.ts).
 *
 * For a non-empty path the engine walks `path[..-1]` with `slice[p]` and then
 * assigns or deletes the last segment. The assignment goes through the
 * tree's own proxy, so the revision's store rule decides whether a value is
 * stored or the key is deleted instead.
 */
module Flush {
  import opened Wrappers
  import opened Text
  import opened Values
  import opened Updates

  /**
   * The revisions of the state engine. `CurrentFixed` is the current
   * revision with its set trap returning `true` after storing, as its
   * stream branch already does.
   */
  datatype Revision =
    | Legacy         // server/state.ts
    | Current        // server/src/state.ts
    | CurrentFixed

  /**
   * Whether an assignment outside a stream stores its value. The current
   * revision stores anything but `undefined`; the legacy one only truthy values.
   */
  predicate Stores(rev: Revision, val: Option<Value>) {
    if rev == Legacy then Truthy(val) else val.Some?
  }

  /**
   * Whether the set trap rejects an assignment it has already carried out.
   * The current revision's trap returns the value it stored, and a falsy
   * return makes the strict-mode assignment in `flush` throw a TypeError:
   * a defined falsy value is in the tree, and the rest of the batch is not
   * applied. The legacy trap stores only truthy values and returns `true`
   * otherwise, so it never rejects.
   */
  predicate TrapRejects(rev: Revision, patch: Patch) {
    rev == Current && patch.path != [] && patch.value.Some? && !Truthy(patch.value)
  }

  /** What an assignment outside a stream leaves under the key: the value, or nothing. */
  function Stored(rev: Revision, val: Option<Value>): (r: Option<Value>)
    ensures r.Some? <==> Stores(rev, val)
    ensures r.Some? ==> r == val
  {
    if Stores(rev, val) then val else None
  }

  /**
   * `target[k] = v` (a defined value) or `delete target[k]` (undefined) on one
   * container. Arrays accept only index keys; a write past the end or the
   * deletion of an element would leave a hole, which the model refuses.
   */
  function SetProp(t: Value, k: string, val: Option<Value>): Result<Value, PathError>
  {
    match t
    case Obj(m) => Ok(Obj(Put(m, k, val)))
    case Arr(xs) =>
      (match ParseIndex(k)
       case None => Err(ArrayProperty)
       case Some(i) =>
         if val.Some? then
           if i < |xs| then Ok(Arr(xs[i := val.value]))
           else if i == |xs| then Ok(Arr(xs + [val.value]))
           else Err(SparseArray)
         else if i < |xs| then Err(SparseArray)
         else Ok(t))
    case _ => Err(NotAContainer)
  }

  /** Walks to the parent of `p` through existing children, then sets or deletes the last key. */
  function AssignAt(t: Value, p: Path, val: Option<Value>): Result<Value, PathError>
    requires |p| >= 1
    decreases |p|
  {
    if |p| == 1 then SetProp(t, p[0], val)
    else match Child(t, p[0])
      case None => Err(NotAContainer)
      case Some(c) =>
        var c' :- AssignAt(c, p[1..], val);
        SetProp(t, p[0], Some(c'))
  }

  /** One patch of `flush`: the empty path replaces the whole tree. */
  function ApplyPatch(rev: Revision, t: Value, patch: Patch): Result<Value, PathError>
  {
    if patch.path == [] then
      if patch.value.Some? then Ok(patch.value.value) else Err(RootUndefined)
    else AssignAt(t, patch.path, Stored(rev, patch.value))
  }

  /** The tree after a flush, and the error that stopped it part way, if any. */
  datatype Flushed = Flushed(tree: Value, failure: Option<PathError>)

  /**
   * Applies the batch in order. Patches before a failing one stay applied,
   * because the tree is mutated in place; so does a patch whose assignment
   * the trap rejects after storing it.
   */
  function FlushBatch(rev: Revision, t: Value, batch: Batch): Flushed
    decreases |batch|
  {
    if batch == [] then Flushed(t, None)
    else match ApplyPatch(rev, t, batch[0])
      case Err(e) => Flushed(t, Some(e))
      case Ok(t') =>
        if TrapRejects(rev, batch[0]) then Flushed(t', Some(TrapReturnedFalsy))
        else FlushBatch(rev, t', batch[1..])
  }

  // ---------------------------------------------------------------------------
  // Composition

  /** Flushing `a + b` is flushing `a`, then `b` from where `a` left the tree. */
  lemma {:induction false} FlushConcat(rev: Revision, t: Value, a: Batch, b: Batch)
    ensures FlushBatch(rev, t, a + b) ==
      (var f := FlushBatch(rev, t, a);
       if f.failure.Some? then f else FlushBatch(rev, f.tree, b))
    decreases |a|
  {
    if a == [] {
      assert a + b == b;
    } else {
      assert (a + b)[0] == a[0];
      assert (a + b)[1..] == a[1..] + b;
      match ApplyPatch(rev, t, a[0])
      case Err(e) =>
      case Ok(t') =>
        if !TrapRejects(rev, a[0]) {
          FlushConcat(rev, t', a[1..], b);
        }
    }
  }

  /** A batch that starts by replacing the root flushes the same from any tree. */
  lemma FlushFromRoot(rev: Revision, t1: Value, t2: Value, v: Value, rest: Batch)
    ensures FlushBatch(rev, t1, [Patch([], Some(v))] + rest) == FlushBatch(rev, t2, [Patch([], Some(v))] + rest)
  {
    var b := [Patch([], Some(v))] + rest;
    assert b[0] == Patch([], Some(v)) && b[1..] == rest;
  }

  // ---------------------------------------------------------------------------
  // Reading back what a patch wrote

  lemma {:induction false} AssignReadBack(t: Value, p: Path, val: Option<Value>)
    requires |p| >= 1
    requires AssignAt(t, p, val).Ok?
    ensures At(Some(AssignAt(t, p, val).value), p) == val
    decreases |p|
  {
    if |p| == 1 {
      match t
      case Arr(xs) =>
        var i := ParseIndex(p[0]).value;
        if val.None? {
          assert At(Some(t), p) == At(Child(t, p[0]), []);
        }
      case _ =>
    } else {
      var c := Child(t, p[0]).value;
      AssignReadBack(c, p[1..], val);
      var c' := AssignAt(c, p[1..], val).value;
      assert Child(SetProp(t, p[0], Some(c')).value, p[0]) == Some(c');
    }
  }

  /**
   * After a successful patch, a revision that stores every defined value
   * reads back exactly the patch's value at its path (`undefined` for a
   * deletion).
   */
  lemma ApplyReadBack(rev: Revision, t: Value, patch: Patch)
    requires rev != Legacy
    requires ApplyPatch(rev, t, patch).Ok?
    ensures At(Some(ApplyPatch(rev, t, patch).value), patch.path) == patch.value
  {
    if patch.path != [] {
      AssignReadBack(t, patch.path, patch.value);
    }
  }

  /** Neither path is a prefix of the other: they address disjoint subtrees. */
  predicate Disjoint(p: Path, q: Path) {
    exists i :: 0 <= i < |p| && i < |q| && p[i] != q[i]
  }

  lemma {:induction false} SetPropElsewhere(t: Value, k: string, val: Option<Value>, j: string)
    requires SetProp(t, k, val).Ok?
    requires j != k
    ensures Child(SetProp(t, k, val).value, j) == Child(t, j)
  {
    if t.Arr? && ParseIndex(j).Some? {
      assert ParseIndex(j).value != ParseIndex(k).value by {
        NatToStringParse(j);
        NatToStringParse(k);
      }
    }
  }

  lemma {:induction false} AssignElsewhere(t: Value, p: Path, val: Option<Value>, q: Path)
    requires |p| >= 1
    requires AssignAt(t, p, val).Ok?
    requires Disjoint(p, q)
    ensures At(Some(AssignAt(t, p, val).value), q) == At(Some(t), q)
    decreases |p|
  {
    var t' := AssignAt(t, p, val).value;
    if p[0] != q[0] {
      if |p| == 1 {
        SetPropElsewhere(t, p[0], val, q[0]);
      } else {
        var c := Child(t, p[0]).value;
        var c' := AssignAt(c, p[1..], val).value;
        SetPropElsewhere(t, p[0], Some(c'), q[0]);
      }
    } else {
      var i :| 0 <= i < |p| && i < |q| && p[i] != q[i];
      assert i > 0;
      assert |p| > 1;
      var c := Child(t, p[0]).value;
      var c' := AssignAt(c, p[1..], val).value;
      assert p[1..][i - 1] != q[1..][i - 1];
      AssignElsewhere(c, p[1..], val, q[1..]);
      assert Child(t', p[0]) == Some(c');
    }
  }

  /** A patch leaves every path disjoint from its own unchanged. */
  lemma ApplyElsewhere(rev: Revision, t: Value, patch: Patch, q: Path)
    requires ApplyPatch(rev, t, patch).Ok?
    requires Disjoint(patch.path, q)
    ensures At(Some(ApplyPatch(rev, t, patch).value), q) == At(Some(t), q)
  {
    AssignElsewhere(t, patch.path, Stored(rev, patch.value), q);
  }

  /**
   * Of two patches at the same path, the later one decides what the path
   * holds, in every revision that stores every defined value.
   */
  lemma LaterPatchWins(rev: Revision, t: Value, p: Path, v1: Option<Value>, v2: Option<Value>)
    requires rev != Legacy
    requires FlushBatch(rev, t, [Patch(p, v1), Patch(p, v2)]).failure.None?
    ensures At(Some(FlushBatch(rev, t, [Patch(p, v1), Patch(p, v2)]).tree), p) == v2
  {
    var b := [Patch(p, v1), Patch(p, v2)];
    assert b[0] == Patch(p, v1) && b[1..] == [Patch(p, v2)];
    assert ApplyPatch(rev, t, Patch(p, v1)).Ok?;
    var t1 := ApplyPatch(rev, t, Patch(p, v1)).value;
    assert [Patch(p, v2)][1..] == [];
    assert FlushBatch(rev, t, b) == FlushBatch(rev, t1, [Patch(p, v2)]);
    assert ApplyPatch(rev, t1, Patch(p, v2)).Ok?;
    var t2 := ApplyPatch(rev, t1, Patch(p, v2)).value;
    assert FlushBatch(rev, t1, [Patch(p, v2)]) == FlushBatch(rev, t2, []);
    ApplyReadBack(rev, t1, Patch(p, v2));
  }

  // ---------------------------------------------------------------------------
  // The current revision's set trap

  /**
   * In the current revision, a patch setting `count` to `0` stores the `0`
   * and then throws, so the patch after it is never applied. With the trap
   * returning `true`, both patches are applied.
   */
  lemma FalsyWriteThrows()
    ensures
      var t := Obj(map["count" := Num(1)]);
      var b := [Patch(["count"], Some(Num(0))), Patch(["seen"], Some(Bool(true)))];
      FlushBatch(Current, t, b) == Flushed(Obj(map["count" := Num(0)]), Some(TrapReturnedFalsy)) &&
      FlushBatch(CurrentFixed, t, b) == Flushed(Obj(map["count" := Num(0), "seen" := Bool(true)]), None)
  {
    var t := Obj(map["count" := Num(1)]);
    var q1 := Patch(["count"], Some(Num(0)));
    var q2 := Patch(["seen"], Some(Bool(true)));
    var b := [q1, q2];
    assert b[0] == q1 && b[1..] == [q2] && [q2][1..] == [];
    var t1 := Obj(map["count" := Num(0)]);
    assert map["count" := Num(1)]["count" := Num(0)] == map["count" := Num(0)];
    assert ApplyPatch(Current, t, q1) == Ok(t1);
    assert ApplyPatch(CurrentFixed, t, q1) == Ok(t1);
    var t2 := Obj(map["count" := Num(0), "seen" := Bool(true)]);
    assert ApplyPatch(CurrentFixed, t1, q2) == Ok(t2);
  }

  /**
   * The flush, in a revision that stores every defined value, has the effect
   * of persistent `setIn`/`deleteIn`: a flush that raises no error leaves
   * exactly the tree `UpdateAll` builds from the same batch.
   */
  lemma {:induction false} FlushIsUpdateAll(rev: Revision, t: Value, batch: Batch)
    requires rev != Legacy
    requires FlushBatch(rev, t, batch).failure.None?
    ensures UpdateAll(Some(t), batch) == Ok(Some(FlushBatch(rev, t, batch).tree))
    decreases |batch|
  {
    if batch != [] {
      var q := batch[0];
      var t' := ApplyPatch(rev, t, q).value;
      if q.path != [] {
        AssignIsUpdate(t, q.path, q.value);
      }
      assert Update(Some(t), q.path, q.value) == Ok(Some(t'));
      FlushIsUpdateAll(rev, t', batch[1..]);
    }
  }

  /** The current revision and its fixed trap agree on every batch without a falsy set. */
  lemma {:induction false} FixedTrapAgrees(t: Value, batch: Batch)
    requires forall i :: 0 <= i < |batch| ==> !TrapRejects(Current, batch[i])
    ensures FlushBatch(Current, t, batch) == FlushBatch(CurrentFixed, t, batch)
    decreases |batch|
  {
    if batch != [] {
      assert !TrapRejects(Current, batch[0]);
      match ApplyPatch(Current, t, batch[0])
      case Err(_) =>
      case Ok(t') =>
        assert forall i :: 0 <= i < |batch[1..]| ==> !TrapRejects(Current, batch[1..][i]) by {
          forall i | 0 <= i < |batch[1..]| ensures !TrapRejects(Current, batch[1..][i]) {
            assert batch[1..][i] == batch[i + 1];
          }
        }
        FixedTrapAgrees(t', batch[1..]);
    }
  }

  // ---------------------------------------------------------------------------
  // The legacy revision

  /**
   * The legacy revision stores a patch's value only when it is truthy: a
   * patch that sets a counter to `0` deletes the counter.
   */
  lemma LegacyFlushDeletesFalsy()
    ensures
      var t := Obj(map["count" := Num(1)]);
      var b := [Patch(["count"], Some(Num(0)))];
      FlushBatch(Legacy, t, b) == Flushed(Obj(map[]), None) &&
      FlushBatch(CurrentFixed, t, b) == Flushed(Obj(map["count" := Num(0)]), None)
  {
    var t := Obj(map["count" := Num(1)]);
    var b := [Patch(["count"], Some(Num(0)))];
    assert b[1..] == [];
    assert map["count" := Num(1)] - {"count"} == map[];
    assert map["count" := Num(1)]["count" := Num(0)] == map["count" := Num(0)];
  }

  /** The revisions agree on every patch whose value is truthy or a deletion. */
  lemma RevisionsAgree(rev: Revision, t: Value, patch: Patch)
    requires Truthy(patch.value) || patch.value.None?
    ensures ApplyPatch(Legacy, t, patch) == ApplyPatch(rev, t, patch)
    ensures !TrapRejects(rev, patch)
  {
  }

  // ---------------------------------------------------------------------------
  // Agreement with the persistent update

  /** Whenever the in-place walk succeeds, persistent `setIn`/`deleteIn` produces the same tree. */
  lemma {:induction false} AssignIsUpdate(t: Value, p: Path, val: Option<Value>)
    requires |p| >= 1
    requires AssignAt(t, p, val).Ok?
    ensures Update(Some(t), p, val) == Ok(Some(AssignAt(t, p, val).value))
    decreases |p|
  {
    if |p| == 1 {
      assert p[1..] == [];
      match t
      case Obj(m) =>
      case Arr(xs) =>
        var i := ParseIndex(p[0]).value;
        if val.None? {
          assert i >= |xs|;
        }
      case _ =>
    } else {
      var c := Child(t, p[0]).value;
      AssignIsUpdate(c, p[1..], val);
      var c' := AssignAt(c, p[1..], val).value;
      match t
      case Obj(m) =>
      case Arr(xs) =>
        var i := ParseIndex(p[0]).value;
        assert xs[i] == c;
      case _ =>
    }
  }
}

=== FILE: persist.dfy ===
/**
 * The patch log (`Persist` in server/src/persist.ts): a store of batches
 * under consecutive numeric keys, plus two metadata slots.
 *
 * Key `k` of the store is slot `k` of `slots`; `None` is a key with no
 * record. The store is kept so that its last slot holds a record, which
 * makes `|slots| - 1` the greatest numeric key. The two metadata slots are
 * the record under `Symbol.for("structs")`, which `clear` carries over,
 * and the encoder's shared-structures record under the key given at open.
 */
module Persist {
  import opened Wrappers
  import opened Values
  import opened Flush

  datatype Store = Store(slots: seq<Option<Batch>>, structs: Option<Value>, shared: Option<Value>)

  /** The last slot holds a record, so the greatest key is `|slots| - 1`. */
  predicate Valid(s: Store) {
    s.slots == [] || s.slots[|s.slots| - 1].Some?
  }

  /** An empty store, as a fresh database opens. */
  function Open(): (s: Store)
    ensures Valid(s) && Index(s) == -1
  {
    Store([], None, None)
  }

  predicate Has(s: Store, k: nat) {
    k < |s.slots| && s.slots[k].Some?
  }

  /** `index()`: the greatest numeric key, or -1 for a store without numeric keys. */
  function Index(s: Store): (r: int)
    requires Valid(s)
    ensures r >= -1
    ensures forall k: nat :: Has(s, k) ==> k <= r
    ensures r >= 0 ==> Has(s, r)
    ensures r == -1 <==> forall k: nat :: !Has(s, k)
  {
    if s.slots == [] then -1
    else
      assert Has(s, |s.slots| - 1);
      |s.slots| - 1
  }

  /** `append(batch)`: stores the batch under `index() + 1`. */
  function Append(s: Store, b: Batch): (r: Store)
    requires Valid(s)
    ensures Valid(r)
    ensures Index(r) == Index(s) + 1 && r.slots[Index(r)] == Some(b)
    ensures forall k: nat :: k <= Index(s) ==> r.slots[k] == s.slots[k]
    ensures r.structs == s.structs && r.shared == s.shared
  {
    s.(slots := s.slots + [Some(b)])
  }

  /** The one-patch batch that replaces the whole tree with `v`. */
  function Snapshot(v: Value): Batch {
    [Patch([], Some(v))]
  }

  /** `init(v)`: stores the snapshot batch under key 0, overwriting any record there. */
  function Init(s: Store, v: Value): (r: Store)
    requires Valid(s)
    ensures Valid(r)
    ensures |r.slots| == if s.slots == [] then 1 else |s.slots|
    ensures r.slots[0] == Some(Snapshot(v))
    ensures forall k: nat :: 0 < k < |s.slots| ==> Has(r, k) == Has(s, k) && r.slots[k] == s.slots[k]
    ensures Index(r) == if Index(s) < 0 then 0 else Index(s)
  {
    if s.slots == [] then s.(slots := [Some(Snapshot(v))])
    else s.(slots := s.slots[0 := Some(Snapshot(v))])
  }

  /**
   * `clear()`: in one transaction, drops every record and stores back the
   * `structs` record (an empty array when it was missing or falsy). The
   * shared-structures record lives under a different key and is dropped.
   */
  function Clear(s: Store): (r: Store)
    ensures Valid(r) && Index(r) == -1
    ensures r.structs == if Truthy(s.structs) then s.structs else Some(Arr([]))
    ensures r.shared.None?
  {
    Store([], if Truthy(s.structs) then s.structs else Some(Arr([])), None)
  }

  /** `patches()`: every stored batch, concatenated in ascending key order. */
  function Patches(s: Store): Batch {
    Concat(s.slots)
  }

  function Concat(slots: seq<Option<Batch>>): Batch
    decreases |slots|
  {
    if slots == [] then []
    else Concat(slots[..|slots| - 1]) + slots[|slots| - 1].GetOr([])
  }

  // ---------------------------------------------------------------------------
  // Properties

  /** The first append to an empty store lands at key 0. */
  lemma FirstAppendAtZero(s: Store, b: Batch)
    requires Valid(s) && Index(s) == -1
    ensures Append(s, b).slots == [Some(b)]
  {
  }

  /** Appending a batch appends its patches to `patches()`. */
  lemma PatchesAppend(s: Store, b: Batch)
    requires Valid(s)
    ensures Patches(Append(s, b)) == Patches(s) + b
  {
    var slots := s.slots + [Some(b)];
    assert slots[..|slots| - 1] == s.slots;
  }

  /** The batches of a store, read in key order. */
  function Records(s: Store): seq<Batch> {
    seq(|s.slots|, k requires 0 <= k < |s.slots| => s.slots[k].GetOr([]))
  }

  /**
   * After `clear` then `init(v)`, the store holds exactly one numeric record,
   * under key 0, and `patches()` is the single root patch.
   */
  lemma ClearThenInit(s: Store, v: Value)
    ensures var r := Init(Clear(s), v);
      Valid(r) && Index(r) == 0 && Records(r) == [Snapshot(v)] && Patches(r) == Snapshot(v)
  {
    var r := Init(Clear(s), v);
    assert r.slots == [Some(Snapshot(v))];
    assert r.slots[..0] == [];
    assert Patches(r) == Concat(r.slots[..0]) + r.slots[0].GetOr([]);
  }

  /** Startup replay: a flush of every logged patch, in order, from the initial tree. */
  function Replay(rev: Revision, initial: Value, s: Store): Flushed {
    FlushBatch(rev, initial, Patches(s))
  }

  /** Replaying after an append is replaying, then flushing the appended batch. */
  lemma ReplayAppend(rev: Revision, initial: Value, s: Store, b: Batch)
    requires Valid(s)
    ensures Replay(rev, initial, Append(s, b)) ==
      (var f := Replay(rev, initial, s); if f.failure.Some? then f else FlushBatch(rev, f.tree, b))
  {
    PatchesAppend(s, b);
    FlushConcat(rev, initial, Patches(s), b);
  }

  /**
   * Collapsing the log to a snapshot of `v` and replaying it yields exactly
   * `v`, whatever tree the replay starts from.
   */
  lemma ReplayCollapsed(rev: Revision, initial: Value, s: Store, v: Value)
    ensures Replay(rev, initial, Init(Clear(s), v)) == Flushed(v, None)
  {
    ClearThenInit(s, v);
    assert Snapshot(v)[1..] == [];
    assert FlushBatch(rev, initial, Snapshot(v)) == FlushBatch(rev, v, []);
  }

  /** `patches()` read from the front: the first record, then the rest. */
  lemma {:induction false} PatchesFromFront(slots: seq<Option<Batch>>)
    requires |slots| >= 1
    ensures Concat(slots) == slots[0].GetOr([]) + Concat(slots[1..])
    decreases |slots|
  {
    var n := |slots|;
    if n == 1 {
      assert slots[..0] == [] && slots[1..] == [];
    } else {
      var init := slots[..n - 1];
      PatchesFromFront(init);
      assert init[1..] == slots[1..][..n - 2];
      assert slots[1..][n - 2] == slots[n - 1];
    }
  }

  /** The log opens with a patch that replaces the whole tree, as it does after `clear` and `init`. */
  predicate Collapsed(s: Store) {
    |s.slots| >= 1 && s.slots[0].Some? && |s.slots[0].value| >= 1 &&
    s.slots[0].value[0].path == [] && s.slots[0].value[0].value.Some?
  }

  lemma CollapsedAfterInit(s: Store, v: Value)
    requires Valid(s)
    ensures Collapsed(Init(s, v))
  {
  }

  lemma CollapsedAfterAppend(s: Store, b: Batch)
    requires Valid(s) && Collapsed(s)
    ensures Collapsed(Append(s, b))
  {
    assert Append(s, b).slots[0] == s.slots[0];
  }

  /** A collapsed log replays to the same result whatever tree the replay starts from. */
  lemma ReplayIndependent(rev: Revision, i1: Value, i2: Value, s: Store)
    requires Collapsed(s)
    ensures Replay(rev, i1, s) == Replay(rev, i2, s)
  {
    PatchesFromFront(s.slots);
    var first := s.slots[0].value;
    var rest := first[1..] + Concat(s.slots[1..]);
    assert Patches(s) == [first[0]] + rest by {
      assert first == [first[0]] + first[1..];
    }
    FlushFromRoot(rev, i1, i2, first[0].value.value, rest);
  }

  /** A batch that failed to apply stays in the log: every later replay fails too. */
  lemma FailedReplayPersists(rev: Revision, initial: Value, s: Store, b: Batch)
    requires Valid(s)
    requires Replay(rev, initial, s).failure.Some?
    ensures Replay(rev, initial, Append(s, b)) == Replay(rev, initial, s)
  {
    ReplayAppend(rev, initial, s, b);
  }
}

=== FILE: registry.dfy ===
/**
 * The peer registry, the scope filter and the initial view, as every server
 * revision implements them (`#handleInit` and `#emit` in server/src/box.ts,
 * bento/box.ts, lib/src/server.ts, lib/src/server/websocket.ts,
 * server/buncg.ts and lib/buncg.ts).
 *
 * A peer registers a list of scopes (called cursors in the `BunCG`
 * revisions). It receives exactly the patches of each batch that some scope
 * sees, and on registration one patch per scope carrying the subtree there.
 */
module Registry {
  import opened Wrappers
  import opened Values

  /** A connected socket. */
  type PeerId = nat

  datatype Entry = Entry(peer: PeerId, scopes: seq<Path>)

  /** The registry in the map's insertion order, one entry per peer. */
  type Peers = seq<Entry>

  /** One message to one peer: the patches it receives. */
  datatype Emit = Emit(peer: PeerId, patches: Batch)

  predicate Distinct(reg: Peers) {
    forall i, j :: 0 <= i < j < |reg| ==> reg[i].peer != reg[j].peer
  }

  function Ids(reg: Peers): seq<PeerId> {
    seq(|reg|, i requires 0 <= i < |reg| => reg[i].peer)
  }

  function ScopesOf(reg: Peers, id: PeerId): (r: Option<seq<Path>>)
    ensures r.Some? <==> id in Ids(reg)
  {
    if reg == [] then None
    else
      assert Ids(reg) == [reg[0].peer] + Ids(reg[1..]);
      if reg[0].peer == id then Some(reg[0].scopes)
      else ScopesOf(reg[1..], id)
  }

  /** `scopes || [[]]`: a missing scope list means the whole tree; an empty one is kept. */
  function DefaultScopes(scopes: Option<seq<Path>>): (r: seq<Path>)
    ensures scopes.Some? ==> r == scopes.value
    ensures scopes.None? ==> r == [[]]
  {
    scopes.GetOr([[]])
  }

  /**
   * `clients.set(peer, scopes || [[]])`: a known peer keeps its place with
   * the new scopes, a new peer goes last.
   */
  function Register(reg: Peers, id: PeerId, scopes: Option<seq<Path>>): (r: Peers)
    ensures id in Ids(reg) ==> Ids(r) == Ids(reg)
    ensures id !in Ids(reg) ==> Ids(r) == Ids(reg) + [id]
    ensures ScopesOf(r, id) == Some(DefaultScopes(scopes))
    ensures forall j :: j != id ==> ScopesOf(r, j) == ScopesOf(reg, j)
  {
    if reg == [] then [Entry(id, DefaultScopes(scopes))]
    else
      assert Ids(reg) == [reg[0].peer] + Ids(reg[1..]);
      if reg[0].peer == id then
        var r := [Entry(id, DefaultScopes(scopes))] + reg[1..];
        assert Ids(r) == [id] + Ids(r[1..]) && r[1..] == reg[1..];
        r
      else
        var rest := Register(reg[1..], id, scopes);
        var r := [reg[0]] + rest;
        assert Ids(r) == [reg[0].peer] + Ids(rest) && r[1..] == rest;
        r
  }

  /** `clients.delete(peer)`: the other peers keep their order and scopes. */
  function Unregister(reg: Peers, id: PeerId): (r: Peers)
    ensures ScopesOf(r, id).None?
    ensures forall j :: j != id ==> ScopesOf(r, j) == ScopesOf(reg, j)
    ensures forall j :: j in Ids(r) <==> j in Ids(reg) && j != id
  {
    if reg == [] then []
    else
      assert Ids(reg) == [reg[0].peer] + Ids(reg[1..]);
      var rest := Unregister(reg[1..], id);
      if reg[0].peer == id then rest
      else
        var r := [reg[0]] + rest;
        assert Ids(r) == [reg[0].peer] + Ids(rest) && r[1..] == rest;
        r
  }

  // ---------------------------------------------------------------------------
  // The scope filter

  /**
   * `scope.every((c, i) => path[i] === undefined || c === path[i])`: every
   * key of the scope that the path also has agrees with it.
   */
  predicate Sees(scope: Path, path: Path) {
    forall i :: 0 <= i < |scope| ==> i >= |path| || scope[i] == path[i]
  }

  /** The filter is "one path is a prefix of the other". */
  lemma SeesIffPrefix(scope: Path, path: Path)
    ensures Sees(scope, path) <==> (scope <= path || path <= scope)
  {
    if Sees(scope, path) {
      if |scope| <= |path| {
        assert scope == path[..|scope|];
      } else {
        assert path == scope[..|path|];
      }
    }
  }

  /** The scope `[]` (the whole tree) sees every patch. */
  lemma RootSeesAll(path: Path)
    ensures Sees([], path)
  {
  }

  predicate Visible(scopes: seq<Path>, patch: Patch) {
    exists s :: s in scopes && Sees(s, patch.path)
  }

  /** `patches.filter(patch => scopes.some(scope => ...))`. */
  function Filter(scopes: seq<Path>, batch: Batch): (r: Batch)
    ensures |r| <= |batch|
    ensures forall p :: p in r <==> p in batch && Visible(scopes, p)
    decreases |batch|
  {
    if batch == [] then []
    else
      var rest := Filter(scopes, batch[1..]);
      assert forall p :: p in batch <==> p == batch[0] || p in batch[1..];
      if Visible(scopes, batch[0]) then [batch[0]] + rest else rest
  }

  /** The filter distributes over concatenation, so it keeps the batch's order. */
  lemma {:induction false} FilterAppend(scopes: seq<Path>, a: Batch, b: Batch)
    ensures Filter(scopes, a + b) == Filter(scopes, a) + Filter(scopes, b)
    decreases |a|
  {
    if a == [] {
      assert a + b == b;
    } else {
      assert (a + b)[0] == a[0] && (a + b)[1..] == a[1..] + b;
      FilterAppend(scopes, a[1..], b);
    }
  }

  /** A patch is delivered at most once, however many scopes see it. */
  lemma FilterSingle(scopes: seq<Path>, p: Patch)
    ensures Filter(scopes, [p]) == if Visible(scopes, p) then [p] else []
  {
    assert [p][1..] == [];
  }

  /** A peer that registered an explicit empty scope list receives no patches. */
  lemma NoScopesNoPatches(batch: Batch)
    ensures Filter([], batch) == []
  {
  }

  /** A peer with the default scope list receives the whole batch. */
  lemma DefaultScopesSeeAll(batch: Batch)
    ensures Filter(DefaultScopes(None), batch) == batch
  {
    assert forall p: Patch :: Sees([], p.path);
    assert forall p: Patch :: Visible([[]], p) by {
      forall p: Patch ensures Visible([[]], p) {
        var root: Path := [];
        assert root in [root] && Sees(root, p.path);
      }
    }
    if batch != [] {
      DefaultScopesSeeAll(batch[1..]);
    }
  }

  // ---------------------------------------------------------------------------
  // The initial view

  /** `scopes.map(c => ({path: c, value: c.reduce((s, p) => s?.[p], snap())}))`. */
  function InitialView(scopes: seq<Path>, tree: Value): (r: Batch)
    ensures |r| == |scopes|
    ensures forall i :: 0 <= i < |r| ==> r[i] == Patch(scopes[i], At(Some(tree), scopes[i]))
  {
    seq(|scopes|, i requires 0 <= i < |scopes| => Patch(scopes[i], At(Some(tree), scopes[i])))
  }

  /**
   * `for (ws of clients.keys()) emit({ws, patches})`: one message to every
   * registered peer, in registration order, even when its list is empty.
   */
  function Route(reg: Peers, batch: Batch): (r: seq<Emit>)
    ensures |r| == |reg|
    ensures forall i :: 0 <= i < |r| ==> r[i] == Emit(reg[i].peer, Filter(reg[i].scopes, batch))
  {
    seq(|reg|, i requires 0 <= i < |reg| => Emit(reg[i].peer, Filter(reg[i].scopes, batch)))
  }

  /** The patches a peer received over two batches are those of their concatenation. */
  lemma RouteAppend(reg: Peers, a: Batch, b: Batch, i: nat)
    requires i < |reg|
    ensures Route(reg, a)[i].patches + Route(reg, b)[i].patches == Route(reg, a + b)[i].patches
  {
    FilterAppend(reg[i].scopes, a, b);
  }

  /** A concrete filter: scope `["a"]` sees `["a", "b"]` and `[]`, but not `["c"]`. */
  lemma FilterExample()
    ensures
      var batch := [Patch(["a", "b"], Some(Num(1))), Patch(["c"], Some(Num(2))), Patch([], Some(Null))];
      Filter([["a"]], batch) == [batch[0], batch[2]]
  {
    var batch := [Patch(["a", "b"], Some(Num(1))), Patch(["c"], Some(Num(2))), Patch([], Some(Null))];
    var scopes: seq<Path> := [["a"]];
    assert Visible(scopes, batch[0]) by { assert ["a"] in scopes && Sees(["a"], batch[0].path); }
    assert !Visible(scopes, batch[1]) by {
      forall s | s in scopes ensures !Sees(s, batch[1].path) {
        assert s == ["a"] && s[0] != batch[1].path[0];
      }
    }
    assert Visible(scopes, batch[2]) by { assert ["a"] in scopes && Sees(["a"], batch[2].path); }
    assert batch[1..][1..] == [batch[2]];
    assert batch[1..][1..][1..] == [];
  }
}

=== FILE: text.dfy ===
/**
 * String helpers that the server relies on implicitly: the decimal rendering
 * of array indices (`i.toString()`), JavaScript's canonical array-index keys,
 * `Array.prototype.join`, `String.prototype.split`, and a deterministic order
 * in which the keys of an object are visited.
 */
module Text {
  import opened Wrappers

  // ---------------------------------------------------------------------------
  // Decimal indices

  predicate IsDigit(c: char) {
    '0' <= c <= '9'
  }

  function DigitChar(d: nat): (c: char)
    requires d < 10
    ensures IsDigit(c)
  {
    ['0', '1', '2', '3', '4', '5', '6', '7', '8', '9'][d]
  }

  function DigitValue(c: char): (d: nat)
    requires IsDigit(c)
    ensures d < 10
  {
    (c as int - '0' as int) as nat
  }

  lemma DigitRoundTrip(d: nat)
    requires d < 10
    ensures DigitValue(DigitChar(d)) == d
  {
  }

  predicate AllDigits(s: string) {
    forall i :: 0 <= i < |s| ==> IsDigit(s[i])
  }

  /** `n.toString()` for a non-negative integer. */
  function NatToString(n: nat): string
  {
    if n < 10 then [DigitChar(n)] else NatToString(n / 10) + [DigitChar(n % 10)]
  }

  /** The number a digit string denotes, read most significant digit first. */
  function DigitsValue(s: string): nat
    requires AllDigits(s)
  {
    if |s| == 0 then 0 else DigitsValue(s[..|s| - 1]) * 10 + DigitValue(s[|s| - 1])
  }

  lemma DigitsValueSingle(c: char)
    requires IsDigit(c)
    ensures DigitsValue([c]) == DigitValue(c)
  {
    assert [c][..0] == [];
  }

  /** A canonical index key: non-empty, all digits, no leading zero. */
  predicate IsCanonicalIndex(s: string) {
    |s| > 0 && AllDigits(s) && (s[0] != '0' || |s| == 1)
  }

  /**
   * The array index a property key denotes, if any. JavaScript treats a key
   * as an array index exactly when it is the canonical decimal rendering of
   * an integer; every other key is an ordinary property.
   */
  function ParseIndex(s: string): (r: Option<nat>)
    ensures r.Some? <==> IsCanonicalIndex(s)
  {
    if IsCanonicalIndex(s) then Some(DigitsValue(s)) else None
  }

  lemma NatToStringCanonical(n: nat)
    ensures IsCanonicalIndex(NatToString(n))
    ensures n >= 1 ==> NatToString(n)[0] != '0'
  {
    if n >= 10 {
      NatToStringCanonical(n / 10);
      var p := NatToString(n / 10);
      assert NatToString(n) == p + [DigitChar(n % 10)];
      assert NatToString(n)[0] == p[0];
    } else {
      assert NatToString(n) == [DigitChar(n)];
    }
  }

  /** Rendering an index and parsing it back gives the index. */
  lemma {:induction false} ParseNatToString(n: nat)
    ensures ParseIndex(NatToString(n)) == Some(n)
  {
    NatToStringCanonical(n);
    var s := NatToString(n);
    if n < 10 {
      DigitRoundTrip(n);
      DigitsValueSingle(DigitChar(n));
    } else {
      ParseNatToString(n / 10);
      NatToStringCanonical(n / 10);
      assert s[..|s| - 1] == NatToString(n / 10);
      DigitRoundTrip(n % 10);
    }
  }

  lemma LeadingDigitPositive(s: string)
    requires AllDigits(s) && |s| > 0 && s[0] != '0'
    ensures DigitsValue(s) >= 1
  {
    if |s| > 1 {
      LeadingDigitPositive(s[..|s| - 1]);
    }
  }

  /** Parsing a key and rendering the index again gives the key back. */
  lemma {:induction false} NatToStringParse(s: string)
    requires ParseIndex(s).Some?
    ensures NatToString(ParseIndex(s).value) == s
  {
    var n := DigitsValue(s);
    if |s| == 1 {
      assert s == [s[0]];
      DigitsValueSingle(s[0]);
      assert n == DigitValue(s[0]);
      assert DigitChar(n) == s[0];
    } else {
      var p := s[..|s| - 1];
      assert IsCanonicalIndex(p);
      LeadingDigitPositive(p);
      NatToStringParse(p);
      assert n / 10 == DigitsValue(p);
      assert DigitChar(n % 10) == s[|s| - 1];
      assert s == p + [s[|s| - 1]];
    }
  }

  // ---------------------------------------------------------------------------
  // Join and split

  predicate Free(s: string, sep: char) {
    forall i :: 0 <= i < |s| ==> s[i] != sep
  }

  /** `segs.join(sep)`: the empty list joins to the empty string. */
  function Join(segs: seq<string>, sep: char): string
  {
    if |segs| == 0 then ""
    else if |segs| == 1 then segs[0]
    else segs[0] + [sep] + Join(segs[1..], sep)
  }

  /** `s.split(sep)` for a one-character separator; never empty. */
  function Split(s: string, sep: char): (r: seq<string>)
    ensures |r| >= 1
  {
    if |s| == 0 then [""]
    else
      var rest := Split(s[1..], sep);
      if s[0] == sep then [""] + rest else [[s[0]] + rest[0]] + rest[1..]
  }

  lemma SplitFree(a: string, sep: char)
    requires Free(a, sep)
    ensures Split(a, sep) == [a]
  {
    if |a| > 0 {
      SplitFree(a[1..], sep);
      assert [a[0]] + a[1..] == a;
    }
  }

  lemma SplitAfterSegment(a: string, sep: char, b: string)
    requires Free(a, sep)
    ensures Split(a + [sep] + b, sep) == [a] + Split(b, sep)
  {
    if |a| == 0 {
      assert a + [sep] + b == [sep] + b;
      assert ([sep] + b)[1..] == b;
    } else {
      SplitAfterSegment(a[1..], sep, b);
      assert (a + [sep] + b)[1..] == a[1..] + [sep] + b;
      assert [a[0]] + a[1..] == a;
    }
  }

  /** Splitting a join of separator-free segments recovers the segments. */
  lemma {:induction false} SplitJoin(segs: seq<string>, sep: char)
    requires |segs| >= 1
    requires forall i :: 0 <= i < |segs| ==> Free(segs[i], sep)
    ensures Split(Join(segs, sep), sep) == segs
  {
    if |segs| == 1 {
      SplitFree(segs[0], sep);
    } else {
      SplitJoin(segs[1..], sep);
      SplitAfterSegment(segs[0], sep, Join(segs[1..], sep));
      assert segs == [segs[0]] + segs[1..];
    }
  }

  /** Non-empty lists of separator-free segments join to distinct strings. */
  lemma JoinInjective(p: seq<string>, q: seq<string>, sep: char)
    requires |p| >= 1 && |q| >= 1
    requires forall i :: 0 <= i < |p| ==> Free(p[i], sep)
    requires forall i :: 0 <= i < |q| ==> Free(q[i], sep)
    ensures Join(p, sep) == Join(q, sep) <==> p == q
  {
    if Join(p, sep) == Join(q, sep) {
      SplitJoin(p, sep);
      SplitJoin(q, sep);
    }
  }

  /** `s.endsWith(suffix)`. */
  predicate EndsWith(s: string, suffix: string) {
    |suffix| <= |s| && s[|s| - |suffix|..] == suffix
  }

  // ---------------------------------------------------------------------------
  // A deterministic order on keys

  /** Lexicographic order on strings by character code. */
  predicate StrLe(a: string, b: string) {
    |a| == 0 || (|b| > 0 && (a[0] < b[0] || (a[0] == b[0] && StrLe(a[1..], b[1..]))))
  }

  lemma StrLeAntisymmetric(a: string, b: string)
    requires StrLe(a, b) && StrLe(b, a)
    ensures a == b
  {
    if |a| > 0 {
      StrLeAntisymmetric(a[1..], b[1..]);
      assert a == [a[0]] + a[1..] && b == [b[0]] + b[1..];
    }
  }

  lemma StrLeAntisymmetricAll()
    ensures forall a, b :: StrLe(a, b) && StrLe(b, a) ==> a == b
  {
    forall a, b | StrLe(a, b) && StrLe(b, a)
      ensures a == b
    {
      StrLeAntisymmetric(a, b);
    }
  }

  lemma StrLeTotal(a: string, b: string)
    ensures StrLe(a, b) || StrLe(b, a)
  {
    if |a| > 0 && |b| > 0 && a[0] == b[0] {
      StrLeTotal(a[1..], b[1..]);
    }
  }

  lemma StrLeTransitive(a: string, b: string, c: string)
    requires StrLe(a, b) && StrLe(b, c)
    ensures StrLe(a, c)
  {
    if |a| > 0 && |b| > 0 && |c| > 0 && a[0] == b[0] && b[0] == c[0] {
      StrLeTransitive(a[1..], b[1..], c[1..]);
    }
  }

  predicate IsLeast(k: string, s: set<string>) {
    k in s && forall j :: j in s ==> StrLe(k, j)
  }

  lemma LeastOf(s: set<string>) returns (k: string)
    requires s != {}
    ensures IsLeast(k, s)
  {
    var x :| x in s;
    StrLeTotal(x, x);
    if s == {x} {
      k := x;
    } else {
      var y := LeastOf(s - {x});
      StrLeTotal(x, y);
      if StrLe(x, y) {
        forall j | j in s
          ensures StrLe(x, j)
        {
          if j != x {
            StrLeTransitive(x, y, j);
          }
        }
        k := x;
      } else {
        k := y;
      }
    }
  }

  lemma LeastExists(s: set<string>)
    requires s != {}
    ensures exists k :: IsLeast(k, s)
  {
    var k := LeastOf(s);
  }

  /**
   * The keys of a set in ascending order. The model's objects carry no
   * insertion order, so key enumeration (`Object.entries`, `keys()`) visits
   * keys in this order instead.
   */
  function SortedKeys(s: set<string>): (r: seq<string>)
    ensures |r| == |s|
    ensures forall k :: k in r <==> k in s
    ensures forall i, j :: 0 <= i < j < |r| ==> r[i] != r[j]
    decreases |s|
  {
    if s == {} then []
    else
      LeastExists(s);
      StrLeAntisymmetricAll();
      var k :| IsLeast(k, s);
      [k] + SortedKeys(s - {k})
  }
}

=== FILE: updates.dfy ===
/**
 * The algebra of persistent `setIn`/`deleteIn` (`Values.Update`) that the
 * diff-based server of lib/buncg.ts and the clients rely on when they apply
 * a batch: updates at nested paths compose, writing back what is already
 * there changes nothing, and deleting what is absent changes nothing.
 */
module Updates {
  import opened Wrappers
  import opened Text
  import opened Values

  /** Applies a batch with `setIn`/`deleteIn`, in order, stopping at the first failure. */
  function UpdateAll(s: Option<Value>, batch: Batch): Result<Option<Value>, PathError>
    decreases |batch|
  {
    if batch == [] then Ok(s)
    else
      var s' :- Update(s, batch[0].path, batch[0].value);
      UpdateAll(s', batch[1..])
  }

  lemma UpdateAllSingle(s: Option<Value>, q: Patch)
    ensures UpdateAll(s, [q]) == Update(s, q.path, q.value)
  {
    assert [q][1..] == [];
  }

  /** Applying `a + b` is applying `a`, then `b`. */
  lemma {:induction false} UpdateAllConcat(s: Option<Value>, a: Batch, b: Batch)
    ensures UpdateAll(s, a + b) == (var s' :- UpdateAll(s, a); UpdateAll(s', b))
    decreases |a|
  {
    if a == [] {
      assert a + b == b;
    } else {
      assert (a + b)[0] == a[0] && (a + b)[1..] == a[1..] + b;
      match Update(s, a[0].path, a[0].value)
      case Err(_) =>
      case Ok(s') => UpdateAllConcat(s', a[1..], b);
    }
  }

  lemma PutPut(m: map<string, Value>, k: string, a: Option<Value>, b: Option<Value>)
    ensures Put(Put(m, k, a), k, b) == Put(m, k, b)
  {
    var l := Put(Put(m, k, a), k, b);
    var r := Put(m, k, b);
    assert forall j :: Lookup(l, j) == Lookup(r, j);
    assert forall j :: j in l <==> j in r by {
      forall j ensures j in l <==> j in r {
        assert Lookup(l, j) == Lookup(r, j);
      }
    }
  }

  lemma PutSame(m: map<string, Value>, k: string)
    requires k in m
    ensures Put(m, k, Some(m[k])) == m
  {
  }

  lemma PutAbsent(m: map<string, Value>, k: string)
    requires k !in m
    ensures Put(m, k, None) == m
  {
    assert m - {k} == m;
  }

  /** Below an existing path every update succeeds. */
  lemma {:induction false} UpdateExisting(s: Option<Value>, p: Path, val: Option<Value>)
    requires At(s, p).Some?
    ensures Update(s, p, val).Ok?
    decreases |p|
  {
    if p != [] {
      match s.value
      case Obj(m) =>
        UpdateExisting(Lookup(m, p[0]), p[1..], val);
      case Arr(xs) =>
        var i := ParseIndex(p[0]).value;
        UpdateExisting(Some(xs[i]), p[1..], val);
      case _ =>
    }
  }

  /** Writing back the value a path already holds changes nothing. */
  lemma {:induction false} UpdateSame(s: Option<Value>, p: Path, x: Value)
    requires At(s, p) == Some(x)
    ensures Update(s, p, Some(x)) == Ok(s)
    decreases |p|
  {
    if p != [] {
      match s.value
      case Obj(m) =>
        UpdateSame(Lookup(m, p[0]), p[1..], x);
        PutSame(m, p[0]);
      case Arr(xs) =>
        var i := ParseIndex(p[0]).value;
        UpdateSame(Some(xs[i]), p[1..], x);
        assert xs[i := xs[i]] == xs;
      case _ =>
    }
  }

  /** Deleting a path that is absent below an existing container changes nothing. */
  lemma {:induction false} UpdateDeleteAbsent(s: Option<Value>, p: Path)
    requires |p| >= 1
    requires At(s, p[..|p| - 1]).Some? && At(s, p[..|p| - 1]).value.IsContainer()
    requires At(s, p) == None
    ensures Update(s, p, None) == Ok(s)
    decreases |p|
  {
    if |p| == 1 {
      assert p[..0] == [];
      assert At(s, p) == Child(s.value, p[0]) by { assert p[1..] == []; }
      match s.value
      case Obj(m) =>
        PutAbsent(m, p[0]);
      case Arr(xs) =>
      case _ =>
    } else {
      var init := p[..|p| - 1];
      assert init[0] == p[0] && init[1..] == p[1..][..|p[1..]| - 1];
      match s.value
      case Obj(m) =>
        UpdateDeleteAbsent(Lookup(m, p[0]), p[1..]);
        PutSame(m, p[0]);
      case Arr(xs) =>
        var i := ParseIndex(p[0]).value;
        UpdateDeleteAbsent(Some(xs[i]), p[1..]);
        assert xs[i := xs[i]] == xs;
      case _ =>
    }
  }

  /** Whether a `setIn` succeeds depends on the path, not on the value written. */
  lemma {:induction false} UpdateOkAnyValue(s: Option<Value>, p: Path, x: Value, y: Value)
    requires Update(s, p, Some(x)).Ok?
    ensures Update(s, p, Some(y)).Ok?
    decreases |p|, if s.None? then 1 else 0
  {
    if p != [] {
      match s
      case None =>
        UpdateOkAnyValue(Some(Obj(map[])), p, x, y);
      case Some(Obj(m)) =>
        UpdateOkAnyValue(Lookup(m, p[0]), p[1..], x, y);
      case Some(Arr(xs)) =>
        var i := ParseIndex(p[0]).value;
        if i < |xs| {
          UpdateOkAnyValue(Some(xs[i]), p[1..], x, y);
        } else {
          UpdateOkAnyValue(None, p[1..], x, y);
        }
      case Some(_) =>
    }
  }

  /**
   * Updating below a path just written is writing the combined value there:
   * after `setIn(p, X)`, an update at `p + q` equals `setIn(p, Y)` where `Y`
   * is `X` updated at `q`.
   */
  lemma {:induction false} UpdateNested(s: Option<Value>, p: Path, x: Value, q: Path, c: Option<Value>, y: Value)
    requires Update(s, p, Some(x)).Ok?
    requires Update(Some(x), q, c) == Ok(Some(y))
    ensures Update(Update(s, p, Some(x)).value, p + q, c) == Update(s, p, Some(y))
    decreases |p|, if s.None? then 1 else 0
  {
    if p == [] {
      assert p + q == q;
    } else {
      UpdateOkAnyValue(s, p, x, y);
      assert (p + q)[0] == p[0] && (p + q)[1..] == p[1..] + q;
      match s
      case None =>
        UpdateNested(Some(Obj(map[])), p, x, q, c, y);
      case Some(Obj(m)) =>
        var k := p[0];
        UpdateNested(Lookup(m, k), p[1..], x, q, c, y);
        UpdateOkAnyValue(Lookup(m, k), p[1..], x, y);
        var c1 := Update(Lookup(m, k), p[1..], Some(x)).value;
        var c2 := Update(Lookup(m, k), p[1..], Some(y)).value;
        PutPut(m, k, c1, c2);
      case Some(Arr(xs)) =>
        var i := ParseIndex(p[0]).value;
        if i < |xs| {
          UpdateNested(Some(xs[i]), p[1..], x, q, c, y);
          UpdateOkAnyValue(Some(xs[i]), p[1..], x, y);
          UpdateDefined(Some(xs[i]), p[1..], Some(x));
          UpdateDefined(Some(xs[i]), p[1..], Some(y));
          var c1 := Update(Some(xs[i]), p[1..], Some(x)).value.value;
          var c2 := Update(Some(xs[i]), p[1..], Some(y)).value.value;
          assert xs[i := c1][i := c2] == xs[i := c2];
        } else {
          UpdateNested(None, p[1..], x, q, c, y);
          UpdateOkAnyValue(None, p[1..], x, y);
          UpdateDefined(None, p[1..], Some(x));
          UpdateDefined(None, p[1..], Some(y));
          var c1 := Update(None, p[1..], Some(x)).value.value;
          var c2 := Update(None, p[1..], Some(y)).value.value;
          assert (xs + [c1])[i] == c1;
          assert (xs + [c1])[i := c2] == xs + [c2];
        }
      case Some(_) =>
    }
  }

  /** Two updates at the same path: the second one decides. */
  lemma UpdateTwice(s: Option<Value>, p: Path, x: Value, y: Value)
    requires Update(s, p, Some(x)).Ok?
    ensures Update(Update(s, p, Some(x)).value, p, Some(y)) == Update(s, p, Some(y))
  {
    var root: Path := [];
    assert p + root == p;
    UpdateNested(s, p, x, root, Some(y), y);
  }

  /** A batch every patch of which leaves `s` unchanged leaves `s` unchanged. */
  predicate Harmless(s: Option<Value>, q: Patch) {
    if q.value.Some? then At(s, q.path) == q.value
    else
      |q.path| >= 1 && At(s, q.path) == None &&
      At(s, q.path[..|q.path| - 1]).Some? && At(s, q.path[..|q.path| - 1]).value.IsContainer()
  }

  lemma {:induction false} UpdateAllHarmless(s: Option<Value>, batch: Batch)
    requires forall q :: q in batch ==> Harmless(s, q)
    ensures UpdateAll(s, batch) == Ok(s)
    decreases |batch|
  {
    if batch != [] {
      var q := batch[0];
      assert Harmless(s, q);
      if q.value.Some? {
        UpdateSame(s, q.path, q.value.value);
      } else {
        UpdateDeleteAbsent(s, q.path);
      }
      UpdateAllHarmless(s, batch[1..]);
    }
  }
}

=== FILE: values.dfy ===
/**
 * The JSON-like state tree, paths into it, and patches.
 *
 * A `Value` is what the server keeps as state and what a patch carries.
 * JavaScript's `undefined` never appears inside a `Value`: a slot that may be
 * undefined is an `Option<Value>`, with `None` for undefined.
 */
module Values {
  import opened Wrappers
  import opened Text

  datatype Value =
    | Null
    | Bool(b: bool)
    | Num(n: int)
    | Str(s: string)
    | Arr(items: seq<Value>)
    | Obj(fields: map<string, Value>)
  {
    predicate IsContainer() {
      Arr? || Obj?
    }
  }

  /** A location in the tree: one property key per level, array indices as decimal strings. */
  type Path = seq<string>

  /**
   * `{path, value?}`. An absent value records a deletion; the empty path
   * stands for the whole tree.
   */
  datatype Patch = Patch(path: Path, value: Option<Value>)

  /** The patches one action produced, in the order they were recorded. */
  type Batch = seq<Patch>

  /** Why a path could not be written. */
  datatype PathError =
    | NotAContainer     // the parent is missing or is a primitive
    | SparseArray       // the write would leave a hole in an array
    | ArrayProperty     // a key on an array that is not an index
    | RootUndefined     // the whole tree would become `undefined`
    | TrapReturnedFalsy // a set trap stored the value but returned it falsy, so the assignment threw

  /** JavaScript truthiness: `undefined`, `null`, `false`, `0` and `""` are falsy. */
  predicate Truthy(v: Option<Value>) {
    match v
    case None => false
    case Some(Null) => false
    case Some(Bool(b)) => b
    case Some(Num(n)) => n != 0
    case Some(Str(s)) => s != ""
    case Some(Arr(_)) => true
    case Some(Obj(_)) => true
  }

  function Lookup(m: map<string, Value>, k: string): (r: Option<Value>)
    ensures r.Some? <==> k in m
    ensures r.Some? ==> r.value == m[k]
  {
    if k in m then Some(m[k]) else None
  }

  /** Stores `c` under `k`, or removes `k` when `c` is undefined. */
  function Put(m: map<string, Value>, k: string, c: Option<Value>): (r: map<string, Value>)
    ensures Lookup(r, k) == c
    ensures forall j :: j != k ==> Lookup(r, j) == Lookup(m, j)
  {
    if c.Some? then m[k := c.value] else m - {k}
  }

  /** `v?.[k]`: an own property of an object, or an element of an array. */
  function Child(v: Value, k: string): (r: Option<Value>)
    ensures r.Some? ==> v.IsContainer()
  {
    match v
    case Obj(m) => Lookup(m, k)
    case Arr(xs) =>
      (match ParseIndex(k)
       case Some(i) => if i < |xs| then Some(xs[i]) else None
       case None => None)
    case _ => None
  }

  /** `path.reduce((slice, p) => slice?.[p], root)`: undefined once any step is missing. */
  function At(s: Option<Value>, p: Path): Option<Value>
    decreases |p|
  {
    if p == [] then s
    else if s.None? then None
    else At(Child(s.value, p[0]), p[1..])
  }

  lemma AtAppend(s: Option<Value>, p: Path, q: Path)
    ensures At(s, p + q) == At(At(s, p), q)
    decreases |p|
  {
    if p != [] && s.Some? {
      assert (p + q)[1..] == p[1..] + q;
      AtAppend(Child(s.value, p[0]), p[1..], q);
    } else if p != [] {
      AtNone(q);
    } else {
      assert p + q == q;
    }
  }

  lemma AtNone(q: Path)
    ensures At(None, q) == None
  {
  }

  /**
   * Persistent `setIn` (a defined value) and `deleteIn` (undefined), as the
   * immutable-collection libraries provide them: a missing intermediate
   * becomes an empty object; deleting below a missing key changes nothing;
   * deleting an array element removes it and shifts the rest down; writing
   * at the end of an array appends.
   */
  function Update(s: Option<Value>, p: Path, val: Option<Value>): Result<Option<Value>, PathError>
    decreases |p|, if s.None? then 1 else 0
  {
    if p == [] then Ok(val)
    else match s
      case None =>
        if val.None? then Ok(None) else Update(Some(Obj(map[])), p, val)
      case Some(Obj(m)) =>
        var c :- Update(Lookup(m, p[0]), p[1..], val);
        Ok(Some(Obj(Put(m, p[0], c))))
      case Some(Arr(xs)) =>
        (match ParseIndex(p[0])
         case None => if val.None? then Ok(s) else Err(ArrayProperty)
         case Some(i) =>
           if i < |xs| then
             var c :- Update(Some(xs[i]), p[1..], val);
             Ok(Some(Arr(if c.Some? then xs[i := c.value] else xs[..i] + xs[i + 1..])))
           else if val.None? then Ok(s)
           else if i == |xs| then
             var c :- Update(None, p[1..], val);
             Ok(Some(Arr(xs + [c.GetOr(Null)])))
           else Err(SparseArray))
      case Some(_) => Err(NotAContainer)
  }

  /** Writing a defined value below any slot yields a defined slot. */
  lemma UpdateDefined(s: Option<Value>, p: Path, val: Option<Value>)
    requires val.Some?
    requires Update(s, p, val).Ok?
    ensures Update(s, p, val).value.Some?
    decreases |p|, if s.None? then 1 else 0
  {
    if p != [] && s.None? {
      UpdateDefined(Some(Obj(map[])), p, val);
    }
  }

  /** After a successful `setIn`, reading the same path gives the value written. */
  lemma {:induction false} UpdateReadBack(s: Option<Value>, p: Path, val: Option<Value>)
    requires val.Some?
    requires Update(s, p, val).Ok?
    ensures At(Update(s, p, val).value, p) == val
    decreases |p|, if s.None? then 1 else 0
  {
    if p == [] {
    } else {
      match s
      case None =>
        UpdateReadBack(Some(Obj(map[])), p, val);
      case Some(Obj(m)) =>
        UpdateReadBack(Lookup(m, p[0]), p[1..], val);
      case Some(Arr(xs)) =>
        var i := ParseIndex(p[0]);
        if i.Some? && i.value < |xs| {
          UpdateReadBack(Some(xs[i.value]), p[1..], val);
          UpdateDefined(Some(xs[i.value]), p[1..], val);
        } else {
          UpdateReadBack(None, p[1..], val);
          UpdateDefined(None, p[1..], val);
        }
      case Some(_) =>
    }
  }
}

=== FILE: watchers.dfy ===
/**
 * The watcher-based server of src/buncg.ts. A peer registers watchers, each
 * a (socket, id, cursor) triple; after an action every watcher whose
 * cursor's value changed receives the new value under its id.
 */
module WatchServer {
  import opened Wrappers
  import opened Text
  import opened Values
  import opened Registry

  /** A watcher; the cursor is a path here and a dotted string in src/model.ts. */
  datatype Watcher<C> = Watcher(peer: PeerId, id: string, cursor: C)

  /** The `emit` message: the watcher's id and the value now under its cursor. */
  datatype Event = Event(peer: PeerId, id: string, state: Option<Value>)

  datatype Server = Server(state: Value, watchers: seq<Watcher<Path>>)

  /** A draft function as `withMutations` runs it: the mutated tree, or `None` when it throws. */
  type Mutation = Value -> Option<Value>

  /** An action: given the payload, the draft function it runs (at once, or when its promise resolves). */
  type Action = Option<Value> -> Mutation

  datatype Reply = Reply(srv: Server, events: seq<Event>, thrown: bool)

  /** The constructor: the model's state as an immutable tree, and no watchers. */
  function Startup(state: Value): (srv: Server)
    ensures srv.state == state && srv.watchers == []
  {
    Server(state, [])
  }

  /** The event a watcher gets for the tree `t`: `t.getIn(cursor)`. */
  function Notice(w: Watcher<Path>, t: Value): Event {
    Event(w.peer, w.id, At(Some(t), w.cursor))
  }

  predicate Changed(w: Watcher<Path>, before: Value, after: Value) {
    At(Some(before), w.cursor) != At(Some(after), w.cursor)
  }

  /** The events queued by `_handleActionMutate`, in watcher order. */
  function Events(ws: seq<Watcher<Path>>, before: Value, after: Value): (r: seq<Event>)
    ensures |r| <= |ws|
    decreases |ws|
  {
    if ws == [] then [] else EventOf(ws[0], before, after) + Events(ws[1..], before, after)
  }

  /** The event one watcher gets, if its value changed. */
  function EventOf(w: Watcher<Path>, before: Value, after: Value): seq<Event> {
    if Changed(w, before, after) then [Notice(w, after)] else []
  }

  /** A watcher gets an event exactly when the value under its cursor changed, and the event carries the new value. */
  lemma {:induction false} EventsExactly(ws: seq<Watcher<Path>>, before: Value, after: Value)
    ensures forall w :: w in ws && Changed(w, before, after) ==> Notice(w, after) in Events(ws, before, after)
    ensures forall e :: e in Events(ws, before, after) ==>
      (exists w :: w in ws && Changed(w, before, after) && e == Notice(w, after))
    decreases |ws|
  {
    if ws != [] {
      EventsExactly(ws[1..], before, after);
      assert forall w :: w in ws ==> w == ws[0] || w in ws[1..];
      forall e | e in Events(ws, before, after)
        ensures exists w :: w in ws && Changed(w, before, after) && e == Notice(w, after)
      {
        if e !in Events(ws[1..], before, after) {
          assert ws[0] in ws;
        } else {
          var w :| w in ws[1..] && Changed(w, before, after) && e == Notice(w, after);
          assert w in ws;
        }
      }
    }
  }

  /** Events of a concatenation are the events of each part, in order. */
  lemma {:induction false} EventsAppend(a: seq<Watcher<Path>>, b: seq<Watcher<Path>>, before: Value, after: Value)
    ensures Events(a + b, before, after) == Events(a, before, after) + Events(b, before, after)
    decreases |a|
  {
    if a == [] {
      assert a + b == b;
    } else {
      var ab := a + b;
      assert ab[0] == a[0] && ab[1..] == a[1..] + b;
      EventsAppend(a[1..], b, before, after);
      var head := EventOf(a[0], before, after);
      var x, y := Events(a[1..], before, after), Events(b, before, after);
      assert Events(ab, before, after) == head + (x + y);
      assert Events(a, before, after) == head + x;
      AppendAssoc(head, x, y);
    }
  }

  lemma AppendAssoc(a: seq<Event>, b: seq<Event>, c: seq<Event>)
    ensures a + (b + c) == (a + b) + c
  {
    assert |a + (b + c)| == |(a + b) + c|;
    forall i | 0 <= i < |a + (b + c)| ensures (a + (b + c))[i] == ((a + b) + c)[i] {
      if i >= |a| + |b| {
        assert (a + (b + c))[i] == c[i - |a| - |b|];
      }
    }
  }

  /**
   * `_handleActionMutate`: a throwing draft function changes nothing;
   * otherwise the events are queued against the old tree, the new tree is
   * installed, and the events are sent.
   */
  function HandleMutate(srv: Server, m: Mutation): (r: Reply)
    ensures r.srv.watchers == srv.watchers
    ensures r.thrown <==> m(srv.state).None?
    ensures r.thrown ==> r.srv == srv && r.events == []
    ensures !r.thrown ==> r.srv.state == m(srv.state).value
    ensures !r.thrown ==> r.events == Events(srv.watchers, srv.state, r.srv.state)
  {
    match m(srv.state)
    case None => Reply(srv, [], true)
    case Some(mutated) => Reply(srv.(state := mutated), Events(srv.watchers, srv.state, mutated), false)
  }

  /** An action that leaves the tree as it was notifies nobody. */
  lemma UnchangedNotifiesNobody(ws: seq<Watcher<Path>>, t: Value)
    ensures Events(ws, t, t) == []
  {
    EventsExactly(ws, t, t);
  }

  /**
   * What a peer holds for one watcher id after reading a run of events:
   * the state of the last event for that id, or what it held before.
   */
  function Track(v: Option<Value>, events: seq<Event>, peer: PeerId, id: string): Option<Value>
    decreases |events|
  {
    if events == [] then v
    else
      var last := events[|events| - 1];
      if last.peer == peer && last.id == id then last.state
      else Track(v, events[..|events| - 1], peer, id)
  }

  lemma {:induction false} TrackAppend(v: Option<Value>, a: seq<Event>, b: seq<Event>, peer: PeerId, id: string)
    ensures Track(v, a + b, peer, id) == Track(Track(v, a, peer, id), b, peer, id)
    decreases |b|
  {
    if b == [] {
      assert a + b == a;
    } else {
      assert (a + b)[..|a + b| - 1] == a + b[..|b| - 1];
      TrackAppend(v, a, b[..|b| - 1], peer, id);
    }
  }

  /**
   * A peer that held a watcher's value before an action and reads the
   * events sent for its id holds the value now under the cursor, provided
   * its other watchers with that id watch the same cursor.
   */
  lemma {:induction false} WatcherStaysCurrent(ws: seq<Watcher<Path>>, before: Value, after: Value, w: Watcher<Path>)
    requires forall x :: x in ws && x.peer == w.peer && x.id == w.id ==> x.cursor == w.cursor
    requires w in ws
    ensures Track(At(Some(before), w.cursor), Events(ws, before, after), w.peer, w.id) == At(Some(after), w.cursor)
  {
    TrackOver(ws, before, after, w);
  }

  lemma {:induction false} TrackOver(ws: seq<Watcher<Path>>, before: Value, after: Value, w: Watcher<Path>)
    requires forall x :: x in ws && x.peer == w.peer && x.id == w.id ==> x.cursor == w.cursor
    ensures var t := Track(At(Some(before), w.cursor), Events(ws, before, after), w.peer, w.id);
      t == At(Some(before), w.cursor) || t == At(Some(after), w.cursor)
    ensures w in ws ==>
      Track(At(Some(before), w.cursor), Events(ws, before, after), w.peer, w.id) == At(Some(after), w.cursor)
    decreases |ws|
  {
    var v := At(Some(before), w.cursor);
    if ws != [] {
      var n := |ws| - 1;
      var init, x := ws[..n], ws[n];
      assert ws == init + [x];
      forall y | y in init && y.peer == w.peer && y.id == w.id ensures y.cursor == w.cursor {
        assert y in ws;
      }
      TrackOver(init, before, after, w);
      EventsAppend(init, [x], before, after);
      assert x in ws;
      TrackStep(v, Events(init, before, after), x, before, after, w.peer, w.id);
      if w in ws && w !in init {
        assert w == x;
      }
    }
  }

  /** Reading one more watcher's events: its new value when it matches and changed, else what was held. */
  lemma TrackStep(v: Option<Value>, evs: seq<Event>, x: Watcher<Path>, before: Value, after: Value, peer: PeerId, id: string)
    ensures Track(v, evs + Events([x], before, after), peer, id) ==
      if x.peer == peer && x.id == id && Changed(x, before, after) then At(Some(after), x.cursor)
      else Track(v, evs, peer, id)
  {
    var tail := Events([x], before, after);
    assert [x][1..] == [];
    assert tail == EventOf(x, before, after) + [];
    TrackAppend(v, evs, tail, peer, id);
    if tail != [] {
      assert tail[..0] == [];
    }
  }

  /** `_handleWatch`: appends the watcher and sends it the value under its cursor now. */
  function Watch(srv: Server, peer: PeerId, id: string, cursor: Path): (r: (Server, Event))
    ensures r.0.state == srv.state && r.0.watchers == srv.watchers + [Watcher(peer, id, cursor)]
    ensures r.1 == Event(peer, id, At(Some(srv.state), cursor))
  {
    var w := Watcher(peer, id, cursor);
    (srv.(watchers := srv.watchers + [w]), Notice(w, srv.state))
  }

  /** The watchers `drop` does not select, in their order. */
  function Without<C(!new)>(ws: seq<Watcher<C>>, drop: Watcher<C> -> bool): (r: seq<Watcher<C>>)
    ensures |r| <= |ws|
    ensures forall w :: w in r <==> w in ws && !drop(w)
    decreases |ws|
  {
    if ws == [] then []
    else
      var rest := Without(ws[1..], drop);
      assert forall w :: w in ws <==> w == ws[0] || w in ws[1..];
      if drop(ws[0]) then rest else [ws[0]] + rest
  }

  /** Removing watchers keeps the others in their order: it distributes over concatenation. */
  lemma {:induction false} WithoutAppend<C(!new)>(a: seq<Watcher<C>>, b: seq<Watcher<C>>, drop: Watcher<C> -> bool)
    ensures Without(a + b, drop) == Without(a, drop) + Without(b, drop)
    decreases |a|
  {
    if a == [] {
      assert a + b == b;
    } else {
      assert (a + b)[0] == a[0] && (a + b)[1..] == a[1..] + b;
      WithoutAppend(a[1..], b, drop);
    }
  }

  /** Removing nothing keeps the list as it is. */
  lemma {:induction false} WithoutNothing<C(!new)>(ws: seq<Watcher<C>>, drop: Watcher<C> -> bool)
    requires forall w :: w in ws ==> !drop(w)
    ensures Without(ws, drop) == ws
    decreases |ws|
  {
    if ws != [] {
      assert ws[0] in ws;
      forall w | w in ws[1..] ensures !drop(w) {
        assert w in ws;
      }
      WithoutNothing(ws[1..], drop);
    }
  }

  /** `_handleUnwatch`: drops every watcher with the id. */
  function Unwatch(srv: Server, id: string): (r: Server)
    ensures r.state == srv.state
    ensures forall w :: w in r.watchers <==> w in srv.watchers && w.id != id
  {
    srv.(watchers := Without(srv.watchers, (w: Watcher<Path>) => w.id == id))
  }

  /** The socket's `close` handler: drops every watcher of the peer. */
  function Close(srv: Server, peer: PeerId): (r: Server)
    ensures r.state == srv.state
    ensures forall w :: w in r.watchers <==> w in srv.watchers && w.peer != peer
  {
    srv.(watchers := Without(srv.watchers, (w: Watcher<Path>) => w.peer == peer))
  }

  /** Watching under a fresh id and unwatching it leaves the watchers as they were. */
  lemma WatchThenUnwatch(srv: Server, peer: PeerId, id: string, cursor: Path)
    requires forall w :: w in srv.watchers ==> w.id != id
    ensures Unwatch(Watch(srv, peer, id, cursor).0, id) == srv
  {
    var drop := (w: Watcher<Path>) => w.id == id;
    var w := Watcher(peer, id, cursor);
    WithoutAppend(srv.watchers, [w], drop);
    WithoutNothing(srv.watchers, drop);
    assert Without([w], drop) == [];
  }

  /** What one socket message asking for an action leads to. */
  datatype Handled =
    | Ran(reply: Reply)            // the action ran now
    | Deferred(mutation: Mutation) // an `Async` action; its draft function runs when the promise resolves

  /**
   * `_handleAction({action, payload})`: an unknown name is ignored; a name
   * ending in `Async` defers the draft function its promise resolves to;
   * any other action runs now.
   */
  function Dispatch(actions: map<string, Action>, srv: Server, name: string, payload: Option<Value>): (h: Handled)
    ensures name !in actions ==> h == Ran(Reply(srv, [], false))
    ensures name in actions ==> (h.Deferred? <==> EndsWith(name, "Async"))
    ensures name in actions && !EndsWith(name, "Async") ==> h == Ran(HandleMutate(srv, actions[name](payload)))
    ensures h.Deferred? ==> h.mutation == actions[name](payload)
  {
    if name !in actions then Ran(Reply(srv, [], false))
    else if EndsWith(name, "Async") then Deferred(actions[name](payload))
    else Ran(HandleMutate(srv, actions[name](payload)))
  }
}

/**
 * The watcher-based server of src/model.ts, on immer drafts. Cursors are
 * dotted strings. After an action, a watcher is sent the value under its
 * cursor when the cursor sees the path of some patch the draft recorded.
 */
module ModelServer {
  import opened Wrappers
  import opened Text
  import opened Values
  import opened Registry
  import WatchServer
  import BunCG
  import Config

  type State = map<string, Value>

  /**
   * A draft function as immer runs it: the finished state and the paths of
   * the patches immer recorded, or `None` when it throws.
   */
  type Recipe = State -> Option<(State, seq<Path>)>

  /**
   * An action, told apart by its arity: a one-argument resolver is awaited
   * for the recipe it resolves to; any other takes the payload and the draft.
   */
  datatype Resolver =
    | Awaited(resolve: Option<Value> -> Recipe)
    | Immediate(recipe: Option<Value> -> Recipe)

  datatype Server = Server(state: State, watchers: seq<WatchServer.Watcher<string>>)

  /** What an event handler did: the server after it, the messages sent, and whether it threw. */
  datatype Reply = Reply(srv: Server, events: seq<WatchServer.Event>, thrown: bool)

  /** The constructor: function members become actions, the others the state. */
  function Startup(model: map<string, Config.Member<Resolver>>): (r: (Server, map<string, Resolver>))
    ensures r.0.watchers == [] && r.0.state.Keys !! r.1.Keys
    ensures forall k :: k in model ==> (k in r.0.state <==> model[k].Data?)
    ensures forall k :: k in r.0.state ==> k in model && model[k] == Config.Data(r.0.state[k])
    ensures forall k :: k in r.1 ==> k in model && model[k] == Config.Action(r.1[k])
  {
    var c := Config.Split(model);
    (Server(c.state, []), c.actions)
  }

  /** `state[path]`: fails on `undefined` and `null`; a string yields its character at an index. */
  function Step(s: Option<Value>, k: string): (r: Result<Option<Value>, PathError>)
    ensures r.Err? <==> s.None? || s == Some(Null)
    ensures s.Some? && s.value.IsContainer() ==> r == Ok(Child(s.value, k))
  {
    match s
    case None => Err(RootUndefined)
    case Some(Null) => Err(NotAContainer)
    case Some(Str(t)) =>
      (match ParseIndex(k)
       case Some(i) => if i < |t| then Ok(Some(Str([t[i]]))) else Ok(None)
       case None => Ok(None))
    case Some(v) => Ok(Child(v, k))
  }

  /** Walks the segments, skipping the empty ones. */
  function Walk(s: Option<Value>, segs: seq<string>): Result<Option<Value>, PathError>
    decreases |segs|
  {
    if segs == [] then Ok(s)
    else if segs[0] == "" then Walk(s, segs[1..])
    else
      var c :- Step(s, segs[0]);
      Walk(c, segs[1..])
  }

  /** `cursorState(cursor)`: the value under the dotted cursor. */
  function CursorState(st: State, cursor: string): Result<Option<Value>, PathError> {
    Walk(Some(Obj(st)), Split(cursor, '.'))
  }

  /** The empty cursor watches the whole state. */
  lemma CursorStateRoot(st: State)
    ensures CursorState(st, "") == Ok(Some(Obj(st)))
  {
    assert Split("", '.') == [""];
    assert [""][1..] == [];
  }

  /**
   * Where the tree has a value under a path of non-empty segments, the walk
   * finds it: on containers the cursor reads what `getIn` reads.
   */
  lemma {:induction false} WalkAt(s: Option<Value>, segs: seq<string>)
    requires forall i :: 0 <= i < |segs| ==> segs[i] != ""
    requires At(s, segs).Some?
    ensures Walk(s, segs) == Ok(At(s, segs))
    decreases |segs|
  {
    if segs != [] {
      var c := Child(s.value, segs[0]);
      assert c.Some? by {
        if c.None? { AtNone(segs[1..]); }
      }
      WalkAt(c, segs[1..]);
    }
  }

  /** `cursorSeesPath(cursor, path)`. */
  predicate CursorSeesPath(cursor: string, path: Path) {
    cursor == "" || BunCG.CursorMatches(Split(cursor, '.'), path)
  }

  /** For a cursor of non-empty, dot-free segments, seeing a path is the scope test. */
  lemma CursorSeesPathIsSees(segs: seq<string>, path: Path)
    requires |segs| >= 1
    requires forall i :: 0 <= i < |segs| ==> segs[i] != "" && Free(segs[i], '.')
    ensures CursorSeesPath(Join(segs, '.'), path) <==> Sees(segs, path)
  {
    SplitJoin(segs, '.');
    BunCG.CursorMatchesIsSees(segs, path);
    JoinNonEmpty(segs);
  }

  lemma JoinNonEmpty(segs: seq<string>)
    requires |segs| >= 1 && segs[0] != ""
    ensures Join(segs, '.') != ""
  {
    if |segs| > 1 {
      assert Join(segs, '.')[0] == segs[0][0];
    }
  }

  predicate Interested(w: WatchServer.Watcher<string>, paths: seq<Path>) {
    exists q :: q in paths && CursorSeesPath(w.cursor, q)
  }

  /** What the loop over the watchers sent, and whether a cursor read threw and ended it. */
  datatype Outcome = Outcome(events: seq<WatchServer.Event>, failed: bool)

  /**
   * The loop of `handleAction`: each interested watcher in turn is sent the
   * value under its cursor; a cursor read that throws ends the loop.
   */
  function Notify(ws: seq<WatchServer.Watcher<string>>, st: State, paths: seq<Path>): (r: Outcome)
    ensures |r.events| <= |ws|
    ensures r.failed <==> exists w :: w in ws && Interested(w, paths) && CursorState(st, w.cursor).Err?
    ensures !r.failed ==> forall w :: w in ws && Interested(w, paths) ==>
      WatchServer.Event(w.peer, w.id, CursorState(st, w.cursor).value) in r.events
    ensures forall e :: e in r.events ==>
      (exists w :: w in ws && Interested(w, paths) && CursorState(st, w.cursor).Ok? && e == WatchServer.Event(w.peer, w.id, CursorState(st, w.cursor).value))
    decreases |ws|
  {
    if ws == [] then Outcome([], false)
    else
      assert forall w :: w in ws <==> w == ws[0] || w in ws[1..];
      var w := ws[0];
      if !Interested(w, paths) then Notify(ws[1..], st, paths)
      else match CursorState(st, w.cursor)
        case Err(_) => Outcome([], true)
        case Ok(v) =>
          var rest := Notify(ws[1..], st, paths);
          Outcome([WatchServer.Event(w.peer, w.id, v)] + rest.events, rest.failed)
  }

  /** An action that recorded no patch notifies nobody. */
  lemma NoPatchesNoEvents(ws: seq<WatchServer.Watcher<string>>, st: State)
    ensures Notify(ws, st, []) == Outcome([], false)
  {
  }

  /** The root cursor is interested in every action that recorded a patch. */
  lemma RootCursorInterested(w: WatchServer.Watcher<string>, paths: seq<Path>)
    requires w.cursor == "" && paths != []
    ensures Interested(w, paths)
  {
    assert paths[0] in paths && CursorSeesPath(w.cursor, paths[0]);
  }

  /**
   * Runs a recipe against the state: a throwing recipe changes nothing;
   * otherwise the finished state is installed and the watchers notified.
   */
  function Apply(srv: Server, recipe: Recipe): (r: Reply)
    ensures r.srv.watchers == srv.watchers
    ensures r.thrown ==> recipe(srv.state).None? || |r.events| < |srv.watchers|
    ensures recipe(srv.state).None? ==> r.srv == srv && r.events == [] && r.thrown
    ensures recipe(srv.state).Some? ==>
      r.srv.state == recipe(srv.state).value.0 &&
      r == (var o := Notify(srv.watchers, recipe(srv.state).value.0, recipe(srv.state).value.1);
            Reply(r.srv, o.events, o.failed))
  {
    match recipe(srv.state)
    case None => Reply(srv, [], true)
    case Some((st, paths)) =>
      var o := Notify(srv.watchers, st, paths);
      NotifyFailedShort(srv.watchers, st, paths);
      Reply(srv.(state := st), o.events, o.failed)
  }

  /** A loop that a throwing cursor read ended sent fewer events than there are watchers. */
  lemma {:induction false} NotifyFailedShort(ws: seq<WatchServer.Watcher<string>>, st: State, paths: seq<Path>)
    ensures Notify(ws, st, paths).failed ==> |Notify(ws, st, paths).events| < |ws|
    decreases |ws|
  {
    if ws != [] && Interested(ws[0], paths) && CursorState(st, ws[0].cursor).Ok? {
      NotifyFailedShort(ws[1..], st, paths);
    }
  }

  /** What one socket message asking for an action leads to. */
  datatype Handled =
    | Ran(reply: Reply)        // the action ran now
    | Awaiting(recipe: Recipe) // a one-argument resolver; its recipe runs once awaited
    | Rejected                 // no action of that name: reading `length` of `undefined` throws

  /** `handleAction({action, payload})`. */
  function HandleAction(actions: map<string, Resolver>, srv: Server, name: string, payload: Option<Value>): (h: Handled)
    ensures h.Rejected? <==> name !in actions
    ensures h.Awaiting? <==> name in actions && actions[name].Awaited?
    ensures h.Awaiting? ==> h.recipe == actions[name].resolve(payload)
    ensures h.Ran? ==> h.reply == Apply(srv, actions[name].recipe(payload))
  {
    if name !in actions then Rejected
    else match actions[name]
      case Awaited(f) => Awaiting(f(payload))
      case Immediate(f) => Ran(Apply(srv, f(payload)))
  }

  /** `handleWatch`: appends the watcher, then sends it the value under its cursor, which may throw. */
  function Watch(srv: Server, peer: PeerId, id: string, cursor: string): (r: Reply)
    ensures r.srv.state == srv.state && r.srv.watchers == srv.watchers + [WatchServer.Watcher(peer, id, cursor)]
    ensures r.thrown <==> CursorState(srv.state, cursor).Err?
    ensures !r.thrown ==> r.events == [WatchServer.Event(peer, id, CursorState(srv.state, cursor).value)]
    ensures r.thrown ==> r.events == []
  {
    var srv' := srv.(watchers := srv.watchers + [WatchServer.Watcher(peer, id, cursor)]);
    match CursorState(srv.state, cursor)
    case Err(_) => Reply(srv', [], true)
    case Ok(v) => Reply(srv', [WatchServer.Event(peer, id, v)], false)
  }

  /** `handleUnwatch`: drops every watcher with the id. */
  function Unwatch(srv: Server, id: string): (r: Server)
    ensures r.state == srv.state
    ensures forall w :: w in r.watchers <==> w in srv.watchers && w.id != id
  {
    srv.(watchers := WatchServer.Without(srv.watchers, (w: WatchServer.Watcher<string>) => w.id == id))
  }

  /** The socket's `close` handler: drops every watcher of the peer. */
  function Close(srv: Server, peer: PeerId): (r: Server)
    ensures r.state == srv.state
    ensures forall w :: w in r.watchers <==> w in srv.watchers && w.peer != peer
  {
    srv.(watchers := WatchServer.Without(srv.watchers, (w: WatchServer.Watcher<string>) => w.peer == peer))
  }
}

=== FILE: wrappers.dfy ===
/** Failure-compatible wrappers shared by every module of the model. */
module Wrappers {

  /** `None` plays the part of JavaScript's `undefined`. */
  datatype Option<+T> = None | Some(value: T) {
    predicate IsFailure() {
      None?
    }

    function PropagateFailure<U>(): Option<U>
      requires None?
    {
      None
    }

    function Extract(): T
      requires Some?
    {
      value
    }

    function GetOr(default: T): T {
      match this
      case Some(v) => v
      case None => default
    }
  }

  /** A computation that either produces a value or raises an error. */
  datatype Result<+R, +E> = Ok(value: R) | Err(error: E) {
    predicate IsFailure() {
      Err?
    }

    function PropagateFailure<U>(): Result<U, E>
      requires Err?
    {
      Err(error)
    }

    function Extract(): R
      requires Ok?
    {
      value
    }
  }
}
